=== FILE: README.md ===
# EvolvEdge client state, modelled in Dafny

EvolvEdge is a personal-growth web app: a user keeps skill levels, goals with
tasks, daily routines and a day planner, and talks to an AI assistant that can
change all four on the user's behalf. This project models the app's
client-side state logic and proves properties of it.

- **The four data stores** (`SkillContext`, `GoalContext`, `RoutineContext`,
  `PlannerContext`) and the roadmap list (`Roadmaps`). Each store is a class
  holding its list. A mutation applies an optimistic change first, then reacts
  to the backend's answer. Success confirms the change or replaces the list
  with the stored rows. A missing table keeps it. Any other error reverts the
  change or clears the list (`initializeSkills` empties it). The planner has
  no backend: an added event is kept in memory.
- **The assistant screen** (`AIChat`, `AssistantTools`): the conversation
  history, new, select and delete with rollback, the history search, the
  title taken from the first message, and the function-call loop of a send.
  That loop dispatches each call the model makes to one of the stores.
- **The smaller rules of the screens:**
  - skill and routine pickers (`SkillSelection`, `RoutineSelection`);
  - skills grouped by category (`SkillGraph`, `SkillCatalog`);
  - planner events grouped by day (`PlannerScreen`);
  - goal progress (`GoalTracker`);
  - route guards (`AppRoutes`);
  - the voice coach's status machine (`SkillCoach`);
  - the onboarding carousel (`Onboarding`);
  - the welcome greeting (`Welcome`).
- **Shared helpers:** `SeqUtil` (filter and conditional map), `Text`
  (trim, lower case, includes, split and join, number rendering, text order),
  `Sorting` (a stable sort under a comparator) and `Remote` (outcomes of
  backend calls).

The models follow one pattern:

- A backend call becomes a `RemoteOutcome` value handed to the operation:
  `Ok(rows)`, `TableMissing`, `FunctionMissing` or `OtherError`. The code tells
  these apart only by the error message's text.
- Every state-changing method `ensures` that its new state is a pure
  specification function of the old state and the outcomes.
- The lemmas about those functions state what the code promises: rollback to
  the snapshot, clamping, in-place replacement, sortedness and stability,
  grouping, and the outcome of each branch.

Behaviours of the code a reader may not expect:

- `update_skill_level` reports the level exactly as the model sent it. For a
  level of 150 the tool result says "150%" while the store keeps 100
  (`AssistantTools.UpdateSkillLevelEchoesRawLevel`).
- The assistant's `add_new_skill` calls `addSkill`, which the skill store does
  not provide. The call throws and the exchange ends with the apology.
- `initializeSkills` replaces the whole list, and no duplicate subject is
  rejected.
- The planner is kept in memory only.
- The assessment service's own apology is written "I'm sorry", with a lower-case
  s. The assistant's test for a failed roadmap looks for "Sorry", so that
  apology is saved as a roadmap (`AssistantTools.FallbackApologyIsSaved`).

## Model

| member | source | states |
|---|---|---|
| SkillContext.Clamp | context/SkillContext.tsx:93 | the level sent and stored lies in [0, 100]; an in-range level is kept, a negative one becomes 0 and one above 100 becomes 100 |
| SkillContext.ClampIdempotent | context/SkillContext.tsx:93 | clamping an already clamped level changes nothing |
| SkillContext.WithLevelOnlyMatching | context/SkillContext.tsx:96-98 | the optimistic map keeps length, order and subjects, gives every entry named `subject` the new level and leaves every other entry untouched |
| SkillContext.FetchSpec | context/SkillContext.tsx:28-54 | without a user the list is emptied; rows (or `[]` for null) replace it; a missing table empties it; any other error keeps the previous list |
| SkillContext.InitializeSpec | context/SkillContext.tsx:59-89 | without a user nothing changes; the returned rows replace the optimistic list; a missing table keeps the optimistic list; any other error empties it |
| SkillContext.UpdateSpecProperties | context/SkillContext.tsx:91-118 | a kept update gives the named subject the clamped level and changes nothing else; a failed one, or one without a user, leaves exactly the snapshot |
| SkillContext.UpdateKeepsLevelsInRange | context/SkillContext.tsx:93-99 | an update never takes a level out of [0, 100] |
| SkillContext.UpdateIdempotent | context/SkillContext.tsx:91-99 | repeating a kept update changes nothing more |
| SkillContext.SkillStore.constructor | context/SkillContext.tsx:24-25 | the store starts empty and loading |
| SkillContext.SkillStore.FetchSkills | context/SkillContext.tsx:28-54 | the new list is `FetchSpec` of the old one and loading ends |
| SkillContext.SkillStore.InitializeSkills | context/SkillContext.tsx:59-89 | the new list is `InitializeSpec`; the rows are sent only with a user |
| SkillContext.SkillStore.UpdateSkill | context/SkillContext.tsx:91-118 | the new list is `UpdateSpec`; the level sent to the backend is the clamped one, only with a user |
| GoalContext.FetchSpec | context/GoalContext.tsx:39-66 | without a user the list is left alone; fetched rows replace it; a missing table shows the two mock goals; any other error keeps the previous list |
| GoalContext.AddResult | context/GoalContext.tsx:70-107 | `addGoal` resolves to null without a user or on a real error, to the stored row (or null) on success, and to the provisional goal when the table is missing |
| GoalContext.AddSpecOutcomes | context/GoalContext.tsx:73-106 | the provisional goal goes first; a stored row replaces it in place; a missing table keeps it; a real error removes it and gives back exactly the earlier list |
| GoalContext.DeleteRemovesOne | context/GoalContext.tsx:109-124 | with unique ids a kept deletion removes exactly that goal and keeps the order of the rest |
| GoalContext.DeleteUnknownOrFailed | context/GoalContext.tsx:109-124 | deleting an unknown id changes nothing and a failed deletion restores the snapshot |
| GoalContext.ToggleGoalProperties | context/GoalContext.tsx:126-141 | only goals with that id change, only in `completed`, which takes the given value (it is set, not flipped); a failure restores the snapshot |
| GoalContext.SetGoalCompletedIdempotent | context/GoalContext.tsx:128 | setting the same value twice is setting it once |
| GoalContext.ToggleTaskProperties | context/GoalContext.tsx:143-161 | goal fields and the number and order of tasks stay; each task with that id, in any goal, takes the value; other tasks keep theirs; a failure restores the snapshot |
| GoalContext.GoalStore.constructor | context/GoalContext.tsx:36-37 | the store starts empty and loading |
| GoalContext.GoalStore.FetchGoals | context/GoalContext.tsx:39-66 | the new list is `FetchSpec` of the old one and loading ends |
| GoalContext.GoalStore.AddGoal | context/GoalContext.tsx:70-107 | the new list is `AddSpec` and the result `AddResult` |
| GoalContext.GoalStore.DeleteGoal | context/GoalContext.tsx:109-124 | the new list is `DeleteSpec` |
| GoalContext.GoalStore.ToggleGoal | context/GoalContext.tsx:126-141 | the new list is `ToggleGoalSpec` |
| GoalContext.GoalStore.ToggleTask | context/GoalContext.tsx:143-161 | the new list is `ToggleTaskSpec` |
| RoutineContext.ProvisionalRows | context/RoutineContext.tsx:78-84 | one unchecked row per draft, in order, the row at position `i` numbered `Date.now() + i` after the `mock-r-` prefix |
| RoutineContext.ProvisionalIdsDistinct | context/RoutineContext.tsx:84 | the provisional ids of one batch are pairwise distinct |
| RoutineContext.ProvisionalRowsAreProvisional | context/RoutineContext.tsx:84-91 | every provisional row carries the `mock-r-` prefix the confirmation filters on |
| RoutineContext.FetchSpec | context/RoutineContext.tsx:27-62 | without a user the list is emptied; rows (or `[]`) replace it; a missing table or function shows the three mock routines; any other error keeps the list; the reset call's own error is ignored |
| RoutineContext.InitializeShowsFreshDrafts | context/RoutineContext.tsx:70-85 | while the insert is pending the stored list is unchanged and is followed by one unchecked row per draft whose title was not stored yet, in draft order |
| RoutineContext.InitializeConfirmed | context/RoutineContext.tsx:88-91 | a kept insert drops every row with a provisional id, the fallback rows included, keeps the others in order and appends the stored rows |
| RoutineContext.MockRoutinesAreProvisional | context/RoutineContext.tsx:16-20 | the three fallback routines carry provisional ids, so a later confirmed insert removes them |
| RoutineContext.InitializeFailedRestores | context/RoutineContext.tsx:92-98 | a failed insert removes exactly the batch: with no stored id clashing, the list is back to what it was |
| RoutineContext.InitializeNothingNew | context/RoutineContext.tsx:68-76 | without a user, or when every draft title is already stored, nothing changes |
| RoutineContext.FindIndex | context/RoutineContext.tsx:104 | `find` by id: -1 exactly when no routine has the id, otherwise the first index that has it |
| RoutineContext.ToggleProperties | context/RoutineContext.tsx:102-128 | an unknown id or a failure changes nothing; otherwise only routines with that id change, only in `completed`, and the first of them flips |
| RoutineContext.FindIndexSameIds | context/RoutineContext.tsx:104 | `find` looks only at ids, so a toggle does not move the routine it finds |
| RoutineContext.ToggleUniqueFlipsOne | context/RoutineContext.tsx:104-111 | with unique ids a kept toggle of a known id flips exactly that one routine |
| RoutineContext.ToggleTwiceRestores | context/RoutineContext.tsx:102-128 | with unique ids two kept toggles of the same routine restore the list |
| RoutineContext.RoutineStore.constructor | context/RoutineContext.tsx:24-25 | the store starts empty and loading |
| RoutineContext.RoutineStore.FetchRoutines | context/RoutineContext.tsx:27-62 | the new list is `FetchSpec` of the old one and loading ends |
| RoutineContext.RoutineStore.InitializeRoutines | context/RoutineContext.tsx:67-100 | the new list is `InitializeSpec`; rows are sent only with a user and at least one fresh draft |
| RoutineContext.RoutineStore.ToggleRoutine | context/RoutineContext.tsx:102-128 | the new list is `ToggleSpec` |
| Sorting.InsertPermutes | context/PlannerContext.tsx:26 | inserting one entry adds exactly that entry |
| Sorting.InsertSorted | context/PlannerContext.tsx:26 | inserting into an ordered list under a total preorder keeps it ordered |
| Sorting.SortSpecSorted | context/PlannerContext.tsx:26 | the sorted arrangement is ordered by the comparator and is a permutation of the input |
| Sorting.InsertStable | context/PlannerContext.tsx:26 | inserting keeps the relative order of the entries tied with any key and puts a tied new entry after them |
| Sorting.SortSpecStable | context/PlannerContext.tsx:26 | the sort is stable: the entries tied with any key keep their relative order |
| Sorting.InsertStepLeft | context/PlannerContext.tsx:26 | one step of moving an entry left past a strictly greater one keeps the loop's arrangement equal to the insertion |
| Sorting.InsertionSort | context/PlannerContext.tsx:26 | the loop computes the stably sorted arrangement |
| PlannerContext.StrLeqIsTotalPreorder | pages/PlannerScreen.tsx:45 | the default string order of `sort()` is total and transitive |
| PlannerContext.EventLeqIsTotalPreorder | context/PlannerContext.tsx:26 | the comparator (date first, then the time text) orders all events totally |
| PlannerContext.EventLeqTransitive | context/PlannerContext.tsx:26 | the comparator is transitive |
| PlannerContext.AddSortedPermutation | context/PlannerContext.tsx:21-27 | after `addEvent` the list is ordered by date and time and holds exactly the previous events plus the new one |
| PlannerContext.AddStable | context/PlannerContext.tsx:26 | events at the same date and time keep their previous order and the new one comes last among them |
| PlannerContext.AfternoonBeforeMorning | context/PlannerContext.tsx:12-26 | times compare as text, so the starting events are not in time order and after any addition "02:00 PM" is listed before "09:00 AM" |
| PlannerContext.Planner.constructor | context/PlannerContext.tsx:12-19 | the planner starts with the three sample events of today |
| PlannerContext.Planner.AddEvent | context/PlannerContext.tsx:21-27 | the new list is the sorted list of the old events and the new one, with `Date.now()` as its id |
| PlannerScreen.CategoryColorsDefined | pages/PlannerScreen.tsx:6-10 | a colour is defined for exactly the three categories |
| PlannerScreen.DistinctDates | pages/PlannerScreen.tsx:40-43 | the dictionary's keys in insertion order: no date twice, and a date is a key exactly when some event has it |
| PlannerScreen.GroupsStep | pages/PlannerScreen.tsx:41 | one step of the `reduce` keeps every key's list equal to the events on that date in list order |
| PlannerScreen.GroupsLoopStep | pages/PlannerScreen.tsx:40-43 | one step of the grouping loop keeps both the key order and the groups |
| PlannerScreen.GroupEvents | pages/PlannerScreen.tsx:40-43 | the loop builds, under each event date and no other key, the events of that date in list order, and lists the keys in first-seen order |
| PlannerScreen.SortedDates | pages/PlannerScreen.tsx:45 | the listed dates are the sorted keys |
| PlannerScreen.SortedDatesProperties | pages/PlannerScreen.tsx:45 | every event date is listed exactly once, in strictly ascending order |
| PlannerScreen.ConcatGroupsPermutation | pages/PlannerScreen.tsx:54-68 | listing the groups of distinct dates that cover all events shows every event exactly once |
| PlannerScreen.ScreenShowsEveryEventOnce | pages/PlannerScreen.tsx:40-68 | the screen shows each event exactly once, under its own date, days ascending and events in list order within a day |
| Roadmaps.FetchSpec | pages/RoadmapsScreen.tsx:32-60 | without a user or on a real error the list is kept; rows (or `[]`) replace it; a missing table shows the one sample roadmap |
| Roadmaps.DeleteRemovesOne | pages/RoadmapsScreen.tsx:62-76 | with unique ids a kept deletion removes exactly that roadmap and keeps the others in order |
| Roadmaps.DeleteOutcomes | pages/RoadmapsScreen.tsx:62-76 | a failed deletion restores the list; a kept one leaves no roadmap with that id and every other roadmap in place |
| Roadmaps.RenderProperties | pages/RoadmapsScreen.tsx:129-131 | the rendered pieces alternate plain and bold starting with plain, none holds the marker, and joining them with the marker gives the text back |
| Roadmaps.RenderPlain | pages/RoadmapsScreen.tsx:129-131 | a text without markers is shown as one plain piece |
| Roadmaps.RoadmapList.constructor | pages/RoadmapsScreen.tsx:29-30 | the screen starts empty and loading |
| Roadmaps.RoadmapList.FetchRoadmaps | pages/RoadmapsScreen.tsx:32-60 | the new list is `FetchSpec` of the old one and loading ends |
| Roadmaps.RoadmapList.DeleteRoadmap | pages/RoadmapsScreen.tsx:62-76 | the new list is `DeleteSpec` |
| RoutineSelection.ToggleFlips | pages/RoutineSelectionScreen.tsx:23-32 | toggling flips whether the title is picked, keeps every other pick and keeps titles unique; a new pick is appended at the end, and with unique titles a removal takes out just that pick and keeps the others in order |
| RoutineSelection.ToggleTwice | pages/RoutineSelectionScreen.tsx:23-32 | picking a routine and toggling it again gives the picks back |
| RoutineSelection.RoutinePicker.constructor | pages/RoutineSelectionScreen.tsx:18-19 | nothing is picked and nothing is being submitted |
| RoutineSelection.RoutinePicker.ToggleRoutine | pages/RoutineSelectionScreen.tsx:23-32 | the picks become `Toggle` of the old picks |
| RoutineSelection.RoutinePicker.HandleContinue | pages/RoutineSelectionScreen.tsx:34-43 | always leads to "/home"; the routine store is written only when something was picked, and then as `initializeRoutines` specifies |
| SkillCatalog.Names | pages/SkillGraphScreen.tsx:139 | `Object.keys` of the categories: one name per category, in declaration order |
| SkillCatalog.AllSkills | pages/SkillSelectionScreen.tsx:41 | `Object.values(...).flat()`: a skill is listed exactly when some category holds it |
| SkillSelection.ToggleFlips | pages/SkillSelectionScreen.tsx:29-33 | toggling flips the skill's membership, leaves every other skill's membership alone and keeps the selection free of duplicates; a new pick is appended at the end, and without duplicates a removal takes out just that entry and keeps the others in order |
| SkillSelection.ToggleTwice | pages/SkillSelectionScreen.tsx:29-33 | selecting an unselected skill and toggling it again gives the selection back |
| SkillSelection.FindIgnoringCase | pages/SkillSelectionScreen.tsx:43 | nothing is found exactly when no entry equals the text ignoring case; a found entry is on the list and equals it ignoring case |
| SkillSelection.AddCustomOutcomes | pages/SkillSelectionScreen.tsx:35-58 | a blank entry changes nothing; a case-insensitive match selects the existing spelling (or leaves it selected) without growing the list; a new skill is appended to the user's list and selected; in both cases the selection is kept in order and the skill is appended at its end unless already selected; the field is cleared |
| SkillSelection.ToggleKeepsValid | pages/SkillSelectionScreen.tsx:29-33 | toggling an offered skill keeps the selection duplicate-free and within the offered skills |
| SkillSelection.AddCustomKeepsValid | pages/SkillSelectionScreen.tsx:35-58 | adding a custom skill keeps the selection duplicate-free, within the offered skills, and keeps the user's skills distinct, ignoring case, from every skill before them |
| SkillSelection.AddNewSkillKeepsValid | pages/SkillSelectionScreen.tsx:50-55 | adding a skill that matches nothing on offer keeps the picker valid |
| SkillSelection.AppendSelectedKeepsNoDup | pages/SkillSelectionScreen.tsx:53-54 | appending a skill not yet selected keeps the selection free of duplicates |
| SkillSelection.AppendUserSkillKeepsDistinct | pages/SkillSelectionScreen.tsx:40-52 | a skill that differs, ignoring case, from every offered skill keeps the user's skills case-distinct |
| SkillSelection.StartingSkills | pages/SkillSelectionScreen.tsx:64-67 | one skill per selected subject, in order, each at level 10 |
| SkillSelection.SkillPicker.constructor | pages/SkillSelectionScreen.tsx:20-27 | nothing selected, no user skills, an empty field, not submitting |
| SkillSelection.SkillPicker.ToggleSkill | pages/SkillSelectionScreen.tsx:29-33 | the selection becomes `Toggle` of the old one and nothing else changes |
| SkillSelection.SkillPicker.AddCustomSkill | pages/SkillSelectionScreen.tsx:35-58 | the picker becomes `AddCustomSpec` of the old state |
| SkillSelection.SkillPicker.HandleContinue | pages/SkillSelectionScreen.tsx:60-72 | with nothing selected nothing happens; otherwise the starting skills are handed to the skill store and the screen moves to "/routine-selection" |
| SkillGraph.AssignSkillsAt | pages/SkillGraphScreen.tsx:125-127 | after one category's pass a skill is mapped when it was before or is in the list; listed skills map to the category and the others keep their entry |
| SkillGraph.SkillToCategoryLastWins | pages/SkillGraphScreen.tsx:123-128 | a skill is mapped exactly when some category lists it, and to the last category that lists it |
| SkillGraph.CategoryIsAName | pages/SkillGraphScreen.tsx:123-128 | every category the map assigns is one of the declared category names |
| SkillGraph.BuildSkillToCategory | pages/SkillGraphScreen.tsx:123-128 | the nested loops build exactly the specified map |
| SkillGraph.GroupsAreFilters | pages/SkillGraphScreen.tsx:130-137 | each group holds exactly the skills of its category in input order, and a group exists only when it is nonempty |
| SkillGraph.EverySkillInOneGroup | pages/SkillGraphScreen.tsx:130-137 | every skill lands in the group of its category (its mapped category, or "Other") and in no other group |
| SkillGraph.GroupSkills | pages/SkillGraphScreen.tsx:130-137 | the loop form of the `reduce` builds exactly the specified groups |
| SkillGraph.CategoryOrderListsGroups | pages/SkillGraphScreen.tsx:139-142 | the order lists exactly the groups there are: the declared categories that have a group, in declaration order, then "Other" exactly when it has a group |
| SkillGraph.ChartFor | pages/SkillGraphScreen.tsx:166-169 | no chart without skills, a radar chart from three skills on, a bar chart for one or two |
| SkillGraph.AssessOutcomes | pages/SkillGraphScreen.tsx:69-83 | a blank query asks nothing; any other query replaces the shown text with the reply, or the fixed apology when the assistant failed, and clears the saved mark |
| SkillGraph.AssessThenSave | pages/SkillGraphScreen.tsx:69-110 | after an assessment that produced text a signed-in save inserts the trimmed query and that text, the apology included, and marks it saved exactly when the insert succeeds |
| SkillGraph.CloseThenSaveDoesNothing | pages/SkillGraphScreen.tsx:85-117 | closing the modal empties it, so a save right after inserts nothing |
| SkillGraph.SkillGraphPanel.constructor | pages/SkillGraphScreen.tsx:30-38 | no analysis, not loading, the modal closed and empty |
| SkillGraph.SkillGraphPanel.GetAnalytics | pages/SkillGraphScreen.tsx:55-67 | the analysis is the reply or the fixed apology, and loading ends |
| SkillGraph.SkillGraphPanel.OpenAssessmentModal | pages/SkillGraphScreen.tsx:157 | opens the modal and changes nothing else |
| SkillGraph.SkillGraphPanel.GetAssessment | pages/SkillGraphScreen.tsx:69-83 | the modal becomes `AssessSpec` of the old one |
| SkillGraph.SkillGraphPanel.SaveRoadmap | pages/SkillGraphScreen.tsx:85-110 | inserts `SavePayload` of the modal; the closing timer starts exactly when the insert succeeds; the modal becomes `SaveSpec` |
| SkillGraph.SkillGraphPanel.SaveTimerFires | pages/SkillGraphScreen.tsx:97-100 | closes the modal and navigates to "/roadmaps" |
| SkillGraph.SkillGraphPanel.CloseAssessmentModal | pages/SkillGraphScreen.tsx:112-117 | the modal becomes `CloseSpec` of the old one: closed, query and text cleared, not saved |
| SkillCoach.ErrorIsSpokenThenIdle | pages/SkillCoachScreen.tsx:56-81 | any code but the three known ones gets the default message; an error is shown and spoken, and once the speech ends the screen is idle with the message still shown |
| SkillCoach.EndKeepsPendingAnswer | pages/SkillCoachScreen.tsx:42-95 | recognition ending after a result never cancels processing or speaking, whichever of the end and the answer comes first |
| SkillCoach.QuestionRoundTrip | pages/SkillCoachScreen.tsx:36-107 | listening, a transcript, the end of listening, an answer and its end bring the screen back to idle showing the answer (or the apology) and the transcript |
| SkillCoach.MicClick | pages/SkillCoachScreen.tsx:120-129 | without recognition the button does nothing; while listening it stops; when idle or speaking it starts listening; while processing it does nothing |
| SkillCoach.StatusTextsDiffer | pages/SkillCoachScreen.tsx:131-138 | each status has its own text |
| SkillCoach.CoachScreen.constructor | pages/SkillCoachScreen.tsx:12-29 | the screen starts idle with no transcript, showing the apology when the browser has no speech recognition |
| SkillCoach.CoachScreen.Handle | pages/SkillCoachScreen.tsx:36-107 | the screen after a browser or assistant event is `Step` of the screen before |
| SkillCoach.CoachScreen.HandleMicClick | pages/SkillCoachScreen.tsx:120-129 | the button's action is `MicClick` of the current status |
| Onboarding.NextSpec | pages/OnboardingScreen.tsx:32-38 | before the last slide the button shows the next slide and navigates nowhere; on the last it stays and navigates to "/signup" |
| Onboarding.ButtonLabel | pages/OnboardingScreen.tsx:60 | the button reads "Next" before the last slide and "Get Started" exactly on the last |
| Onboarding.PressesWalkTheSlides | pages/OnboardingScreen.tsx:32-38 | from the first slide, `k` presses show slide `k`, and only the press on the last slide navigates |
| Onboarding.Presses | pages/OnboardingScreen.tsx:29-38 | the slide index after any number of presses stays within the slides |
| Onboarding.Carousel.constructor | pages/OnboardingScreen.tsx:29 | the carousel starts on the first slide |
| Onboarding.Carousel.HandleNext | pages/OnboardingScreen.tsx:32-38 | the slide and the route are `NextSpec` of the old slide, and the slide stays within the slides |
| Welcome.UserName | pages/WelcomeScreen.tsx:13 | the greeting is never empty and holds no '@': "there" without a user or an address, otherwise the part before the first '@', or "there" when that part is empty |
| Welcome.NoAtBeforeFirst | pages/WelcomeScreen.tsx:13 | the text before the first '@' holds no '@' |
| GoalTracker.FilterCount | pages/GoalTrackerScreen.tsx:31 | the done count equals the task count exactly when every task is done, and is 0 exactly when none is |
| GoalTracker.ProgressProperties | pages/GoalTrackerScreen.tsx:31-40 | progress lies in [0, 100]; with tasks it is the done share times 100, 100 exactly when all are done and 0 exactly when none is; without tasks it follows the goal's flag |
| GoalTracker.ListsPartitionGoals | pages/GoalTrackerScreen.tsx:64-69 | the open and completed lists together hold every goal exactly as often as the list does, each holds exactly the goals with its flag |
| GoalTracker.FilterSplits | pages/GoalTrackerScreen.tsx:64-69 | the two filters split the goals as multisets |
| AppRoutes.ProtectedRoute | App.tsx:40-52 | while the session loads a loading screen; then the page shows exactly for a signed-in user, and a visitor is sent to "/login" |
| AppRoutes.AuthRoute | App.tsx:70-81 | while the session loads a loading screen; then the page shows exactly for a visitor, and a signed-in user is sent to "/home" |
| AppRoutes.ExactlyOneGuardOpens | App.tsx:40-81 | once the session is known exactly one of the two guards lets its pages through |
| AppRoutes.PostLoginRedirect | App.tsx:54-68 | loading while the skills are unknown; no skills leads to "/welcome", some skills to "/home" |
| AppRoutes.GuardsSeparateAreas | App.tsx:94-131 | a visitor never sees a signed-in page and a signed-in user never sees a sign-in page; every guard redirect leads to a known path |
| AppRoutes.OnboardingStaysSignedIn | App.tsx:98-127 | the first-run screens, welcome to skill selection to routine selection to home, are all behind the signed-in guard, and sign-up behind the visitor guard |
| AssistantTools.DecideGuards | pages/AIChatScreen.tsx:271-299 | a plan is scheduled exactly when its name matches and all four string arguments are non-empty; a level update exactly when the name matches, the skill name is non-empty and a level is present (0 included); each of the other four functions runs exactly when its name matches and its string arguments are non-empty; a call is not recognised exactly when it passes none of the six guards, whether its name is unknown or an argument is missing or empty |
| AssistantTools.FallbackApologyIsSaved | pages/AIChatScreen.tsx:291-298 | a roadmap request answered with the assessment service's lower-case "I'm sorry" apology is not caught by the "Sorry" test and goes on to be saved |
| AssistantTools.SaveRoadmap | pages/AIChatScreen.tsx:219-237 | saving a roadmap succeeds exactly when someone is signed in and the insert succeeds |
| AssistantTools.UnrecognizedChangesNothing | pages/AIChatScreen.tsx:274 | a call that matches no branch is answered with the fixed failure result and leaves every store as it was |
| AssistantTools.DispatchTouchesOneStore | pages/AIChatScreen.tsx:276-299 | a call throws exactly when it is add_new_skill; otherwise it changes at most the one store its function names |
| AssistantTools.UpdateSkillLevelEchoesRawLevel | pages/AIChatScreen.tsx:285-287 | a level update on a listed skill reports success with the level as sent, while the store keeps it clamped to [0, 100] |
| AssistantTools.AddGoalAlwaysReportsSuccess | pages/AIChatScreen.tsx:279-281 | adding a goal is reported as a success whatever the insert answered, even when the failed insert took the goal back out |
| AssistantTools.RoadmapResult | pages/AIChatScreen.tsx:291-298 | roadmap text mentioning "Sorry" is passed back as a failure and nothing is saved; otherwise the result is that of saving it; no store changes |
| AssistantTools.RunTool | pages/AIChatScreen.tsx:273-299 | running a call against the store objects leaves them holding the dispatch's new lists and returns its result, or leaves them unchanged and returns nothing when the call throws; loading flags are untouched |
| AIChat.TempConversationId | pages/AIChatScreen.tsx:160 | a provisional conversation id is a mock- id |
| AIChat.NewChatListsStored | pages/AIChatScreen.tsx:156-194 | a new chat from the history button lists the stored conversation first and makes it active, shows only the greeting (plus the session error when no session came) and clears the input |
| AIChat.NewChatFailedLeavesDanglingActive | pages/AIChatScreen.tsx:184-190 | when the insert fails for a reason other than a missing table, the provisional conversation leaves the list but stays the active one |
| AIChat.InitialChatNotListed | pages/AIChatScreen.tsx:169-182 | the chat created because the history was empty becomes active but never appears in the list |
| AIChat.FetchOutcomes | pages/AIChatScreen.tsx:53-88 | a non-empty history is listed as fetched with its first conversation active; a failure other than a missing table changes nothing but the loading flag; signed out, nothing changes |
| AIChat.MockFallbackShowsGreeting | pages/AIChatScreen.tsx:75-79 | without the conversations table the mock conversation is listed and active and the screen shows just the greeting, whatever the messages query answers |
| AIChat.SelectSpec | pages/AIChatScreen.tsx:196 | selecting a conversation makes it active and closes the history, keeping the list and the messages |
| AIChat.DeleteRemovesOne | pages/AIChatScreen.tsx:198-215 | a kept deletion of an inactive conversation removes exactly that one, keeping the order of the rest and the active conversation |
| AIChat.DeleteActiveMovesToFirst | pages/AIChatScreen.tsx:200-202 | deleting the active conversation while others remain activates the first conversation in list order whose id differs from the deleted one |
| AIChat.DeleteFailedRestoresList | pages/AIChatScreen.tsx:207-213 | a failed deletion puts the old list back, also when deleting the last conversation had started a new chat |
| AIChat.FilteredProperties | pages/AIChatScreen.tsx:323 | an empty search lists every conversation; otherwise a conversation is listed exactly when its title contains the search text, ignoring case |
| AIChat.UnrecognizedCallsChangeNothing | pages/AIChatScreen.tsx:269-302 | when the model asks only for undeclared functions, no store changes and every call is answered with the fixed failure |
| AIChat.RunLoopStopsAtFirstText | pages/AIChatScreen.tsx:269-302 | when the exchange ends with text, that text is the first answer without a function call, and every earlier answer asked for one and got exactly one result |
| AIChat.TitleFrom | pages/AIChatScreen.tsx:257 | a new title is the text itself when it has at most 30 characters, otherwise its first 30 characters followed by "..." |
| AIChat.FinalMessage | pages/AIChatScreen.tsx:304-313 | the closing message is the model's, and it is an error exactly when the model gave no non-empty text; otherwise it shows that text |
| AIChat.SendEffects | pages/AIChatScreen.tsx:240-321 | a blank input, a send under way, no user or no active conversation change nothing; otherwise the input is cleared and exactly two messages are appended, the trimmed user text and the closing message of the loop's reply (an error when there is no session); the stores and the tool results are where the function-call loop ends (untouched and none without a session); a conversation that is not a mock gets the user's text, the new title on a first message and the shown answer unless it is an error written to the backend, a mock one nothing |
| AIChat.MockConversationWritesNothing | pages/AIChatScreen.tsx:252-254 | nothing about a mock- conversation is written to the backend |
| AIChat.RetitleOnFirstMessage | pages/AIChatScreen.tsx:256-262 | only the first message of a conversation renames it, and only the active one; ids and the order of the list are kept |
| AIChat.RunExchange | pages/AIChatScreen.tsx:269-302 | the loop against the store objects leaves them where the specified loop ends and returns its results and final text |
| AIChat.ChatScreen.constructor | pages/AIChatScreen.tsx:30-37 | the screen opens with no conversations, only the greeting, no active conversation and the history loading |
| AIChat.ChatScreen.InitializeChat | pages/AIChatScreen.tsx:144-150 | the session is kept and its absence is shown as an error message |
| AIChat.ChatScreen.HandleNewChat | pages/AIChatScreen.tsx:156-194 | the new state is that of the new-chat specification |
| AIChat.ChatScreen.SettleNewChat | pages/AIChatScreen.tsx:177-190 | the insert's answer is applied as the settle specification says |
| AIChat.ChatScreen.FetchConversations | pages/AIChatScreen.tsx:53-88 | the new state is that of the fetch specification |
| AIChat.ChatScreen.LoadMessages | pages/AIChatScreen.tsx:90-124 | the new state is that of the message-loading specification |
| AIChat.ChatScreen.HandleSelectConversation | pages/AIChatScreen.tsx:196 | the new state is that of the selection specification |
| AIChat.ChatScreen.HandleDeleteConversation | pages/AIChatScreen.tsx:198-215 | the new state is that of the deletion specification |
| AIChat.ChatScreen.RemoveConversation | pages/AIChatScreen.tsx:198-204 | the optimistic part of a deletion, as the local-removal specification says |
| AIChat.ChatScreen.HandleSend | pages/AIChatScreen.tsx:240-321 | the screen, the stores, the results sent back to the model and the backend writes are those of the send specification |
| AIChat.ChatScreen.StartSend | pages/AIChatScreen.tsx:244-262 | the user's message is shown, the input cleared and the first message renames the conversation; the writes are those before the model is asked |
| AIChat.ChatScreen.EndSend | pages/AIChatScreen.tsx:304-320 | the final message is shown, sending ends and the model's text is stored unless the conversation is a mock- one |
| Text.TrimSpec | pages/AIChatScreen.tsx:242 | trimming leaves a substring of the input with no white space at either end; everything before and after that substring is white space |
| Text.TrimBlank | pages/SkillGraphScreen.tsx:70 | the trimmed text is empty exactly when the input is all white space |
| Text.TrimIdempotent | pages/SkillSelectionScreen.tsx:37 | trimming twice is trimming once |
| Text.SameIgnoringCaseIsEquivalence | pages/SkillSelectionScreen.tsx:43 | comparing lower-cased names is reflexive, symmetric and transitive |
| Text.ContainsIffOccurs | pages/AIChatScreen.tsx:323 | a text contains another exactly when it occurs at some position |
| Text.JoinSplit | pages/WelcomeScreen.tsx:13 | joining the parts of a split with the separator gives back the input |
| Text.SplitPartsFree | pages/RoadmapsScreen.tsx:129 | no part of a split contains the separator |
| Text.SplitFirst | pages/WelcomeScreen.tsx:13 | the first part of a split is the text before the first occurrence of the separator, or the whole text |
| Text.NatToStringInjective | context/PlannerContext.tsx:24 | ids written from different clock readings differ |
| Text.StrLeqTotal | context/PlannerContext.tsx:26 | any two times are ordered one way or the other by the text order that stands for localeCompare |
| Text.StrLeqTransitive | context/PlannerContext.tsx:26 | that text order is transitive |
| Text.StrLeqAntisymmetric | context/PlannerContext.tsx:26 | two texts ordered both ways are equal |

## Left out

- The backend itself (Supabase queries, inserts, updates, deletes, the `reset_daily_routines_for_user` call and authentication) is not modelled. Each awaited call becomes an outcome parameter. The sign-in state becomes a `signedIn` flag or an optional user.
- The error texts are not modelled. The code tells a missing table, or a missing function, from other failures by a substring of the message. The model uses the `RemoteOutcome` cases instead.
- Asynchrony is not modelled. Each operation is atomic and awaited calls are taken in program order. Stale closures, overlapping optimistic writes and a later rollback undoing a newer change are out of scope. Where a handler awaits in the middle (a new chat's insert, the function-call loop), the part before and the part after are separate methods. The whole-handler method composes them.
- Clocks and calendars are not modelled. `Date.now()` is a `now: nat` parameter, one reading per call. The code reads the clock again each time: once per row in the `map` of `initializeRoutines`, and several times in `handleSend`. So `RoutineContext.ProvisionalIdsDistinct` holds in the code only while the clock does not go back during that `map`. `toISOString()` dates and the planner's "today" are parameters, and so are the display strings of `getDisplayDate` and the message timestamps.
- PlannerContext.Planner.AddEvent: the comparator's `new Date(a.date).getTime()` and `a.time.localeCompare(b.time)` are both modelled as code-point order on the text. For ISO calendar dates this agrees with date order. `localeCompare` under a particular locale may order some texts differently.
- Sorting.InsertionSort: the sort works on a sequence, not in place on an array. `sort` in the code runs on a fresh array built by the spread.
- Text.ToLower: only ASCII letters are lowered. Unicode case mapping is left out.
- Levels are integers. A fractional `newLevel` from the model, and the floating-point arithmetic of `Math.min`/`Math.max`, are not modelled.
- GoalTracker.ProgressProperties: progress is an exact real. The floating-point rounding of the division is not modelled.
- The model SDK (services/geminiService.ts) is not modelled: the session, its prompts and the memoised client. A session's answers are a finite script of `Reply` values. The assessment, analytics and coach answers are parameters, with None for a request that threw.
- AIChat.RunLoop: the code's `while (true)` loop is unbounded. The model runs it over a finite script. Running out of answers counts as a failed request, so the exchange ends with the apology.
- AIChat.TitleFrom: lengths and the 30-character cut are counted in Unicode scalar values. The code counts UTF-16 code units. A text with characters outside the Basic Multilingual Plane (an emoji, say) can therefore be cut in a different place, and the code may split a surrogate pair.
- Text.StrLeq: the text order compares code points. The default `sort()` of the planner's dates compares UTF-16 code units. The two agree on ISO dates.
- AppRoutes.AreaOf: paths are matched exactly. The router matches route paths ignoring case and accepts a trailing "/", so "/Home" or "/home/" shows the home screen in the app and is sent to "/" in the model.
- Tool arguments are the typed `Args` record of the function declarations. An argument of the wrong JSON type from the model is not modelled. A string argument counts as present when it is set and not empty. A function call with no `args` object makes the code throw when it reads the arguments. The model answers it with the fixed failure instead.
- Only the first function-call part of a model answer is handled, as in the code. The model's `Reply` carries at most one call.
- SkillGraph.SkillToCategoryLastWins: `skillToCategory` is a plain object. A subject that names an `Object.prototype` member (such as "constructor") would find an inherited function rather than a category. The model's map has no inherited keys.
- The speech APIs (SpeechRecognition, speechSynthesis) are not modelled. The coach's browser callbacks and the end of speech are events. The order in which `speechSynthesis.cancel` and a new utterance take effect is not modelled. The assistant screen's dictation button (`isListening`, `handleToggleListening`) is not modelled.
- SkillCoach.CoachScreen.Handle: the coach screen is never given route state, so `skills` is a new empty array on every render. The effect that sets up the recognizer depends on `[skills]`, so it re-runs after every render. Each re-run's cleanup cancels speech and stops the running recognizer, and the effect then builds a new recognizer. In the app, a status change can therefore stop listening (its `onend` then sets the status back to idle) and cancel an answer that was just queued to be spoken. The model treats the events that follow only as incoming events and does not model this teardown. So `SkillCoach.QuestionRoundTrip` shows what the handlers do for that order of events, not what the screen does when it is reached by URL.
- Timers are not modelled: the skill graph's one-second close after a saved roadmap is a separate method (`SaveTimerFires`).
- Browser effects are not modelled: scrolling, focus, and `handleAskCoach`, which navigates to "/ai-chat" without route state.
- Presentation is not modelled: theme, styling, the `capitalize` CSS on the welcome name, chart drawing and markdown rendering beyond the `**` split. The contexts are assumed always mounted, so the `!plannerContext` style guards are true.
- The routine picker's catalogue of suggested routines (`ROUTINE_CATEGORIES`) is display data and is not modelled. The picker is modelled over whatever title and category is toggled. The welcome screen's continue button only navigates to "/skill-selection", which is not modelled beyond `AppRoutes.OnboardingStaysSignedIn`.
- ManageSkillsScreen, CareerAdvisorScreen and the static pages are not part of this model.

=== FILE: ai_chat.dfy ===
/** The assistant screen (pages/AIChatScreen.tsx): a history of
    conversations, the messages of the active one, and `handleSend`, which
    shows the user's message, lets the model call the assistant's functions
    until it answers in text, and shows that answer. Conversations whose id
    starts with `mock-` live only on the screen: nothing about them is
    written to the backend. */
module AIChat {
  import opened SeqUtil
  import opened Text
  import opened Remote
  import opened AssistantTools
  import SkillContext
  import GoalContext
  import RoutineContext
  import PlannerContext

  datatype Sender = User | Ai

  /** A message on screen; timestamps are not modelled. */
  datatype ChatMessage = ChatMessage(id: string, text: string, sender: Sender, isError: bool)

  datatype Conversation = Conversation(id: string, title: string)

  const Greeting: string :=
    "Hello! I am your personal Master AI. How can I help you evolve today? I can now manage your skills, goals, routines, and planner."

  /** `createInitialMessage()`. */
  function InitialMessage(): ChatMessage
  {
    ChatMessage("1", Greeting, Ai, false)
  }

  /** The message shown when no chat session could be created. */
  function InitError(): ChatMessage
  {
    ChatMessage("init-error", "Could not connect to AI assistant.", Ai, true)
  }

  /** `createMockConversation()`. */
  function MockConversation(): Conversation
  {
    Conversation("mock-conv-1", "Mock Conversation")
  }

  /** The screen's state; `chatReady` is whether `chatRef.current` holds a session. */
  datatype ChatState = ChatState(
    conversations: seq<Conversation>, messages: seq<ChatMessage>, activeId: Option<string>,
    showHistory: bool, input: string, isSending: bool, isFetchingHistory: bool, chatReady: bool)

  /** `activeConversationId` used as a condition: set and not empty. */
  predicate HasActive(s: ChatState)
  {
    s.activeId.Some? && s.activeId.value != ""
  }

  predicate IsMockId(id: string)
  {
    StartsWith(id, "mock-")
  }

  predicate HasConversation(convs: seq<Conversation>, id: string)
  {
    exists i :: 0 <= i < |convs| && convs[i].id == id
  }

  predicate UniqueIds(convs: seq<Conversation>)
  {
    forall i, j :: 0 <= i < j < |convs| ==> convs[i].id != convs[j].id
  }

  function WithId(id: string): Conversation -> bool
  {
    (c: Conversation) => c.id == id
  }

  function WithoutId(id: string): Conversation -> bool
  {
    (c: Conversation) => c.id != id
  }

  function Replace(stored: Conversation): Conversation -> Conversation
  {
    (c: Conversation) => stored
  }

  function Retitled(title: string): Conversation -> Conversation
  {
    (c: Conversation) => c.(title := title)
  }

  // ---------------------------------------------------------------- session

  /** `initializeChat`: keep the session (or its absence) and say so when it is missing. */
  function InitializeSpec(s: ChatState, session: bool): ChatState
  {
    s.(chatReady := session, messages := if session then s.messages else s.messages + [InitError()])
  }

  // -------------------------------------------------------------- new chat

  /** `mock-conv-${Date.now()}`. */
  function TempConversationId(now: nat): (id: string)
    ensures IsMockId(id)
  {
    "mock-conv-" + NatToString(now)
  }

  /** The synchronous start of `handleNewChat(isInitial)`: a provisional
      "New Chat" (listed unless `isInitial`) becomes active, showing only the
      greeting, and the input is cleared. */
  function OpenChat(s: ChatState, isInitial: bool, now: nat): ChatState
  {
    var tempId := TempConversationId(now);
    s.(isSending := true,
       conversations := if isInitial then s.conversations else [Conversation(tempId, "New Chat")] + s.conversations,
       activeId := Some(tempId), messages := [InitialMessage()], input := "")
  }

  /** The insert's answer: a stored row replaces the provisional
      conversation and becomes active; a null row or a missing table leave
      it; any other error drops it from the list. */
  function SettleChat(s: ChatState, tempId: string, outcome: RemoteOutcome<Option<Conversation>>): ChatState
  {
    match outcome
      case Ok(Some(c)) => s.(conversations := MapIf(s.conversations, WithId(tempId), Replace(c)), activeId := Some(c.id))
      case Ok(None) => s
      case TableMissing => s
      case _ => s.(conversations := Filter(s.conversations, WithoutId(tempId)))
  }

  /** The state after `handleNewChat(isInitial)`, which also requests a session. */
  function NewChatSpec(s: ChatState, signedIn: bool, isInitial: bool, now: nat, session: bool,
                       outcome: RemoteOutcome<Option<Conversation>>): ChatState
  {
    if !signedIn then s
    else SettleChat(InitializeSpec(OpenChat(s, isInitial, now), session), TempConversationId(now), outcome)
           .(isSending := false)
  }

  /** A new chat from the history button: the stored conversation is listed
      first and active, and the screen shows only the greeting (and the
      session error when no session came). */
  lemma NewChatListsStored(s: ChatState, now: nat, session: bool, c: Conversation)
    requires !HasConversation(s.conversations, TempConversationId(now))
    ensures var r := NewChatSpec(s, true, false, now, session, Ok(Some(c)));
      && r.conversations == [c] + s.conversations
      && r.activeId == Some(c.id)
      && r.messages == (if session then [InitialMessage()] else [InitialMessage(), InitError()])
      && r.input == "" && !r.isSending && r.chatReady == session
  {
    var tempId := TempConversationId(now);
    var shown := [Conversation(tempId, "New Chat")] + s.conversations;
    var mapped := MapIf(shown, WithId(tempId), Replace(c));
    forall i | 0 < i < |shown|
      ensures mapped[i] == s.conversations[i - 1]
    {
      assert shown[i] == s.conversations[i - 1];
      assert shown[i].id != tempId;
    }
    assert mapped == [c] + s.conversations;
  }

  /** When the insert fails for a reason other than a missing table, the
      provisional conversation leaves the list but stays active. */
  lemma NewChatFailedLeavesDanglingActive(s: ChatState, isInitial: bool, now: nat, session: bool,
                                          outcome: RemoteOutcome<Option<Conversation>>)
    requires outcome.RollsBack()
    requires !HasConversation(s.conversations, TempConversationId(now))
    ensures var r := NewChatSpec(s, true, isInitial, now, session, outcome);
      && r.conversations == s.conversations
      && r.activeId == Some(TempConversationId(now))
      && !HasConversation(r.conversations, r.activeId.value)
  {
    var tempId := TempConversationId(now);
    var p := WithoutId(tempId);
    if isInitial {
      FilterKeepsAll(s.conversations, p);
    } else {
      var shown := [Conversation(tempId, "New Chat")] + s.conversations;
      assert forall i :: 0 < i < |shown| ==> shown[i] == s.conversations[i - 1];
      FilterDropsOne(shown, 0, p);
      assert shown[1..] == s.conversations;
    }
  }

  /** The first chat created because the history was empty is never listed:
      the stored conversation becomes active while the list stays as it was. */
  lemma InitialChatNotListed(s: ChatState, now: nat, session: bool, c: Conversation)
    requires !HasConversation(s.conversations, TempConversationId(now))
    ensures var r := NewChatSpec(s, true, true, now, session, Ok(Some(c)));
      r.conversations == s.conversations && r.activeId == Some(c.id)
  {
    var tempId := TempConversationId(now);
    var mapped := MapIf(s.conversations, WithId(tempId), Replace(c));
    forall i | 0 <= i < |s.conversations|
      ensures mapped[i] == s.conversations[i]
    {
      assert s.conversations[i].id != tempId;
    }
  }

  // ---------------------------------------------------------------- history

  /** The state after `fetchConversations` (the effect on sign-in). Signed
      out, nothing changes, not even the loading flag. An empty history starts
      an initial new chat; a missing table shows the mock conversation. */
  function FetchSpec(s: ChatState, signedIn: bool, outcome: RemoteOutcome<seq<Conversation>>,
                     now: nat, session: bool, createOutcome: RemoteOutcome<Option<Conversation>>): ChatState
  {
    if !signedIn then s
    else
      var loading := s.(isFetchingHistory := true);
      var r := match outcome
        case Ok(rows) =>
          if |rows| > 0 then loading.(conversations := rows, activeId := Some(rows[0].id))
          else NewChatSpec(loading, true, true, now, session, createOutcome)
        case TableMissing => loading.(conversations := [MockConversation()], activeId := Some(MockConversation().id))
        case _ => loading;
      r.(isFetchingHistory := false)
  }

  /** The state after loading the active conversation's messages (the effect
      on `activeConversationId`): a `mock-` conversation, an empty one and a
      missing table show the greeting alone; any other error keeps the
      messages on screen. */
  function LoadSpec(s: ChatState, outcome: RemoteOutcome<seq<ChatMessage>>): ChatState
  {
    if !HasActive(s) then s
    else if IsMockId(s.activeId.value) then s.(messages := [InitialMessage()])
    else match outcome
      case Ok(rows) => s.(messages := if |rows| > 0 then rows else [InitialMessage()])
      case TableMissing => s.(messages := [InitialMessage()])
      case _ => s
  }

  /** A history is listed as fetched with its first conversation active; a
      failure other than a missing table changes nothing but the loading flag. */
  lemma FetchOutcomes(s: ChatState, outcome: RemoteOutcome<seq<Conversation>>, now: nat, session: bool,
                      createOutcome: RemoteOutcome<Option<Conversation>>)
    ensures var r := FetchSpec(s, true, outcome, now, session, createOutcome);
      && !r.isFetchingHistory
      && (outcome.Ok? && |outcome.rows| > 0 ==>
            r.conversations == outcome.rows && r.activeId == Some(outcome.rows[0].id) && r.messages == s.messages)
      && (outcome.RollsBack() ==> r == s.(isFetchingHistory := false))
    ensures FetchSpec(s, false, outcome, now, session, createOutcome) == s
  {
  }

  /** Without the conversations table the screen shows the mock conversation,
      active, and then just the greeting, whatever the messages query says. */
  lemma MockFallbackShowsGreeting(s: ChatState, now: nat, session: bool,
                                  createOutcome: RemoteOutcome<Option<Conversation>>,
                                  messages: RemoteOutcome<seq<ChatMessage>>)
    ensures var r := LoadSpec(FetchSpec(s, true, TableMissing, now, session, createOutcome), messages);
      && r.conversations == [MockConversation()]
      && r.activeId == Some("mock-conv-1")
      && r.messages == [InitialMessage()]
  {
    assert IsMockId("mock-conv-1");
  }

  /** `handleSelectConversation`. */
  function SelectSpec(s: ChatState, id: string): (r: ChatState)
    ensures r.activeId == Some(id) && !r.showHistory
    ensures r.conversations == s.conversations && r.messages == s.messages
  {
    s.(activeId := Some(id), showHistory := false)
  }

  /** The state after `handleDeleteConversation`. Deleting the active
      conversation moves to the first one left, or starts a new chat when none
      is; an error other than a missing table puts the old list back. */
  function DeleteSpec(s: ChatState, id: string, signedIn: bool, now: nat, session: bool,
                      createOutcome: RemoteOutcome<Option<Conversation>>, outcome: RemoteOutcome<()>): ChatState
  {
    var s2 := RemoveLocally(s, id, signedIn, now, session, createOutcome);
    if outcome.RollsBack() then s2.(conversations := s.conversations) else s2
  }

  /** The part of `handleDeleteConversation` before the backend answers. */
  function RemoveLocally(s: ChatState, id: string, signedIn: bool, now: nat, session: bool,
                         createOutcome: RemoteOutcome<Option<Conversation>>): ChatState
  {
    var remaining := Filter(s.conversations, WithoutId(id));
    var s1 := s.(conversations := remaining);
    if s.activeId == Some(id) then
      if |remaining| > 0 then s1.(activeId := Some(remaining[0].id))
      else NewChatSpec(s1, signedIn, false, now, session, createOutcome)
    else s1
  }

  /** A kept deletion of an inactive conversation removes exactly it, in order. */
  lemma DeleteRemovesOne(s: ChatState, k: nat, signedIn: bool, now: nat, session: bool,
                         createOutcome: RemoteOutcome<Option<Conversation>>, outcome: RemoteOutcome<()>)
    requires UniqueIds(s.conversations) && k < |s.conversations|
    requires s.activeId != Some(s.conversations[k].id) && !outcome.RollsBack()
    ensures var r := DeleteSpec(s, s.conversations[k].id, signedIn, now, session, createOutcome, outcome);
      r.conversations == s.conversations[..k] + s.conversations[k + 1..] && r.activeId == s.activeId
  {
    FilterDropsOne(s.conversations, k, WithoutId(s.conversations[k].id));
  }

  /** Deleting the active conversation while others remain activates the
      first remaining one. */
  lemma DeleteActiveMovesToFirst(s: ChatState, id: string, signedIn: bool, now: nat, session: bool,
                                 createOutcome: RemoteOutcome<Option<Conversation>>, outcome: RemoteOutcome<()>)
    requires s.activeId == Some(id)
    requires exists i :: 0 <= i < |s.conversations| && s.conversations[i].id != id
    ensures var r := DeleteSpec(s, id, signedIn, now, session, createOutcome, outcome);
      && r.activeId.Some? && r.activeId.value != id
      && exists j :: 0 <= j < |s.conversations| && s.conversations[j].id == r.activeId.value
           && forall m :: 0 <= m < j ==> s.conversations[m].id == id
  {
    var p := WithoutId(id);
    var i :| 0 <= i < |s.conversations| && s.conversations[i].id != id;
    var j := FirstOther(s.conversations, id, i);
    FilterHead(s.conversations, p, j);
  }

  /** The position of the first conversation whose id is not `id`, given one. */
  lemma FirstOther(convs: seq<Conversation>, id: string, i: nat) returns (j: nat)
    requires i < |convs| && convs[i].id != id
    ensures j <= i && convs[j].id != id
    ensures forall m :: 0 <= m < j ==> convs[m].id == id
  {
    j := 0;
    while convs[j].id == id
      invariant j <= i
      invariant forall m :: 0 <= m < j ==> convs[m].id == id
      decreases i - j
    {
      j := j + 1;
    }
  }

  /** A failed deletion restores the list, including when deleting the last
      conversation had started a new chat in its place. */
  lemma DeleteFailedRestoresList(s: ChatState, id: string, signedIn: bool, now: nat, session: bool,
                                 createOutcome: RemoteOutcome<Option<Conversation>>, outcome: RemoteOutcome<()>)
    requires outcome.RollsBack()
    ensures DeleteSpec(s, id, signedIn, now, session, createOutcome, outcome).conversations == s.conversations
  {
  }

  /** `filteredConversations`: the titles that contain the search text,
      ignoring case (ASCII letters). */
  function Filtered(convs: seq<Conversation>, search: string): seq<Conversation>
  {
    Filter(convs, (c: Conversation) => Contains(ToLower(c.title), ToLower(search)))
  }

  /** An empty search lists every conversation; otherwise a conversation is
      listed exactly when its title contains the search text, ignoring case. */
  lemma FilteredProperties(convs: seq<Conversation>, search: string, c: Conversation)
    ensures Filtered(convs, "") == convs
    ensures c in Filtered(convs, search) <==> c in convs && Contains(ToLower(c.title), ToLower(search))
  {
    var p := (x: Conversation) => Contains(ToLower(x.title), ToLower(""));
    forall i | 0 <= i < |convs|
      ensures p(convs[i])
    {
      ContainsEmpty(ToLower(convs[i].title));
    }
    FilterKeepsAll(convs, p);
    FilterMembership(convs, (x: Conversation) => Contains(ToLower(x.title), ToLower(search)), c);
  }

  // ------------------------------------------------------------------- send

  /** One answer of the model: a function call it asks for (with what the
      world answers while it runs), its text, or a request that failed. */
  datatype Reply = Reply(call: Option<ToolCall>, text: string, env: ToolEnv) | Failure

  /** What `handleSend` writes to the backend (whose answers it ignores). */
  datatype BackendWrite =
    | StoreMessage(conversationId: string, text: string, sender: Sender)
    | Retitle(conversationId: string, title: string)

  /** Where the function-call loop ends: the store lists, the results sent
      back to the model, and the final text, or None when something threw. */
  datatype LoopEnd = LoopEnd(stores: Stores, results: seq<ToolResult>, reply: Option<string>)

  /** The loop from the model's `k`-th answer on. An answer without a call
      ends it; a failed request or a call that throws aborts it. Running out
      of answers is read as a failed request. */
  function RunLoop(stores: Stores, script: seq<Reply>, k: nat): LoopEnd
    decreases |script| - k
  {
    if k >= |script| || script[k].Failure? then LoopEnd(stores, [], None)
    else if script[k].call.None? then LoopEnd(stores, [], Some(script[k].text))
    else match Dispatch(stores, script[k].call.value, script[k].env)
      case Threw => LoopEnd(stores, [], None)
      case Handled(next, result) =>
        var rest := RunLoop(next, script, k + 1);
        rest.(results := [result] + rest.results)
  }

  /** The model asks only for functions that do not exist: nothing changes in
      any store and every call is answered with the fixed failure. */
  lemma {:induction false} UnrecognizedCallsChangeNothing(stores: Stores, script: seq<Reply>, k: nat)
    requires forall j :: k <= j < |script| && script[j].Reply? && script[j].call.Some? ==>
               Decide(script[j].call.value).Unrecognized?
    ensures RunLoop(stores, script, k).stores == stores
    ensures forall i :: 0 <= i < |RunLoop(stores, script, k).results| ==>
              RunLoop(stores, script, k).results[i] == NotRecognized
    decreases |script| - k
  {
    if k < |script| && script[k].Reply? && script[k].call.Some? {
      UnrecognizedChangesNothing(stores, script[k].call.value, script[k].env);
      UnrecognizedCallsChangeNothing(stores, script, k + 1);
    }
  }

  /** When the loop ends with a text, that text is the first answer without
      a call, and every answer before it asked for a function and got exactly
      one result back. */
  lemma {:induction false} RunLoopStopsAtFirstText(stores: Stores, script: seq<Reply>, k: nat)
    ensures var e := RunLoop(stores, script, k);
      e.reply.Some? ==>
        && k + |e.results| < |script|
        && script[k + |e.results|].Reply? && script[k + |e.results|].call.None?
        && e.reply.value == script[k + |e.results|].text
        && (forall j :: k <= j < k + |e.results| ==> script[j].Reply? && script[j].call.Some?)
    decreases |script| - k
  {
    if k < |script| && script[k].Reply? && script[k].call.Some? {
      var d := Dispatch(stores, script[k].call.value, script[k].env);
      if d.Handled? {
        RunLoopStopsAtFirstText(d.stores, script, k + 1);
        var rest := RunLoop(d.stores, script, k + 1);
        assert RunLoop(stores, script, k) == rest.(results := [d.result] + rest.results);
      }
    }
  }

  /** `substring(0, 30)` plus "..." when the text is longer. */
  function TitleFrom(text: string): (t: string)
    ensures |t| <= 33
    ensures |text| <= 30 ==> t == text
    ensures |text| > 30 ==> t == text[..30] + "..."
  {
    if |text| > 30 then text[..30] + "..." else text
  }

  /** The guard of `handleSend`. */
  predicate CanSend(s: ChatState, signedIn: bool)
  {
    Trim(s.input) != "" && !s.isSending && signedIn && HasActive(s)
  }

  /** The message that ends the exchange, with ids from one clock reading. */
  function FinalMessage(now: nat, reply: Option<string>): (m: ChatMessage)
    ensures m.sender == Ai
    ensures !m.isError <==> reply.Some? && reply.value != ""
    ensures !m.isError ==> m.text == reply.value
  {
    match reply
      case None => ChatMessage(NatToString(now), "Sorry, something went wrong.", Ai, true)
      case Some(text) =>
        if text != "" then ChatMessage("temp-ai-" + NatToString(now), text, Ai, false)
        else ChatMessage(NatToString(now), "I'm not sure how to respond to that.", Ai, true)
  }

  datatype SendOutcome = SendOutcome(state: ChatState, stores: Stores, results: seq<ToolResult>, writes: seq<BackendWrite>)

  /** The synchronous start of `handleSend` in conversation `id`: the trimmed
      input is shown as the user's message and cleared, and the first message
      of a conversation renames it. */
  function PrepareSend(s: ChatState, id: string, now: nat): ChatState
  {
    var text := Trim(s.input);
    s.(isSending := true, input := "",
       messages := s.messages + [ChatMessage("temp-user-" + NatToString(now), text, User, false)],
       conversations := if |s.messages| <= 1 then MapIf(s.conversations, WithId(id), Retitled(TitleFrom(text)))
                        else s.conversations)
  }

  /** The user's message and the new title, stored unless the conversation is a `mock-` one. */
  function WritesBefore(s: ChatState, id: string): seq<BackendWrite>
  {
    var text := Trim(s.input);
    if IsMockId(id) then []
    else [StoreMessage(id, text, User)] + (if |s.messages| <= 1 then [Retitle(id, TitleFrom(text))] else [])
  }

  /** The end of `handleSend`: the final message is shown. */
  function FinishSend(s: ChatState, final: ChatMessage): ChatState
  {
    s.(messages := s.messages + [final], isSending := false)
  }

  /** The model's text is stored unless the conversation is a `mock-` one. */
  function WritesAfter(id: string, final: ChatMessage): seq<BackendWrite>
  {
    if !IsMockId(id) && !final.isError then [StoreMessage(id, final.text, Ai)] else []
  }

  /** The whole of `handleSend`: without a session the exchange fails at once. */
  function SendSpec(s: ChatState, stores: Stores, signedIn: bool, now: nat, script: seq<Reply>): SendOutcome
  {
    if !CanSend(s, signedIn) then SendOutcome(s, stores, [], [])
    else
      var id := s.activeId.value;
      var end := if s.chatReady then RunLoop(stores, script, 0) else LoopEnd(stores, [], None);
      var final := FinalMessage(now, end.reply);
      SendOutcome(FinishSend(PrepareSend(s, id, now), final), end.stores, end.results,
                  WritesBefore(s, id) + WritesAfter(id, final))
  }

  /** A blank input, a send already under way, no user or no active
      conversation: nothing happens. Otherwise the input is cleared and
      exactly two messages are added, the user's trimmed text and the
      closing message of the loop's reply (an error without a session), the
      stores and tool results are where the loop ends, and the backend gets
      the user's text, the new title on a first message and the shown answer
      unless it is an error, for a conversation that is not a mock. */
  lemma SendEffects(s: ChatState, stores: Stores, signedIn: bool, now: nat, script: seq<Reply>)
    ensures !CanSend(s, signedIn) ==> SendSpec(s, stores, signedIn, now, script) == SendOutcome(s, stores, [], [])
    ensures CanSend(s, signedIn) ==>
      var o := SendSpec(s, stores, signedIn, now, script);
      && o.state.input == "" && !o.state.isSending
      && |o.state.messages| == |s.messages| + 2
      && o.state.messages[..|s.messages|] == s.messages
      && o.state.messages[|s.messages|].sender == User
      && o.state.messages[|s.messages|].text == Trim(s.input)
      && o.state.messages[|s.messages| + 1].sender == Ai
      && (s.chatReady ==> o.stores == RunLoop(stores, script, 0).stores)
      && (!s.chatReady ==> o.stores == stores && o.state.messages[|s.messages| + 1].isError)
      && (s.chatReady ==> o.state.messages[|s.messages| + 1] == FinalMessage(now, RunLoop(stores, script, 0).reply))
      && o.results == (if s.chatReady then RunLoop(stores, script, 0).results else [])
      && (IsMockId(s.activeId.value) ==> o.writes == [])
      && (!IsMockId(s.activeId.value) ==>
            var id, shown := s.activeId.value, o.state.messages[|s.messages| + 1];
            o.writes == [StoreMessage(id, Trim(s.input), User)]
                        + (if |s.messages| <= 1 then [Retitle(id, TitleFrom(Trim(s.input)))] else [])
                        + (if shown.isError then [] else [StoreMessage(id, shown.text, Ai)]))
  {
  }

  /** Nothing about a `mock-` conversation is written to the backend. */
  lemma MockConversationWritesNothing(s: ChatState, stores: Stores, signedIn: bool, now: nat, script: seq<Reply>)
    requires s.activeId.Some? && IsMockId(s.activeId.value)
    ensures SendSpec(s, stores, signedIn, now, script).writes == []
  {
  }

  /** Only the first message of a conversation renames it, and only that one. */
  lemma RetitleOnFirstMessage(s: ChatState, stores: Stores, signedIn: bool, now: nat, script: seq<Reply>)
    requires CanSend(s, signedIn)
    ensures var r := SendSpec(s, stores, signedIn, now, script).state.conversations;
      && |r| == |s.conversations|
      && (|s.messages| > 1 ==> r == s.conversations)
      && forall i :: 0 <= i < |r| ==>
           r[i].id == s.conversations[i].id
           && r[i].title == (if |s.messages| <= 1 && s.conversations[i].id == s.activeId.value
                             then TitleFrom(Trim(s.input)) else s.conversations[i].title)
  {
  }

  /** One answer whose call was handled adds its result in front of the rest. */
  lemma HandledStep(stores: Stores, script: seq<Reply>, k: nat)
    requires k < |script| && script[k].Reply? && script[k].call.Some?
    requires Dispatch(stores, script[k].call.value, script[k].env).Handled?
    ensures var d := Dispatch(stores, script[k].call.value, script[k].env);
      var e := RunLoop(stores, script, k);
      var rest := RunLoop(d.stores, script, k + 1);
      e.stores == rest.stores && e.reply == rest.reply && e.results == [d.result] + rest.results
  {
  }

  /** The `while (true)` loop of `handleSend` against the store objects. */
  method RunExchange(script: seq<Reply>, planner: PlannerContext.Planner, goalStore: GoalContext.GoalStore,
                     skillStore: SkillContext.SkillStore, routineStore: RoutineContext.RoutineStore)
    returns (results: seq<ToolResult>, reply: Option<string>)
    modifies planner, goalStore, skillStore, routineStore
    ensures var fin := RunLoop(old(StoresOf(planner, goalStore, skillStore, routineStore)), script, 0);
      && StoresOf(planner, goalStore, skillStore, routineStore) == fin.stores
      && results == fin.results && reply == fin.reply
  {
    ghost var fin := RunLoop(StoresOf(planner, goalStore, skillStore, routineStore), script, 0);
    results := [];
    reply := None;
    var k := 0;
    var done := false;
    while !done
      invariant 0 <= k <= |script|
      invariant !done ==> reply == None
      invariant !done ==>
        var e := RunLoop(StoresOf(planner, goalStore, skillStore, routineStore), script, k);
        e.stores == fin.stores && results + e.results == fin.results && e.reply == fin.reply
      invariant done ==>
        StoresOf(planner, goalStore, skillStore, routineStore) == fin.stores
        && results == fin.results && reply == fin.reply
      decreases |script| - k + (if done then 0 else 1)
    {
      if k == |script| || script[k].Failure? {
        done := true;
      } else if script[k].call.None? {
        reply := Some(script[k].text);
        done := true;
      } else {
        ghost var before := StoresOf(planner, goalStore, skillStore, routineStore);
        var r := RunTool(script[k].call.value, script[k].env, planner, goalStore, skillStore, routineStore);
        if r.None? {
          done := true;
        } else {
          HandledStep(before, script, k);
          results := results + [r.value];
          k := k + 1;
        }
      }
    }
  }

  // ------------------------------------------------------------------ screen

  class ChatScreen {
    var conversations: seq<Conversation>
    var messages: seq<ChatMessage>
    var activeId: Option<string>
    var showHistory: bool
    var input: string
    var isSending: bool
    var isFetchingHistory: bool
    var chatReady: bool

    function Snapshot(): ChatState
      reads this
    {
      ChatState(conversations, messages, activeId, showHistory, input, isSending, isFetchingHistory, chatReady)
    }

    constructor ()
      ensures Snapshot() == ChatState([], [InitialMessage()], None, false, "", false, true, false)
    {
      conversations := [];
      messages := [InitialMessage()];
      activeId := None;
      showHistory := false;
      input := "";
      isSending := false;
      isFetchingHistory := true;
      chatReady := false;
    }

    /** `session` says whether `createAIChat` returned a session. */
    method InitializeChat(session: bool)
      modifies this
      ensures Snapshot() == InitializeSpec(old(Snapshot()), session)
    {
      chatReady := session;
      if !session {
        messages := messages + [InitError()];
      }
    }

    method HandleNewChat(signedIn: bool, isInitial: bool, now: nat, session: bool,
                         outcome: RemoteOutcome<Option<Conversation>>)
      modifies this
      ensures Snapshot() == NewChatSpec(old(Snapshot()), signedIn, isInitial, now, session, outcome)
    {
      if !signedIn {
        return;
      }
      isSending := true;
      var tempId := TempConversationId(now);
      if !isInitial {
        conversations := [Conversation(tempId, "New Chat")] + conversations;
      }
      activeId := Some(tempId);
      messages := [InitialMessage()];
      input := "";
      assert Snapshot() == OpenChat(old(Snapshot()), isInitial, now);
      InitializeChat(session);
      SettleNewChat(tempId, outcome);
      isSending := false;
    }

    /** The insert's answer in `handleNewChat`. */
    method SettleNewChat(tempId: string, outcome: RemoteOutcome<Option<Conversation>>)
      modifies this
      ensures Snapshot() == SettleChat(old(Snapshot()), tempId, outcome)
    {
      match outcome {
        case Ok(data) =>
          if data.Some? {
            var c := data.value;
            conversations := MapIf(conversations, WithId(tempId), Replace(c));
            activeId := Some(c.id);
          }
        case TableMissing =>
        case _ =>
          conversations := Filter(conversations, WithoutId(tempId));
      }
    }

    method FetchConversations(signedIn: bool, outcome: RemoteOutcome<seq<Conversation>>,
                              now: nat, session: bool, createOutcome: RemoteOutcome<Option<Conversation>>)
      modifies this
      ensures Snapshot() == FetchSpec(old(Snapshot()), signedIn, outcome, now, session, createOutcome)
    {
      if !signedIn {
        return;
      }
      isFetchingHistory := true;
      ghost var loading := Snapshot();
      match outcome {
        case Ok(rows) =>
          if |rows| > 0 {
            conversations := rows;
            activeId := Some(rows[0].id);
          } else {
            HandleNewChat(true, true, now, session, createOutcome);
          }
        case TableMissing =>
          conversations := [MockConversation()];
          activeId := Some(MockConversation().id);
        case _ =>
      }
      isFetchingHistory := false;
    }

    method LoadMessages(outcome: RemoteOutcome<seq<ChatMessage>>)
      modifies this
      ensures Snapshot() == LoadSpec(old(Snapshot()), outcome)
    {
      if activeId.None? || activeId.value == "" {
        return;
      }
      if IsMockId(activeId.value) {
        messages := [InitialMessage()];
        return;
      }
      match outcome {
        case Ok(rows) =>
          messages := if |rows| > 0 then rows else [InitialMessage()];
        case TableMissing =>
          messages := [InitialMessage()];
        case _ =>
      }
    }

    method HandleSelectConversation(id: string)
      modifies this
      ensures Snapshot() == SelectSpec(old(Snapshot()), id)
    {
      activeId := Some(id);
      showHistory := false;
    }

    method HandleDeleteConversation(id: string, signedIn: bool, now: nat, session: bool,
                                    createOutcome: RemoteOutcome<Option<Conversation>>, outcome: RemoteOutcome<()>)
      modifies this
      ensures Snapshot() == DeleteSpec(old(Snapshot()), id, signedIn, now, session, createOutcome, outcome)
    {
      var oldConversations := conversations;
      RemoveConversation(id, signedIn, now, session, createOutcome);
      if outcome.RollsBack() {
        conversations := oldConversations;
      }
    }

    /** The part of `handleDeleteConversation` before the backend answers. */
    method RemoveConversation(id: string, signedIn: bool, now: nat, session: bool,
                              createOutcome: RemoteOutcome<Option<Conversation>>)
      modifies this
      ensures Snapshot() == RemoveLocally(old(Snapshot()), id, signedIn, now, session, createOutcome)
    {
      var remaining := Filter(conversations, WithoutId(id));
      conversations := remaining;
      if activeId == Some(id) {
        if |remaining| > 0 {
          activeId := Some(remaining[0].id);
        } else {
          HandleNewChat(signedIn, false, now, session, createOutcome);
        }
      }
    }

    /** `script` is the model's answers in order; `now` stands for every
        `Date.now()` of one send. Returns the results sent back to the model
        and the backend writes. */
    method HandleSend(signedIn: bool, now: nat, script: seq<Reply>,
                      planner: PlannerContext.Planner, goalStore: GoalContext.GoalStore,
                      skillStore: SkillContext.SkillStore, routineStore: RoutineContext.RoutineStore)
      returns (results: seq<ToolResult>, writes: seq<BackendWrite>)
      modifies this, planner, goalStore, skillStore, routineStore
      ensures var o := SendSpec(old(Snapshot()), old(StoresOf(planner, goalStore, skillStore, routineStore)),
                                signedIn, now, script);
        && Snapshot() == o.state
        && StoresOf(planner, goalStore, skillStore, routineStore) == o.stores
        && results == o.results && writes == o.writes
    {
      results := [];
      writes := [];
      var text := Trim(input);
      if text == "" || isSending || !signedIn || activeId.None? || activeId.value == "" {
        return;
      }
      var id := activeId.value;
      writes := StartSend(id, now);
      var reply: Option<string> := None;
      if chatReady {
        results, reply := RunExchange(script, planner, goalStore, skillStore, routineStore);
      }
      var final := FinalMessage(now, reply);
      var more := EndSend(id, final);
      writes := writes + more;
    }

    /** The first lines of `handleSend` once its guard has passed. */
    method StartSend(id: string, now: nat) returns (writes: seq<BackendWrite>)
      modifies this
      ensures Snapshot() == PrepareSend(old(Snapshot()), id, now)
      ensures writes == WritesBefore(old(Snapshot()), id)
    {
      var text := Trim(input);
      var priorCount := |messages|;
      isSending := true;
      input := "";
      messages := messages + [ChatMessage("temp-user-" + NatToString(now), text, User, false)];
      writes := [];
      if !IsMockId(id) {
        writes := writes + [StoreMessage(id, text, User)];
      }
      if priorCount <= 1 {
        var title := TitleFrom(text);
        conversations := MapIf(conversations, WithId(id), Retitled(title));
        if !IsMockId(id) {
          writes := writes + [Retitle(id, title)];
        }
      }
    }

    /** The last lines of `handleSend`: show the final message and store the model's text. */
    method EndSend(id: string, final: ChatMessage) returns (writes: seq<BackendWrite>)
      modifies this
      ensures Snapshot() == FinishSend(old(Snapshot()), final)
      ensures writes == WritesAfter(id, final)
    {
      messages := messages + [final];
      writes := [];
      if !IsMockId(id) && !final.isError {
        writes := [StoreMessage(id, final.text, Ai)];
      }
      isSending := false;
    }
  }
}

=== FILE: ai_tools.dfy ===
/** The assistant's function calls (pages/AIChatScreen.tsx, inside `handleSend`):
    each call the model makes is matched against six declared functions, the
    matching store operation runs, and a `{success, message}` result is sent
    back to the model. A call that matches nothing, or lacks an argument its
    branch tests, gets a fixed failure result and touches no store. */
module AssistantTools {
  import opened Remote
  import opened Text
  import SkillContext
  import GoalContext
  import RoutineContext
  import PlannerContext

  /** The arguments of a call, with the types the function declarations give
      them; `None` is an argument the model left out. */
  datatype Args = Args(
    title: Option<string>, date: Option<string>, time: Option<string>, category: Option<string>,
    goalTitle: Option<string>, skillName: Option<string>, newLevel: Option<int>,
    routineTitle: Option<string>)

  datatype ToolCall = ToolCall(name: string, args: Args)

  /** The `{ success, message }` sent back to the model. */
  datatype ToolResult = ToolResult(success: bool, message: string)

  /** A string argument passes `args.x &&` when it is present and not empty. */
  predicate Truthy(a: Option<string>)
  {
    a.Some? && a.value != ""
  }

  /** Which branch of the dispatch a call takes. */
  datatype Action =
    | CreatePlan(draft: PlannerContext.EventDraft)
    | AddGoal(goalTitle: string)
    | AddSkill(skillName: string)
    | UpdateSkillLevel(skillName: string, newLevel: int)
    | AddRoutine(routineTitle: string, category: string)
    | CreateRoadmap(skillName: string)
    | Unrecognized

  function Decide(call: ToolCall): Action
  {
    var a := call.args;
    if call.name == "create_plan" && Truthy(a.title) && Truthy(a.date) && Truthy(a.time) && Truthy(a.category) then
      CreatePlan(PlannerContext.EventDraft(a.date.value, a.time.value, a.title.value, a.category.value))
    else if call.name == "add_new_goal" && Truthy(a.goalTitle) then AddGoal(a.goalTitle.value)
    else if call.name == "add_new_skill" && Truthy(a.skillName) then AddSkill(a.skillName.value)
    else if call.name == "update_skill_level" && Truthy(a.skillName) && a.newLevel.Some? then
      UpdateSkillLevel(a.skillName.value, a.newLevel.value)
    else if call.name == "add_daily_routine" && Truthy(a.routineTitle) && Truthy(a.category) then
      AddRoutine(a.routineTitle.value, a.category.value)
    else if call.name == "create_learning_roadmap" && Truthy(a.skillName) then CreateRoadmap(a.skillName.value)
    else Unrecognized
  }

  /** A plan is scheduled only with all four arguments non-empty; a level is
      accepted whenever it is present, 0 included; every other function runs
      exactly when its name matches and its arguments are non-empty. A call
      passing none of the six guards, whether its name is unknown or an
      argument is missing or empty, is not recognised. */
  lemma DecideGuards(call: ToolCall)
    ensures Decide(call).CreatePlan? <==>
      call.name == "create_plan" && Truthy(call.args.title) && Truthy(call.args.date)
      && Truthy(call.args.time) && Truthy(call.args.category)
    ensures Decide(call).AddGoal? <==> call.name == "add_new_goal" && Truthy(call.args.goalTitle)
    ensures Decide(call).AddSkill? <==> call.name == "add_new_skill" && Truthy(call.args.skillName)
    ensures Decide(call).UpdateSkillLevel? <==>
      call.name == "update_skill_level" && Truthy(call.args.skillName) && call.args.newLevel.Some?
    ensures Decide(call).AddRoutine? <==>
      call.name == "add_daily_routine" && Truthy(call.args.routineTitle) && Truthy(call.args.category)
    ensures Decide(call).CreateRoadmap? <==>
      call.name == "create_learning_roadmap" && Truthy(call.args.skillName)
    ensures Decide(call).Unrecognized? <==>
      && !(call.name == "create_plan" && Truthy(call.args.title) && Truthy(call.args.date)
           && Truthy(call.args.time) && Truthy(call.args.category))
      && !(call.name == "add_new_goal" && Truthy(call.args.goalTitle))
      && !(call.name == "add_new_skill" && Truthy(call.args.skillName))
      && !(call.name == "update_skill_level" && Truthy(call.args.skillName) && call.args.newLevel.Some?)
      && !(call.name == "add_daily_routine" && Truthy(call.args.routineTitle) && Truthy(call.args.category))
      && !(call.name == "create_learning_roadmap" && Truthy(call.args.skillName))
    ensures (call.name !in {"create_plan", "add_new_goal", "add_new_skill", "update_skill_level",
                            "add_daily_routine", "create_learning_roadmap"})
            ==> Decide(call) == Unrecognized
  {
  }

  const NotRecognized: ToolResult := ToolResult(false, "Function not recognized or failed.")

  /** `saveRoadmap`: the result of inserting a roadmap. */
  function SaveRoadmap(signedIn: bool, skillTitle: string, outcome: RemoteOutcome<()>): (r: ToolResult)
    ensures r.success <==> signedIn && outcome.Ok?
  {
    if !signedIn then ToolResult(false, "User not logged in.")
    else match outcome
      case Ok(_) => ToolResult(true, "Roadmap for " + skillTitle + " saved successfully.")
      case TableMissing => ToolResult(false, "Could not save roadmap due to a database configuration issue.")
      case _ => ToolResult(false, "An error occurred while saving the roadmap.")
  }

  /** The lists of the four stores the assistant can change. */
  datatype Stores = Stores(
    events: seq<PlannerContext.PlannerEvent>, goals: seq<GoalContext.Goal>,
    skills: seq<SkillContext.Skill>, routines: seq<RoutineContext.Routine>)

  /** What the world answers while one call runs: the clock, the outcome of
      the store's remote write, the generated roadmap text and the outcome of
      saving it. */
  datatype ToolEnv = ToolEnv(
    now: nat,
    goalOutcome: RemoteOutcome<Option<GoalContext.Goal>>,
    skillOutcome: RemoteOutcome<()>,
    routineOutcome: RemoteOutcome<seq<RoutineContext.Routine>>,
    roadmapContent: string,
    saveOutcome: RemoteOutcome<()>)

  /** A handled call leaves new store lists and a result; `Threw` is a call
      that raised an exception, which ends the whole exchange. */
  datatype DispatchOutcome = Handled(stores: Stores, result: ToolResult) | Threw

  /** One pass through the dispatch. `add_new_skill` calls a member the skill
      store does not provide, so it throws before changing anything. */
  function Dispatch(stores: Stores, call: ToolCall, env: ToolEnv): DispatchOutcome
  {
    match Decide(call)
      case CreatePlan(draft) =>
        Handled(stores.(events := PlannerContext.AddSpec(stores.events, draft, env.now)),
                ToolResult(true, "Event '" + draft.title + "' scheduled."))
      case AddGoal(goalTitle) =>
        Handled(stores.(goals := GoalContext.AddSpec(stores.goals, true, goalTitle, env.now, env.goalOutcome)),
                ToolResult(true, "Goal '" + goalTitle + "' has been added."))
      case AddSkill(_) => Threw
      case UpdateSkillLevel(skillName, newLevel) =>
        Handled(stores.(skills := SkillContext.UpdateSpec(stores.skills, true, skillName, newLevel, env.skillOutcome)),
                ToolResult(true, "Skill '" + skillName + "' updated to " + IntToString(newLevel) + "%."))
      case AddRoutine(routineTitle, category) =>
        Handled(stores.(routines := RoutineContext.InitializeSpec(stores.routines, true,
                  [RoutineContext.RoutineDraft(routineTitle, category)], env.now, env.routineOutcome)),
                ToolResult(true, "Routine '" + routineTitle + "' has been added."))
      case CreateRoadmap(skillName) =>
        if Contains(env.roadmapContent, "Sorry") then Handled(stores, ToolResult(false, env.roadmapContent))
        else Handled(stores, SaveRoadmap(true, skillName, env.saveOutcome))
      case Unrecognized => Handled(stores, NotRecognized)
  }

  /** An unrecognised or malformed call gets the fixed failure and changes no store. */
  lemma UnrecognizedChangesNothing(stores: Stores, call: ToolCall, env: ToolEnv)
    requires Decide(call).Unrecognized?
    ensures Dispatch(stores, call, env) == Handled(stores, NotRecognized)
  {
  }

  /** Each handled call changes at most the one store its function names. */
  lemma DispatchTouchesOneStore(stores: Stores, call: ToolCall, env: ToolEnv)
    ensures var d := Dispatch(stores, call, env);
      && (d.Threw? <==> Decide(call).AddSkill?)
      && (d.Handled? && !Decide(call).CreatePlan? ==> d.stores.events == stores.events)
      && (d.Handled? && !Decide(call).AddGoal? ==> d.stores.goals == stores.goals)
      && (d.Handled? ==> d.stores.skills == stores.skills || Decide(call).UpdateSkillLevel?)
      && (d.Handled? && !Decide(call).AddRoutine? ==> d.stores.routines == stores.routines)
  {
  }

  /** The result reports the level as the model sent it, while the store
      keeps it clamped to [0, 100]: a level of 150 is reported as "150%" and
      stored as 100. */
  lemma UpdateSkillLevelEchoesRawLevel(stores: Stores, call: ToolCall, env: ToolEnv, i: nat)
    requires Decide(call).UpdateSkillLevel?
    requires !env.skillOutcome.RollsBack()
    requires i < |stores.skills| && stores.skills[i].subject == Decide(call).skillName
    ensures var d := Dispatch(stores, call, env);
      var level := call.args.newLevel.value;
      && d.Handled? && d.result.success
      && d.result.message == "Skill '" + call.args.skillName.value + "' updated to " + IntToString(level) + "%."
      && d.stores.skills[i].level == SkillContext.Clamp(level)
  {
    var name, level := call.args.skillName.value, call.args.newLevel.value;
    SkillContext.UpdateSpecProperties(stores.skills, true, name, level, env.skillOutcome);
  }

  /** Adding a goal is reported as done whatever the insert answered, even
      when the goal was taken back out of the list. */
  lemma AddGoalAlwaysReportsSuccess(stores: Stores, call: ToolCall, env: ToolEnv)
    requires Decide(call).AddGoal?
    requires !GoalContext.HasId(stores.goals, GoalContext.TempGoalId(env.now))
    ensures var d := Dispatch(stores, call, env);
      && d.Handled? && d.result.success
      && (env.goalOutcome.RollsBack() ==> d.stores == stores)
  {
    GoalContext.AddSpecOutcomes(stores.goals, call.args.goalTitle.value, env.now, env.goalOutcome);
  }

  /** The assistant service's own apology when an assessment fails, written
      in pieces so that each piece can be checked for a capital S. */
  const AssessmentFallback: string :=
    "I'm sorry, I can't " + "provide a skill " + "assessment right now. " + "Please try again later."

  /** A text without a capital S never contains "Sorry". */
  lemma {:induction false} NoCapitalSNoSorry(s: string)
    requires forall i :: 0 <= i < |s| ==> s[i] != 'S'
    ensures !Contains(s, "Sorry")
    decreases |s|
  {
    if s != [] {
      assert forall i :: 0 <= i < |s[1..]| ==> s[1..][i] == s[i + 1];
      NoCapitalSNoSorry(s[1..]);
      if |s| >= 5 {
        assert s[..5][0] == s[0];
      }
    }
  }

  lemma NoCapitalSInConcat(x: string, y: string)
    requires forall i :: 0 <= i < |x| ==> x[i] != 'S'
    requires forall i :: 0 <= i < |y| ==> y[i] != 'S'
    ensures forall i :: 0 <= i < |x + y| ==> (x + y)[i] != 'S'
  {
  }

  /** The service's apology is written with a lower-case "sorry", so the
      "Sorry" test lets it through and it is saved as a roadmap. */
  lemma FallbackApologyIsSaved(stores: Stores, call: ToolCall, env: ToolEnv)
    requires Decide(call).CreateRoadmap?
    requires env.roadmapContent == AssessmentFallback
    ensures var d := Dispatch(stores, call, env);
      d.Handled? && d.result == SaveRoadmap(true, call.args.skillName.value, env.saveOutcome)
  {
    var a, b, c, e := "I'm sorry, I can't ", "provide a skill ", "assessment right now. ", "Please try again later.";
    NoCapitalSInConcat(a, b);
    NoCapitalSInConcat(a + b, c);
    NoCapitalSInConcat(a + b + c, e);
    NoCapitalSNoSorry(AssessmentFallback);
    RoadmapResult(stores, call, env);
  }

  /** Roadmap text that mentions "Sorry" is passed back as a failure and
      nothing is saved; otherwise the result is that of saving it. */
  lemma RoadmapResult(stores: Stores, call: ToolCall, env: ToolEnv)
    requires Decide(call).CreateRoadmap?
    ensures var d := Dispatch(stores, call, env);
      && d.Handled? && d.stores == stores
      && (Contains(env.roadmapContent, "Sorry") ==> d.result == ToolResult(false, env.roadmapContent))
      && (!Contains(env.roadmapContent, "Sorry") ==>
            d.result == SaveRoadmap(true, call.args.skillName.value, env.saveOutcome))
  {
  }

  function StoresOf(planner: PlannerContext.Planner, goalStore: GoalContext.GoalStore,
                    skillStore: SkillContext.SkillStore, routineStore: RoutineContext.RoutineStore): Stores
    reads planner, goalStore, skillStore, routineStore
  {
    Stores(planner.events, goalStore.goals, skillStore.skills, routineStore.routines)
  }

  /** The dispatch run against the store objects. Returns the result sent
      back to the model, or None when the call threw. */
  method RunTool(call: ToolCall, env: ToolEnv, planner: PlannerContext.Planner, goalStore: GoalContext.GoalStore,
                 skillStore: SkillContext.SkillStore, routineStore: RoutineContext.RoutineStore)
    returns (result: Option<ToolResult>)
    modifies planner, goalStore, skillStore, routineStore
    ensures var d := Dispatch(old(StoresOf(planner, goalStore, skillStore, routineStore)), call, env);
      && (d.Handled? ==> StoresOf(planner, goalStore, skillStore, routineStore) == d.stores && result == Some(d.result))
      && (d.Threw? ==> StoresOf(planner, goalStore, skillStore, routineStore)
                         == old(StoresOf(planner, goalStore, skillStore, routineStore)) && result == None)
    ensures goalStore.isLoading == old(goalStore.isLoading)
    ensures skillStore.isLoading == old(skillStore.isLoading)
    ensures routineStore.isLoading == old(routineStore.isLoading)
  {
    match Decide(call) {
      case CreatePlan(draft) =>
        planner.AddEvent(draft, env.now);
        result := Some(ToolResult(true, "Event '" + draft.title + "' scheduled."));
      case AddGoal(goalTitle) =>
        var _ := goalStore.AddGoal(true, goalTitle, env.now, env.goalOutcome);
        result := Some(ToolResult(true, "Goal '" + goalTitle + "' has been added."));
      case AddSkill(_) =>
        result := None;
      case UpdateSkillLevel(skillName, newLevel) =>
        var _ := skillStore.UpdateSkill(true, skillName, newLevel, env.skillOutcome);
        result := Some(ToolResult(true, "Skill '" + skillName + "' updated to " + IntToString(newLevel) + "%."));
      case AddRoutine(routineTitle, category) =>
        var _ := routineStore.InitializeRoutines(true, [RoutineContext.RoutineDraft(routineTitle, category)],
                                                 env.now, env.routineOutcome);
        result := Some(ToolResult(true, "Routine '" + routineTitle + "' has been added."));
      case CreateRoadmap(skillName) =>
        if Contains(env.roadmapContent, "Sorry") {
          result := Some(ToolResult(false, env.roadmapContent));
        } else {
          result := Some(SaveRoadmap(true, skillName, env.saveOutcome));
        }
      case Unrecognized =>
        result := Some(NotRecognized);
    }
  }
}

=== FILE: app_routes.dfy ===
/** The route guards of the application shell (App.tsx): which screen or
    redirect each path shows, given whether the session is still loading and
    whether someone is signed in. */
module AppRoutes {
  import opened Remote

  /** What a guard renders. */
  datatype View = LoadingScreen(text: string) | Redirect(to: string) | Outlet

  /** `ProtectedRoute`: the signed-in area. */
  function ProtectedRoute(loading: bool, signedIn: bool): (v: View)
    ensures loading <==> v.LoadingScreen?
    ensures !loading ==> (v == Outlet <==> signedIn)
    ensures !loading && !signedIn ==> v == Redirect("/login")
  {
    if loading then LoadingScreen("Loading...")
    else if !signedIn then Redirect("/login")
    else Outlet
  }

  /** `AuthRoute`: the pages for signing in, shown only to visitors. */
  function AuthRoute(loading: bool, signedIn: bool): (v: View)
    ensures loading <==> v.LoadingScreen?
    ensures !loading ==> (v == Outlet <==> !signedIn)
    ensures !loading && signedIn ==> v == Redirect("/home")
  {
    if loading then LoadingScreen("Loading...")
    else if signedIn then Redirect("/home")
    else Outlet
  }

  /** Once the session is known, exactly one of the two guards lets its pages
      through. */
  lemma ExactlyOneGuardOpens(signedIn: bool)
    ensures (ProtectedRoute(false, signedIn) == Outlet) != (AuthRoute(false, signedIn) == Outlet)
  {
  }

  /** `PostLoginRedirect`; `skillCount` is None while the skill store is
      missing or loading. */
  function PostLoginRedirect(skillCount: Option<nat>): (v: View)
    ensures skillCount.None? <==> v.LoadingScreen?
    ensures skillCount == Some(0) <==> v == Redirect("/welcome")
    ensures (skillCount.Some? && skillCount.value > 0) <==> v == Redirect("/home")
  {
    match skillCount
    case None => LoadingScreen("Loading user data...")
    case Some(n) => if n == 0 then Redirect("/welcome") else Redirect("/home")
  }

  /** Which guard a path sits behind. */
  datatype Area = Public | AuthOnly | SignedInOnly | Unknown

  const AuthPaths: set<string> := {"/onboarding", "/login", "/signup", "/forgot-password"}
  const ProtectedPaths: set<string> := {
    "/post-login", "/welcome", "/skill-selection", "/routine-selection",
    "/ai-chat", "/settings", "/notifications", "/achievements", "/resources", "/support",
    "/skill-coach", "/career-advisor", "/goals", "/manage-skills",
    "/home", "/skills", "/roadmaps", "/planner", "/profile"}

  function AreaOf(path: string): Area
  {
    if path == "/" then Public
    else if path in AuthPaths then AuthOnly
    else if path in ProtectedPaths then SignedInOnly
    else Unknown
  }

  /** What navigating to `path` shows: the splash screen at "/", the guarded
      screen or a redirect elsewhere, and a redirect to "/" for any other path. */
  function Resolve(path: string, loading: bool, signedIn: bool): View
  {
    match AreaOf(path)
    case Public => Outlet
    case AuthOnly => AuthRoute(loading, signedIn)
    case SignedInOnly => ProtectedRoute(loading, signedIn)
    case Unknown => Redirect("/")
  }

  /** A visitor never sees a signed-in page and a signed-in user never sees a
      sign-in page; every redirect a guard issues leads to a known path. */
  lemma GuardsSeparateAreas(path: string, signedIn: bool)
    ensures AreaOf(path) == SignedInOnly && !signedIn ==> Resolve(path, false, signedIn) == Redirect("/login")
    ensures AreaOf(path) == AuthOnly && signedIn ==> Resolve(path, false, signedIn) == Redirect("/home")
    ensures Resolve(path, false, signedIn) == Outlet ==>
      AreaOf(path) == Public || (AreaOf(path) == SignedInOnly <==> signedIn)
    ensures Resolve(path, false, signedIn).Redirect? ==> AreaOf(Resolve(path, false, signedIn).to) != Unknown
  {
    assert AreaOf("/login") == AuthOnly;
    assert AreaOf("/home") == SignedInOnly;
    assert AreaOf("/") == Public;
  }

  /** The first-run screens move along signed-in pages only: welcome to skill
      selection, to routine selection, to home. */
  lemma OnboardingStaysSignedIn()
    ensures AreaOf("/skill-selection") == SignedInOnly
    ensures AreaOf("/routine-selection") == SignedInOnly
    ensures AreaOf("/home") == SignedInOnly
    ensures AreaOf("/welcome") == SignedInOnly
    ensures AreaOf("/signup") == AuthOnly
  {
    assert "/skill-selection" !in AuthPaths;
    assert "/routine-selection" !in AuthPaths;
    assert "/home" !in AuthPaths;
    assert "/welcome" !in AuthPaths;
  }
}

=== FILE: goal_context.dfy ===
/** The goals store (context/GoalContext.tsx): the user's goals with their
    tasks. A new goal is shown at once under a provisional id `mock-g-<now>`
    and swapped for the stored row when the insert answers; deleting and
    (un)completing goals and tasks are applied locally first and undone when
    the backend fails for any reason other than a missing table. */
module GoalContext {
  import opened SeqUtil
  import opened Remote
  import opened Text

  datatype Task = Task(id: string, description: string, completed: bool)

  datatype Goal = Goal(id: string, title: string, completed: bool, tasks: seq<Task>)

  /** The goals shown when the `goals` table is missing. */
  function MockGoals(): seq<Goal>
  {
    [ Goal("mock-g-1", "Run a 5k marathon", false,
           [Task("mock-t-1", "Run 1k", true), Task("mock-t-2", "Run 3k", false)]),
      Goal("mock-g-2", "Learn to cook a new dish", true, []) ]
  }

  /** No id occurs twice. */
  predicate UniqueIds(goals: seq<Goal>)
  {
    forall i, j :: 0 <= i < j < |goals| ==> goals[i].id != goals[j].id
  }

  predicate HasId(goals: seq<Goal>, id: string)
  {
    exists i :: 0 <= i < |goals| && goals[i].id == id
  }

  /** `mock-g-${Date.now()}`. */
  function TempGoalId(now: nat): string
  {
    "mock-g-" + NatToString(now)
  }

  function ProvisionalGoal(now: nat, title: string): Goal
  {
    Goal(TempGoalId(now), title, false, [])
  }

  /** The list after `fetchGoals`. */
  function FetchSpec(goals: seq<Goal>, signedIn: bool, outcome: RemoteOutcome<seq<Goal>>): (r: seq<Goal>)
    ensures !signedIn ==> r == goals
    ensures signedIn && outcome.Ok? ==> r == outcome.rows
    ensures signedIn && outcome.TableMissing? ==> r == MockGoals()
    ensures outcome.RollsBack() ==> r == goals
  {
    if !signedIn then goals
    else match outcome
      case Ok(data) => data
      case TableMissing => MockGoals()
      case _ => goals
  }

  /** The list after `addGoal`. */
  function AddSpec(goals: seq<Goal>, signedIn: bool, title: string, now: nat,
                   outcome: RemoteOutcome<Option<Goal>>): seq<Goal>
  {
    if !signedIn then goals
    else
      var tempId := TempGoalId(now);
      var shown := [ProvisionalGoal(now, title)] + goals;
      match outcome
        case Ok(Some(stored)) => MapIf(shown, (g: Goal) => g.id == tempId, (g: Goal) => stored)
        case Ok(None) => shown
        case TableMissing => shown
        case _ => Filter(shown, (g: Goal) => g.id != tempId)
  }

  /** What `addGoal` resolves to. */
  function AddResult(signedIn: bool, title: string, now: nat, outcome: RemoteOutcome<Option<Goal>>): (r: Option<Goal>)
    ensures !signedIn || outcome.RollsBack() ==> r == None
    ensures signedIn && outcome.Ok? ==> r == outcome.rows
    ensures signedIn && outcome.TableMissing? ==> r == Some(ProvisionalGoal(now, title))
  {
    if !signedIn then None
    else match outcome
      case Ok(data) => data
      case TableMissing => Some(ProvisionalGoal(now, title))
      case _ => None
  }

  /** With a provisional id no existing goal carries: a stored row takes the
      provisional goal's place at the front and appears once; a null row or a
      missing table leave the provisional goal in front; any other failure
      gives back exactly the list before the call. */
  lemma AddSpecOutcomes(goals: seq<Goal>, title: string, now: nat, outcome: RemoteOutcome<Option<Goal>>)
    requires !HasId(goals, TempGoalId(now))
    ensures outcome.Ok? && outcome.rows.Some? ==>
      AddSpec(goals, true, title, now, outcome) == [outcome.rows.value] + goals
    ensures outcome.Ok? && outcome.rows.None? ==>
      AddSpec(goals, true, title, now, outcome) == [ProvisionalGoal(now, title)] + goals
    ensures outcome.TableMissing? ==>
      AddSpec(goals, true, title, now, outcome) == [ProvisionalGoal(now, title)] + goals
    ensures outcome.RollsBack() ==> AddSpec(goals, true, title, now, outcome) == goals
  {
    var tempId := TempGoalId(now);
    var shown := [ProvisionalGoal(now, title)] + goals;
    assert forall i :: 0 < i < |shown| ==> shown[i] == goals[i - 1];
    if outcome.RollsBack() {
      FilterDropsOne(shown, 0, (g: Goal) => g.id != tempId);
      assert shown[1..] == goals;
    }
  }

  /** The list after `deleteGoal`. */
  function DeleteSpec(goals: seq<Goal>, id: string, outcome: RemoteOutcome<()>): seq<Goal>
  {
    if outcome.RollsBack() then goals else Filter(goals, (g: Goal) => g.id != id)
  }

  /** A kept deletion removes the goal with that id and nothing else, in order. */
  lemma DeleteRemovesOne(goals: seq<Goal>, k: nat, outcome: RemoteOutcome<()>)
    requires UniqueIds(goals) && k < |goals|
    requires !outcome.RollsBack()
    ensures DeleteSpec(goals, goals[k].id, outcome) == goals[..k] + goals[k + 1..]
  {
    FilterDropsOne(goals, k, (g: Goal) => g.id != goals[k].id);
  }

  /** Deleting an id no goal carries changes nothing; a failed deletion restores the snapshot. */
  lemma DeleteUnknownOrFailed(goals: seq<Goal>, id: string, outcome: RemoteOutcome<()>)
    requires !HasId(goals, id) || outcome.RollsBack()
    ensures DeleteSpec(goals, id, outcome) == goals
  {
    if !outcome.RollsBack() {
      FilterKeepsAll(goals, (g: Goal) => g.id != id);
    }
  }

  /** The optimistic `toggleGoal`: `completed` is set (not flipped) on the goals with that id. */
  function SetGoalCompleted(goals: seq<Goal>, id: string, completed: bool): seq<Goal>
  {
    MapIf(goals, (g: Goal) => g.id == id, (g: Goal) => g.(completed := completed))
  }

  function ToggleGoalSpec(goals: seq<Goal>, id: string, completed: bool, outcome: RemoteOutcome<()>): seq<Goal>
  {
    if outcome.RollsBack() then goals else SetGoalCompleted(goals, id, completed)
  }

  /** Only the goals with that id change, only in `completed`, which takes
      the given value; a failure restores the snapshot. */
  lemma ToggleGoalProperties(goals: seq<Goal>, id: string, completed: bool, outcome: RemoteOutcome<()>)
    ensures var r := ToggleGoalSpec(goals, id, completed, outcome);
      && |r| == |goals|
      && (forall i :: 0 <= i < |r| && goals[i].id != id ==> r[i] == goals[i])
      && (forall i :: 0 <= i < |r| ==> r[i] == goals[i].(completed := r[i].completed))
      && (outcome.RollsBack() ==> r == goals)
      && (!outcome.RollsBack() ==> forall i :: 0 <= i < |r| && goals[i].id == id ==> r[i].completed == completed)
  {
  }

  /** Setting the same value twice is setting it once. */
  lemma SetGoalCompletedIdempotent(goals: seq<Goal>, id: string, completed: bool)
    ensures SetGoalCompleted(SetGoalCompleted(goals, id, completed), id, completed)
         == SetGoalCompleted(goals, id, completed)
  {
    var once := SetGoalCompleted(goals, id, completed);
    var twice := SetGoalCompleted(once, id, completed);
    assert forall i :: 0 <= i < |goals| ==> twice[i] == once[i];
  }

  function SetTaskCompleted(tasks: seq<Task>, taskId: string, completed: bool): seq<Task>
  {
    MapIf(tasks, (t: Task) => t.id == taskId, (t: Task) => t.(completed := completed))
  }

  /** The optimistic `toggleTask`: every task with that id, in every goal. */
  function SetTaskEverywhere(goals: seq<Goal>, taskId: string, completed: bool): seq<Goal>
  {
    MapIf(goals, (g: Goal) => true, (g: Goal) => g.(tasks := SetTaskCompleted(g.tasks, taskId, completed)))
  }

  function ToggleTaskSpec(goals: seq<Goal>, taskId: string, completed: bool, outcome: RemoteOutcome<()>): seq<Goal>
  {
    if outcome.RollsBack() then goals else SetTaskEverywhere(goals, taskId, completed)
  }

  /** Goal fields and the number and order of tasks stay; each task with that
      id takes the value, other tasks keep theirs; a failure restores the snapshot. */
  lemma ToggleTaskProperties(goals: seq<Goal>, taskId: string, completed: bool, outcome: RemoteOutcome<()>)
    ensures var r := ToggleTaskSpec(goals, taskId, completed, outcome);
      && |r| == |goals|
      && (forall i :: 0 <= i < |r| ==>
            && r[i].id == goals[i].id && r[i].title == goals[i].title
            && r[i].completed == goals[i].completed && |r[i].tasks| == |goals[i].tasks|)
      && (forall i, j :: 0 <= i < |r| && 0 <= j < |r[i].tasks| ==>
            && r[i].tasks[j].id == goals[i].tasks[j].id
            && r[i].tasks[j].description == goals[i].tasks[j].description
            && r[i].tasks[j].completed ==
                 if !outcome.RollsBack() && goals[i].tasks[j].id == taskId then completed
                 else goals[i].tasks[j].completed)
  {
  }

  class GoalStore {
    var goals: seq<Goal>
    var isLoading: bool

    constructor ()
      ensures goals == [] && isLoading
    {
      goals := [];
      isLoading := true;
    }

    method FetchGoals(signedIn: bool, outcome: RemoteOutcome<seq<Goal>>)
      modifies this
      ensures goals == FetchSpec(old(goals), signedIn, outcome)
      ensures !isLoading
    {
      if !signedIn {
        isLoading := false;
        return;
      }
      isLoading := true;
      match outcome {
        case Ok(data) => goals := data;
        case TableMissing => goals := MockGoals();
        case _ =>
      }
      isLoading := false;
    }

    /** `now` stands for `Date.now()`. */
    method AddGoal(signedIn: bool, title: string, now: nat, outcome: RemoteOutcome<Option<Goal>>)
      returns (result: Option<Goal>)
      modifies this
      ensures goals == AddSpec(old(goals), signedIn, title, now, outcome)
      ensures result == AddResult(signedIn, title, now, outcome)
      ensures isLoading == old(isLoading)
    {
      if !signedIn {
        return None;
      }
      var tempId := TempGoalId(now);
      var newGoal := Goal(tempId, title, false, []);
      goals := [newGoal] + goals;
      match outcome {
        case Ok(data) =>
          if data.Some? {
            goals := MapIf(goals, (g: Goal) => g.id == tempId, (g: Goal) => data.value);
            return data;
          }
          return None;
        case TableMissing =>
          return Some(newGoal);
        case _ =>
          goals := Filter(goals, (g: Goal) => g.id != tempId);
          return None;
      }
    }

    method DeleteGoal(id: string, outcome: RemoteOutcome<()>)
      modifies this
      ensures goals == DeleteSpec(old(goals), id, outcome)
      ensures isLoading == old(isLoading)
    {
      var oldGoals := goals;
      goals := Filter(goals, (g: Goal) => g.id != id);
      if outcome.RollsBack() {
        goals := oldGoals;
      }
    }

    method ToggleGoal(id: string, completed: bool, outcome: RemoteOutcome<()>)
      modifies this
      ensures goals == ToggleGoalSpec(old(goals), id, completed, outcome)
      ensures isLoading == old(isLoading)
    {
      var oldGoals := goals;
      goals := SetGoalCompleted(goals, id, completed);
      if outcome.RollsBack() {
        goals := oldGoals;
      }
    }

    method ToggleTask(taskId: string, completed: bool, outcome: RemoteOutcome<()>)
      modifies this
      ensures goals == ToggleTaskSpec(old(goals), taskId, completed, outcome)
      ensures isLoading == old(isLoading)
    {
      var oldGoals := goals;
      goals := SetTaskEverywhere(goals, taskId, completed);
      if outcome.RollsBack() {
        goals := oldGoals;
      }
    }
  }
}

=== FILE: goal_tracker.dfy ===
/** The stand-alone goal tracker (pages/GoalTrackerScreen.tsx): a goal's
    progress is the share of its tasks that are done, the bar is drawn only
    for goals with tasks, and the list is split into open and completed
    goals. */
module GoalTracker {
  import opened SeqUtil
  import GoalContext

  type Goal = GoalContext.Goal
  type Task = GoalContext.Task

  /** `initialGoals`; the tracker's sample tasks carry no id, which the model
      writes as the empty one. */
  function InitialGoals(): seq<Goal>
  {
    [GoalContext.Goal("1", "Read 12 books this year", false,
       [GoalContext.Task("", "Read \"Atomic Habits\"", true),
        GoalContext.Task("", "Read \"The Psychology of Money\"", true),
        GoalContext.Task("", "Read \"Sapiens\"", false)]),
     GoalContext.Goal("2", "Launch a side project", false,
       [GoalContext.Task("", "Brainstorm ideas", true),
        GoalContext.Task("", "Create a business plan", false),
        GoalContext.Task("", "Build a prototype", false)]),
     GoalContext.Goal("3", "Run a 5k marathon", true, [])]
  }

  function IsDone(): Task -> bool
  {
    (t: Task) => t.completed
  }

  /** The number of completed tasks. */
  function DoneCount(tasks: seq<Task>): nat
  {
    |Filter(tasks, IsDone())|
  }

  /** Every entry passes the filter exactly when nothing is dropped, and none
      does exactly when nothing is kept. */
  lemma {:induction false} FilterCount<T>(s: seq<T>, p: T -> bool)
    ensures |Filter(s, p)| == |s| <==> forall i :: 0 <= i < |s| ==> p(s[i])
    ensures |Filter(s, p)| == 0 <==> forall i :: 0 <= i < |s| ==> !p(s[i])
    decreases |s|
  {
    if s != [] {
      FilterCount(s[1..], p);
      assert forall i :: 1 <= i < |s| ==> s[i] == s[1..][i - 1];
    }
  }

  /** `GoalItem`'s progress, in percent. */
  function Progress(g: Goal): real
  {
    if |g.tasks| > 0 then (DoneCount(g.tasks) as real / |g.tasks| as real) * 100.0
    else if g.completed then 100.0 else 0.0
  }

  /** The progress bar is drawn only for a goal with tasks. */
  predicate ShowsBar(g: Goal)
  {
    |g.tasks| > 0
  }

  /** Progress lies in [0, 100]; with tasks it is exactly the done share, it
      is 100 exactly when every task is done and 0 exactly when none is; with
      no tasks it follows the goal's own flag. */
  lemma ProgressProperties(g: Goal)
    ensures 0.0 <= Progress(g) <= 100.0
    ensures ShowsBar(g) ==> Progress(g) * (|g.tasks| as real) == (DoneCount(g.tasks) as real) * 100.0
    ensures ShowsBar(g) ==>
      (Progress(g) == 100.0 <==> forall i :: 0 <= i < |g.tasks| ==> g.tasks[i].completed)
    ensures ShowsBar(g) ==>
      (Progress(g) == 0.0 <==> forall i :: 0 <= i < |g.tasks| ==> !g.tasks[i].completed)
    ensures !ShowsBar(g) ==> Progress(g) == if g.completed then 100.0 else 0.0
  {
    FilterCount(g.tasks, IsDone());
    if ShowsBar(g) {
      ShareBounds(DoneCount(g.tasks) as real, |g.tasks| as real);
    }
  }

  /** A share of a positive whole lies in [0, 1] and reaches either end only
      at the end itself. */
  lemma ShareBounds(d: real, n: real)
    requires 0.0 <= d <= n && n > 0.0
    ensures 0.0 <= d / n <= 1.0
    ensures (d / n) * n == d
    ensures d / n == 1.0 <==> d == n
    ensures d / n == 0.0 <==> d == 0.0
  {
    var f := d / n;
    assert f * n == d;
    var excess := f - 1.0;
    assert excess * n == d - n;
  }

  function IsOpen(): Goal -> bool
  {
    (g: Goal) => !g.completed
  }

  function IsCompleted(): Goal -> bool
  {
    (g: Goal) => g.completed
  }

  /** The goals listed above the "Completed" heading. */
  function OpenGoals(goals: seq<Goal>): seq<Goal>
  {
    Filter(goals, IsOpen())
  }

  /** The goals listed under the "Completed" heading. */
  function CompletedGoals(goals: seq<Goal>): seq<Goal>
  {
    Filter(goals, IsCompleted())
  }

  /** The two lists split the goals: together they hold every goal as often
      as the input does, each holds exactly the goals with its flag, and both
      keep the input order (each is a filter of it). */
  lemma ListsPartitionGoals(goals: seq<Goal>)
    ensures multiset(OpenGoals(goals)) + multiset(CompletedGoals(goals)) == multiset(goals)
    ensures forall g :: g in OpenGoals(goals) <==> g in goals && !g.completed
    ensures forall g :: g in CompletedGoals(goals) <==> g in goals && g.completed
  {
    forall g | true
      ensures g in OpenGoals(goals) <==> g in goals && !g.completed
      ensures g in CompletedGoals(goals) <==> g in goals && g.completed
    {
      FilterMembership(goals, IsOpen(), g);
      FilterMembership(goals, IsCompleted(), g);
    }
    FilterSplits(goals);
  }

  lemma {:induction false} FilterSplits(goals: seq<Goal>)
    ensures multiset(Filter(goals, IsOpen())) + multiset(Filter(goals, IsCompleted())) == multiset(goals)
    decreases |goals|
  {
    if goals != [] {
      FilterSplits(goals[1..]);
      assert goals == [goals[0]] + goals[1..];
    }
  }
}

=== FILE: onboarding.dfy ===
/** The introduction carousel (pages/OnboardingScreen.tsx): three slides, a
    button that advances to the next one and, on the last, leaves for the
    sign-up page. */
module Onboarding {
  import opened Remote

  datatype Slide = Slide(title: string, description: string)

  const Slides: seq<Slide> := [
    Slide("Set & Crush Your Goals",
          "Define your personal and professional goals, and track your progress with intuitive tools."),
    Slide("Visualize Your Growth",
          "See your skills evolve over time with beautiful, insightful graphs and charts."),
    Slide("Get AI-Powered Insights",
          "Receive personalized guidance and resources from your AI assistant to accelerate your growth.")]

  /** The index `handleNext` moves to and the route it navigates to, for a
      carousel of `count` slides. */
  function NextSpec(current: nat, count: nat): (r: (nat, Option<string>))
    ensures current + 1 < count ==> r == (current + 1, None)
    ensures current + 1 >= count ==> r == (current, Some("/signup"))
  {
    if current < count - 1 then (current + 1, None) else (current, Some("/signup"))
  }

  /** The button reads "Next" before the last slide and "Get Started" on it. */
  function ButtonLabel(current: nat, count: nat): (text: string)
    ensures text == "Get Started" <==> current + 1 >= count
    ensures current + 1 < count ==> text == "Next"
  {
    if current < count - 1 then "Next" else "Get Started"
  }

  /** From the first slide, pressing the button `k` times, for `k` below the
      number of slides, shows slide `k` and navigates nowhere; one press more
      on the last slide navigates to sign-up and stays there. */
  lemma {:induction false} PressesWalkTheSlides(k: nat, count: nat)
    requires 0 < count && k < count
    ensures Presses(k, count) == k
    ensures NextSpec(Presses(k, count), count).1.Some? <==> k == count - 1
  {
    if k > 0 {
      PressesWalkTheSlides(k - 1, count);
    }
  }

  /** The slide shown after `k` presses starting from the first slide. */
  function Presses(k: nat, count: nat): (index: nat)
    requires count > 0
    ensures index < count
  {
    if k == 0 then 0 else NextSpec(Presses(k - 1, count), count).0
  }

  class Carousel {
    var currentSlide: nat

    constructor ()
      ensures currentSlide == 0 && Valid()
    {
      currentSlide := 0;
    }

    /** The index stays within the slides. */
    predicate Valid()
      reads this
    {
      currentSlide < |Slides|
    }

    method HandleNext() returns (route: Option<string>)
      requires Valid()
      modifies this
      ensures Valid()
      ensures (currentSlide, route) == NextSpec(old(currentSlide), |Slides|)
    {
      if currentSlide < |Slides| - 1 {
        currentSlide := currentSlide + 1;
        route := None;
      } else {
        route := Some("/signup");
      }
    }
  }
}

=== FILE: planner_context.dfy ===
/** The planner store (context/PlannerContext.tsx). It lives only in memory:
    it starts with three events on the current day, and every added event is
    appended and the whole list re-sorted by date, then by the time text. */
module PlannerContext {
  import opened SeqUtil
  import opened Text
  import opened Sorting

  /** `category` is meant to be "work", "skill" or "personal"; nothing checks it. */
  datatype PlannerEvent = PlannerEvent(id: string, date: string, time: string, title: string, category: string)

  /** An event as the assistant hands it over, without an id. */
  datatype EventDraft = EventDraft(date: string, time: string, title: string, category: string)

  /** The three events the planner starts with; `today` is the current date
      as `YYYY-MM-DD`. */
  function InitialEvents(today: string): seq<PlannerEvent>
  {
    [ PlannerEvent("1", today, "09:00 AM", "Team Standup", "work"),
      PlannerEvent("2", today, "10:00 AM", "Learn React Hooks", "skill"),
      PlannerEvent("3", today, "02:00 PM", "Project Meeting", "work") ]
  }

  /** The comparator of `addEvent`, as "not after": earlier date first, then
      the time text in string order. For `YYYY-MM-DD` dates the order of the
      timestamps is the order of the strings. */
  predicate EventLeq(a: PlannerEvent, b: PlannerEvent)
  {
    StrLt(a.date, b.date) || (a.date == b.date && StrLeq(a.time, b.time))
  }

  /** The default order of `sort()` on strings is a total preorder. */
  lemma StrLeqIsTotalPreorder()
    ensures TotalPreorder(StrLeq)
  {
    forall a: string, b: string
      ensures StrLeq(a, b) || StrLeq(b, a)
    {
      StrLeqTotal(a, b);
    }
    forall a: string, b: string, c: string | StrLeq(a, b) && StrLeq(b, c)
      ensures StrLeq(a, c)
    {
      StrLeqTransitive(a, b, c);
    }
  }

  /** The comparator orders events totally (ties are events at the same date and time). */
  lemma EventLeqIsTotalPreorder()
    ensures TotalPreorder(EventLeq)
  {
    forall a: PlannerEvent, b: PlannerEvent
      ensures EventLeq(a, b) || EventLeq(b, a)
    {
      StrLeqTotal(a.date, b.date);
      StrLeqTotal(a.time, b.time);
    }
    forall a: PlannerEvent, b: PlannerEvent, c: PlannerEvent | EventLeq(a, b) && EventLeq(b, c)
      ensures EventLeq(a, c)
    {
      EventLeqTransitive(a, b, c);
    }
  }

  lemma EventLeqTransitive(a: PlannerEvent, b: PlannerEvent, c: PlannerEvent)
    requires EventLeq(a, b) && EventLeq(b, c)
    ensures EventLeq(a, c)
  {
    if a.date == b.date {
      if b.date == c.date {
        StrLeqTransitive(a.time, b.time, c.time);
      }
    } else if b.date == c.date {
    } else {
      StrLeqTransitive(a.date, b.date, c.date);
      if a.date == c.date {
        StrLeqAntisymmetric(a.date, b.date);
      }
    }
  }

  /** The event `addEvent` creates: the draft's fields and `Date.now().toString()` as id. */
  function NewEvent(draft: EventDraft, now: nat): PlannerEvent
  {
    PlannerEvent(NatToString(now), draft.date, draft.time, draft.title, draft.category)
  }

  /** The list after `addEvent`. */
  function AddSpec(events: seq<PlannerEvent>, draft: EventDraft, now: nat): seq<PlannerEvent>
  {
    SortSpec(events + [NewEvent(draft, now)], EventLeq)
  }

  /** After adding, the list is ordered by date and time and holds exactly
      the previous events and the new one. */
  lemma AddSortedPermutation(events: seq<PlannerEvent>, draft: EventDraft, now: nat)
    ensures Sorted(AddSpec(events, draft, now), EventLeq)
    ensures multiset(AddSpec(events, draft, now)) == multiset(events) + multiset{NewEvent(draft, now)}
    ensures |AddSpec(events, draft, now)| == |events| + 1
  {
    EventLeqIsTotalPreorder();
    SortSpecSorted(events + [NewEvent(draft, now)], EventLeq);
  }

  /** The sort is stable: among events at the same date and time the previous
      order is kept and the new event comes last. */
  lemma AddStable(events: seq<PlannerEvent>, draft: EventDraft, now: nat, k: PlannerEvent)
    ensures Filter(AddSpec(events, draft, now), TiedWith(k, EventLeq))
         == Filter(events, TiedWith(k, EventLeq)) + Filter([NewEvent(draft, now)], TiedWith(k, EventLeq))
  {
    EventLeqIsTotalPreorder();
    SortSpecStable(events + [NewEvent(draft, now)], EventLeq, k);
    FilterConcat(events, [NewEvent(draft, now)], TiedWith(k, EventLeq));
  }

  /** Times are compared as text: "02:00 PM" sorts before "09:00 AM", so the
      starting events are not in time order, and once an event is added the
      afternoon meeting is listed before the morning standup. */
  lemma AfternoonBeforeMorning(today: string, draft: EventDraft, now: nat)
    ensures !Sorted(InitialEvents(today), EventLeq)
    ensures var r := AddSpec(InitialEvents(today), draft, now);
      forall i, j ::
        (0 <= i < |r| && 0 <= j < |r| && r[i] == InitialEvents(today)[2] && r[j] == InitialEvents(today)[0])
        ==> i < j
  {
    var init := InitialEvents(today);
    assert !StrLeq(init[0].time, init[2].time);
    assert !EventLeq(init[0], init[2]);
    AddSortedPermutation(init, draft, now);
  }

  class Planner {
    var events: seq<PlannerEvent>

    constructor (today: string)
      ensures events == InitialEvents(today)
    {
      events := InitialEvents(today);
    }

    /** `now` stands for `Date.now()`. */
    method AddEvent(draft: EventDraft, now: nat)
      modifies this
      ensures events == AddSpec(old(events), draft, now)
    {
      var newEvent := PlannerEvent(NatToString(now), draft.date, draft.time, draft.title, draft.category);
      events := InsertionSort(events + [newEvent], EventLeq);
    }
  }
}

=== FILE: planner_screen.dfy ===
/** The planner screen (pages/PlannerScreen.tsx): the events are grouped by
    their date into a dictionary, and the dictionary's keys are sorted so that
    the days are listed in ascending order, each with its events. */
module PlannerScreen {
  import opened SeqUtil
  import opened Text
  import opened Sorting
  import opened PlannerContext

  /** The card colours per category. */
  const CategoryColors: map<string, string> := map[
    "work" := "bg-red-100 dark:bg-red-900/50 border-red-500",
    "skill" := "bg-blue-100 dark:bg-blue-900/50 border-blue-500",
    "personal" := "bg-green-100 dark:bg-green-900/50 border-green-500"]

  /** A colour is defined for exactly the three categories. */
  lemma CategoryColorsDefined(c: string)
    ensures c in CategoryColors <==> c == "work" || c == "skill" || c == "personal"
  {
  }

  function OnDate(d: string): PlannerEvent -> bool
  {
    (e: PlannerEvent) => e.date == d
  }

  predicate HasDate(events: seq<PlannerEvent>, d: string)
  {
    exists i :: 0 <= i < |events| && events[i].date == d
  }

  /** The dates in the order they first occur: the key order of the dictionary
      the `reduce` builds. */
  function DistinctDates(events: seq<PlannerEvent>): (r: seq<string>)
    ensures NoDup(r)
    ensures forall d :: d in r <==> HasDate(events, d)
    decreases |events|
  {
    if events == [] then []
    else
      var init, last := events[..|events| - 1], events[|events| - 1];
      var r := DistinctDates(init);
      assert forall d :: HasDate(events, d) <==> HasDate(init, d) || d == last.date by {
        forall d | HasDate(events, d)
          ensures HasDate(init, d) || d == last.date
        {
          var i :| 0 <= i < |events| && events[i].date == d;
          if i < |init| {
            assert init[i] == events[i];
          }
        }
        forall d | HasDate(init, d)
          ensures HasDate(events, d)
        {
          var i :| 0 <= i < |init| && init[i].date == d;
          assert events[i] == init[i];
        }
      }
      if last.date in r then r else r + [last.date]
  }

  lemma DistinctDatesSnoc(s: seq<PlannerEvent>, e: PlannerEvent)
    ensures DistinctDates(s + [e])
         == if e.date in DistinctDates(s) then DistinctDates(s) else DistinctDates(s) + [e.date]
  {
    assert (s + [e])[..|s|] == s;
  }

  /** `groups` holds, under each date of `s` and no other key, the events of
      `s` on that date in list order. */
  ghost predicate GroupsOf(groups: map<string, seq<PlannerEvent>>, s: seq<PlannerEvent>)
  {
    && (forall d :: d in groups <==> HasDate(s, d))
    && (forall d :: d in groups ==> groups[d] == Filter(s, OnDate(d)))
  }

  lemma HasDateSnoc(s: seq<PlannerEvent>, e: PlannerEvent, d: string)
    ensures HasDate(s + [e], d) <==> HasDate(s, d) || d == e.date
  {
    if HasDate(s + [e], d) && d != e.date {
      var i :| 0 <= i < |s + [e]| && (s + [e])[i].date == d;
      assert s[i].date == d;
    }
    if HasDate(s, d) {
      var i :| 0 <= i < |s| && s[i].date == d;
      assert (s + [e])[i].date == d;
    }
    assert (s + [e])[|s|] == e;
  }

  lemma FilterOnDateSnoc(s: seq<PlannerEvent>, e: PlannerEvent, d: string)
    ensures Filter(s + [e], OnDate(d)) == Filter(s, OnDate(d)) + (if e.date == d then [e] else [])
  {
    FilterConcat(s, [e], OnDate(d));
    FilterSingle(e, OnDate(d));
  }

  /** One step of the `reduce`: push `e` onto its date's list, creating it if needed. */
  lemma GroupsStep(groups: map<string, seq<PlannerEvent>>, s: seq<PlannerEvent>, e: PlannerEvent)
    requires GroupsOf(groups, s)
    ensures e.date in groups ==> GroupsOf(groups[e.date := groups[e.date] + [e]], s + [e])
    ensures e.date !in groups ==> GroupsOf(groups[e.date := [e]], s + [e])
  {
    forall d
      ensures Filter(s + [e], OnDate(d)) == Filter(s, OnDate(d)) + (if e.date == d then [e] else [])
      ensures HasDate(s + [e], d) <==> HasDate(s, d) || d == e.date
    {
      FilterOnDateSnoc(s, e, d);
      HasDateSnoc(s, e, d);
    }
    if e.date !in groups {
      assert forall j :: 0 <= j < |s| ==> !OnDate(e.date)(s[j]);
      FilterDropsAll(s, OnDate(e.date));
    }
  }

  lemma PrefixSnoc(s: seq<PlannerEvent>, i: nat)
    requires i < |s|
    ensures s[..i + 1] == s[..i] + [s[i]]
  {
  }

  /** The loop body of `GroupEvents` keeps both of its invariants. */
  lemma GroupsLoopStep(groups: map<string, seq<PlannerEvent>>, keys: seq<string>, s: seq<PlannerEvent>, e: PlannerEvent)
    requires keys == DistinctDates(s) && GroupsOf(groups, s)
    ensures e.date in groups <==> e.date in keys
    ensures e.date in groups ==>
      keys == DistinctDates(s + [e]) && GroupsOf(groups[e.date := groups[e.date] + [e]], s + [e])
    ensures e.date !in groups ==>
      keys + [e.date] == DistinctDates(s + [e]) && GroupsOf(groups[e.date := [e]], s + [e])
  {
    DistinctDatesSnoc(s, e);
    GroupsStep(groups, s, e);
  }

  /** `groupedEvents` and the order of its keys: a loop over the events that
      appends each one to the list under its date, creating the list on first use. */
  method GroupEvents(events: seq<PlannerEvent>) returns (groups: map<string, seq<PlannerEvent>>, keys: seq<string>)
    ensures keys == DistinctDates(events)
    ensures GroupsOf(groups, events)
  {
    groups := map[];
    keys := [];
    for i := 0 to |events|
      invariant keys == DistinctDates(events[..i])
      invariant GroupsOf(groups, events[..i])
    {
      var e := events[i];
      PrefixSnoc(events, i);
      GroupsLoopStep(groups, keys, events[..i], e);
      if e.date in groups {
        groups := groups[e.date := groups[e.date] + [e]];
      } else {
        groups := groups[e.date := [e]];
        keys := keys + [e.date];
      }
    }
    assert events[..|events|] == events;
  }

  /** `Object.keys(groupedEvents).sort()`. */
  method SortedDates(events: seq<PlannerEvent>) returns (dates: seq<string>)
    ensures dates == SortSpec(DistinctDates(events), StrLeq)
  {
    var groups, keys := GroupEvents(events);
    dates := InsertionSort(keys, StrLeq);
  }

  /** Each date of an event is listed exactly once, in strictly ascending order. */
  lemma SortedDatesProperties(events: seq<PlannerEvent>)
    ensures var dates := SortSpec(DistinctDates(events), StrLeq);
      && NoDup(dates)
      && (forall d :: d in dates <==> HasDate(events, d))
      && (forall i, j :: 0 <= i < j < |dates| ==> StrLt(dates[i], dates[j]))
  {
    var keys := DistinctDates(events);
    var dates := SortSpec(keys, StrLeq);
    StrLeqIsTotalPreorder();
    SortSpecSorted(keys, StrLeq);
    NoDupPermutation(keys, dates);
    assert forall d :: d in dates <==> d in multiset(keys);
  }

  /** What the screen renders, in order: each listed date's events. */
  function ConcatGroups(events: seq<PlannerEvent>, dates: seq<string>): seq<PlannerEvent>
    decreases |dates|
  {
    if dates == [] then [] else Filter(events, OnDate(dates[0])) + ConcatGroups(events, dates[1..])
  }

  lemma {:induction false} ConcatGroupsOfNone(dates: seq<string>)
    ensures ConcatGroups([], dates) == []
    decreases |dates|
  {
    if dates != [] {
      ConcatGroupsOfNone(dates[1..]);
    }
  }

  lemma {:induction false} ConcatGroupsSnoc(s: seq<PlannerEvent>, e: PlannerEvent, dates: seq<string>)
    requires NoDup(dates)
    ensures multiset(ConcatGroups(s + [e], dates))
         == multiset(ConcatGroups(s, dates)) + (if e.date in dates then multiset{e} else multiset{})
    decreases |dates|
  {
    if dates != [] {
      var d := dates[0];
      assert NoDup(dates[1..]);
      ConcatGroupsSnoc(s, e, dates[1..]);
      FilterConcat(s, [e], OnDate(d));
      FilterSingle(e, OnDate(d));
      if e.date == d {
        assert e.date !in dates[1..];
      }
      assert e.date in dates <==> e.date == d || e.date in dates[1..];
    }
  }

  /** Listing the groups of distinct dates that cover every event shows every
      event exactly once. */
  lemma {:induction false} ConcatGroupsPermutation(s: seq<PlannerEvent>, dates: seq<string>)
    requires NoDup(dates)
    requires forall i :: 0 <= i < |s| ==> s[i].date in dates
    ensures multiset(ConcatGroups(s, dates)) == multiset(s)
    decreases |s|
  {
    if s == [] {
      ConcatGroupsOfNone(dates);
    } else {
      var init, last := s[..|s| - 1], s[|s| - 1];
      assert s == init + [last];
      ConcatGroupsPermutation(init, dates);
      ConcatGroupsSnoc(init, last, dates);
    }
  }

  /** The screen shows each event exactly once, under its own date, days in
      ascending order and, within a day, the events in list order. */
  lemma ScreenShowsEveryEventOnce(events: seq<PlannerEvent>)
    ensures multiset(ConcatGroups(events, SortSpec(DistinctDates(events), StrLeq))) == multiset(events)
  {
    var dates := SortSpec(DistinctDates(events), StrLeq);
    SortedDatesProperties(events);
    forall i | 0 <= i < |events|
      ensures events[i].date in dates
    {
      assert HasDate(events, events[i].date);
    }
    ConcatGroupsPermutation(events, dates);
  }
}

=== FILE: remote.dfy ===
/** The backend is not modelled: every awaited query, insert, update, delete or
    remote procedure call becomes an outcome value handed to the operation that
    awaited it. The sources recognise failures only by the text of the error
    message, which this datatype turns into cases. */
module Remote {

  /** A value the backend may leave null (`data` of a successful call). */
  datatype Option<T> = None | Some(value: T)

  /** `data || []`: a null result reads as the empty list. */
  function OrEmpty<T>(data: Option<seq<T>>): (r: seq<T>)
    ensures data.None? ==> r == []
    ensures data.Some? ==> r == data.value
  {
    if data.Some? then data.value else []
  }

  datatype RemoteOutcome<T> =
    | Ok(rows: T)      // no error; `rows` is the `data` the call returned
    | TableMissing     // the message includes 'Could not find the table'
    | FunctionMissing  // the message includes 'Could not find the function'
    | OtherError       // any other error
  {
    /** The catch blocks that test only for a missing table treat every other
        error alike: they restore the snapshot or drop the provisional record. */
    predicate RollsBack()
    {
      FunctionMissing? || OtherError?
    }
  }
}

=== FILE: roadmaps.dfy ===
/** The saved learning roadmaps (pages/RoadmapsScreen.tsx): the list is
    fetched once per user, falls back to one sample roadmap when the table is
    missing, and a deletion is applied at once and undone when the backend
    fails for any other reason. A roadmap's text is shown with every second
    `**`-delimited piece in bold. */
module Roadmaps {
  import opened SeqUtil
  import opened Text
  import opened Remote

  /** `created_at` is kept as the text the backend (or the clock) gave. */
  datatype Roadmap = Roadmap(id: string, skillTitle: string, content: string, createdAt: string)

  /** The sample shown when the `roadmaps` table is missing; `createdAt` is
      the moment the screen's code was loaded. */
  function MockRoadmaps(createdAt: string): seq<Roadmap>
  {
    [Roadmap("mock-roadmap-1", "Public Speaking", MockContent, createdAt)]
  }

  const MockContent: string :=
    "**Initial Assessment:** You're starting fresh, which is great! It's a blank canvas.\n"
    + "**Learning Roadmap:**\n**Phase 1: Foundations**\n"
    + "- Watch 3 TED talks and analyze their structure.\n"
    + "- Practice speaking in front of a mirror for 5 minutes daily."

  predicate UniqueIds(roadmaps: seq<Roadmap>)
  {
    forall i, j :: 0 <= i < j < |roadmaps| ==> roadmaps[i].id != roadmaps[j].id
  }

  predicate HasId(roadmaps: seq<Roadmap>, id: string)
  {
    exists i :: 0 <= i < |roadmaps| && roadmaps[i].id == id
  }

  /** The list after `fetchRoadmaps`: `data || []` on success, the sample on a
      missing table, unchanged signed out or on any other error. */
  function FetchSpec(roadmaps: seq<Roadmap>, signedIn: bool, outcome: RemoteOutcome<Option<seq<Roadmap>>>,
                     createdAt: string): (r: seq<Roadmap>)
    ensures !signedIn || outcome.RollsBack() ==> r == roadmaps
    ensures signedIn && outcome.Ok? ==> r == OrEmpty(outcome.rows)
    ensures signedIn && outcome.TableMissing? ==> r == MockRoadmaps(createdAt)
  {
    if !signedIn then roadmaps
    else match outcome
      case Ok(data) => OrEmpty(data)
      case TableMissing => MockRoadmaps(createdAt)
      case _ => roadmaps
  }

  function WithoutId(id: string): Roadmap -> bool
  {
    (r: Roadmap) => r.id != id
  }

  /** The list after `handleDeleteRoadmap`. */
  function DeleteSpec(roadmaps: seq<Roadmap>, id: string, outcome: RemoteOutcome<()>): seq<Roadmap>
  {
    if outcome.RollsBack() then roadmaps else Filter(roadmaps, WithoutId(id))
  }

  /** A kept deletion removes the roadmap at `k` and keeps the others in order. */
  lemma DeleteRemovesOne(roadmaps: seq<Roadmap>, k: nat, outcome: RemoteOutcome<()>)
    requires UniqueIds(roadmaps) && k < |roadmaps|
    requires !outcome.RollsBack()
    ensures DeleteSpec(roadmaps, roadmaps[k].id, outcome) == roadmaps[..k] + roadmaps[k + 1..]
  {
    FilterDropsOne(roadmaps, k, WithoutId(roadmaps[k].id));
  }

  /** A failed deletion restores the list; a kept one leaves no roadmap with
      that id and every other roadmap in place. */
  lemma DeleteOutcomes(roadmaps: seq<Roadmap>, id: string, outcome: RemoteOutcome<()>, x: Roadmap)
    ensures outcome.RollsBack() ==> DeleteSpec(roadmaps, id, outcome) == roadmaps
    ensures !outcome.RollsBack() ==> !HasId(DeleteSpec(roadmaps, id, outcome), id)
    ensures !outcome.RollsBack() ==> (x in DeleteSpec(roadmaps, id, outcome) <==> x in roadmaps && x.id != id)
  {
    FilterMembership(roadmaps, WithoutId(id), x);
  }

  /** One piece of a roadmap's text as rendered. */
  datatype Piece = Piece(text: string, bold: bool)

  /** `content.split('**').map((part, index) => index % 2 === 1 ? <strong> : part)`. */
  function Render(content: string): seq<Piece>
  {
    var parts := Split(content, "**");
    seq(|parts|, i requires 0 <= i < |parts| => Piece(parts[i], i % 2 == 1))
  }

  function Texts(pieces: seq<Piece>): seq<string>
  {
    seq(|pieces|, i requires 0 <= i < |pieces| => pieces[i].text)
  }

  /** The pieces alternate plain and bold starting with plain, none contains
      the marker, and putting the markers back between them gives the text
      back: every character is shown, and exactly the text between the first
      and second marker, the third and fourth, ... is bold. */
  lemma RenderProperties(content: string)
    ensures var r := Render(content);
      && |r| > 0
      && (forall i :: 0 <= i < |r| ==> (r[i].bold <==> i % 2 == 1))
      && (forall i :: 0 <= i < |r| ==> !Contains(r[i].text, "**"))
      && Join(Texts(r), "**") == content
  {
    var r := Render(content);
    forall i | 0 <= i < |r|
      ensures !Contains(r[i].text, "**")
    {
      SplitPartsFree(content, "**", i);
    }
    assert Texts(r) == Split(content, "**");
    JoinSplit(content, "**");
  }

  /** A text without markers is shown as one plain piece. */
  lemma RenderPlain(content: string)
    requires !Contains(content, "**")
    ensures Render(content) == [Piece(content, false)]
  {
    ContainsIffOccurs(content, "**");
    var i := IndexOf(content, "**");
    assert i >= 0 ==> OccursAt(content, "**", i);
  }

  class RoadmapList {
    var roadmaps: seq<Roadmap>
    var isLoading: bool

    constructor ()
      ensures roadmaps == [] && isLoading
    {
      roadmaps := [];
      isLoading := true;
    }

    /** `fetchRoadmaps`; `createdAt` stands for the sample's timestamp. */
    method FetchRoadmaps(signedIn: bool, outcome: RemoteOutcome<Option<seq<Roadmap>>>, createdAt: string)
      modifies this
      ensures roadmaps == FetchSpec(old(roadmaps), signedIn, outcome, createdAt)
      ensures !isLoading
    {
      if !signedIn {
        isLoading := false;
        return;
      }
      isLoading := true;
      match outcome {
        case Ok(data) => roadmaps := OrEmpty(data);
        case TableMissing => roadmaps := MockRoadmaps(createdAt);
        case _ =>
      }
      isLoading := false;
    }

    method DeleteRoadmap(id: string, outcome: RemoteOutcome<()>)
      modifies this
      ensures roadmaps == DeleteSpec(old(roadmaps), id, outcome)
      ensures isLoading == old(isLoading)
    {
      var oldRoadmaps := roadmaps;
      roadmaps := Filter(roadmaps, WithoutId(id));
      if outcome.RollsBack() {
        roadmaps := oldRoadmaps;
      }
    }
  }
}

=== FILE: routine_context.dfy ===
/** The daily routines store (context/RoutineContext.tsx). Picked routines are
    appended under provisional ids `mock-r-<now + i>` and replaced by the stored
    rows when the insert answers; a routine is checked off by flipping its
    `completed` flag, undone when the backend fails for any reason other than
    a missing table. */
module RoutineContext {
  import opened SeqUtil
  import opened Remote
  import opened Text

  datatype Routine = Routine(id: string, title: string, category: string, completed: bool)

  /** A routine as the selection screen hands it over: no id, no flag. */
  datatype RoutineDraft = RoutineDraft(title: string, category: string)

  /** The routines shown when the table or the reset function is missing. */
  function MockRoutines(): seq<Routine>
  {
    [ Routine("mock-r-1", "Morning Meditation", "Mindfulness", false),
      Routine("mock-r-2", "Read for 20 Minutes", "Learning & Growth", true),
      Routine("mock-r-3", "Plan Your Day", "Productivity", false) ]
  }

  const MockPrefix: string := "mock-r-"

  predicate IsProvisional(r: Routine)
  {
    StartsWith(r.id, MockPrefix)
  }

  predicate UniqueIds(routines: seq<Routine>)
  {
    forall i, j :: 0 <= i < j < |routines| ==> routines[i].id != routines[j].id
  }

  function Titles(routines: seq<Routine>): set<string>
  {
    set i | 0 <= i < |routines| :: routines[i].title
  }

  function Ids(routines: seq<Routine>): set<string>
  {
    set i | 0 <= i < |routines| :: routines[i].id
  }

  /** `mock-r-${Date.now() + i}`. */
  function TempRoutineId(now: nat, i: nat): string
  {
    MockPrefix + NatToString(now + i)
  }

  /** The drafts whose title no stored routine has yet. */
  function FreshDrafts(routines: seq<Routine>, drafts: seq<RoutineDraft>): seq<RoutineDraft>
  {
    var existing := Titles(routines);
    Filter(drafts, (d: RoutineDraft) => d.title !in existing)
  }

  /** The provisional rows for `drafts`, the first one numbered `now + from`. */
  function ProvisionalRows(drafts: seq<RoutineDraft>, now: nat, from: nat): (r: seq<Routine>)
    ensures |r| == |drafts|
    ensures forall i :: 0 <= i < |r| ==>
      r[i] == Routine(TempRoutineId(now, from + i), drafts[i].title, drafts[i].category, false)
    decreases |drafts|
  {
    if drafts == [] then []
    else [Routine(TempRoutineId(now, from), drafts[0].title, drafts[0].category, false)]
         + ProvisionalRows(drafts[1..], now, from + 1)
  }

  /** The provisional ids of one batch are pairwise distinct. */
  lemma ProvisionalIdsDistinct(drafts: seq<RoutineDraft>, now: nat)
    ensures UniqueIds(ProvisionalRows(drafts, now, 0))
  {
    var rows := ProvisionalRows(drafts, now, 0);
    forall i, j | 0 <= i < j < |rows|
      ensures rows[i].id != rows[j].id
    {
      TempRoutineIdInjective(now, i, j);
    }
  }

  lemma TempRoutineIdInjective(now: nat, i: nat, j: nat)
    requires i != j
    ensures TempRoutineId(now, i) != TempRoutineId(now, j)
  {
    var a, b := TempRoutineId(now, i), TempRoutineId(now, j);
    if a == b {
      assert NatToString(now + i) == a[|MockPrefix|..];
      assert NatToString(now + j) == b[|MockPrefix|..];
      NatToStringInjective(now + i, now + j);
    }
  }

  /** Every provisional id carries the prefix. */
  lemma ProvisionalRowsAreProvisional(drafts: seq<RoutineDraft>, now: nat)
    ensures forall i :: 0 <= i < |drafts| ==> IsProvisional(ProvisionalRows(drafts, now, 0)[i])
  {
    var rows := ProvisionalRows(drafts, now, 0);
    forall i | 0 <= i < |drafts|
      ensures IsProvisional(rows[i])
    {
      assert rows[i].id[..|MockPrefix|] == MockPrefix;
    }
  }

  /** The list after the fetch; the outcome of the reset call is not consulted. */
  function FetchSpec(routines: seq<Routine>, signedIn: bool, outcome: RemoteOutcome<Option<seq<Routine>>>): (r: seq<Routine>)
    ensures !signedIn ==> r == []
    ensures signedIn && outcome.Ok? ==> r == OrEmpty(outcome.rows)
    ensures signedIn && (outcome.TableMissing? || outcome.FunctionMissing?) ==> r == MockRoutines()
    ensures signedIn && outcome.OtherError? ==> r == routines
  {
    if !signedIn then []
    else match outcome
      case Ok(data) => OrEmpty(data)
      case TableMissing => MockRoutines()
      case FunctionMissing => MockRoutines()
      case OtherError => routines
  }

  /** The list after `initializeRoutines`. */
  function InitializeSpec(routines: seq<Routine>, signedIn: bool, drafts: seq<RoutineDraft>, now: nat,
                          outcome: RemoteOutcome<seq<Routine>>): seq<Routine>
  {
    var newDrafts := FreshDrafts(routines, drafts);
    if !signedIn || newDrafts == [] then routines
    else
      var batch := ProvisionalRows(newDrafts, now, 0);
      var shown := routines + batch;
      var batchIds := Ids(batch);
      match outcome
        case Ok(stored) => Filter(shown, (r: Routine) => !IsProvisional(r)) + stored
        case TableMissing => shown
        case _ => Filter(shown, (r: Routine) => r.id !in batchIds)
  }

  /** The batch shown while the insert is pending: the stored list unchanged,
      then one unchecked row per draft whose title was not stored yet, in the
      drafts' order. */
  lemma InitializeShowsFreshDrafts(routines: seq<Routine>, drafts: seq<RoutineDraft>, now: nat)
    requires FreshDrafts(routines, drafts) != []
    ensures var newDrafts := FreshDrafts(routines, drafts);
      var shown := InitializeSpec(routines, true, drafts, now, TableMissing);
      && shown[..|routines|] == routines
      && |shown| == |routines| + |newDrafts|
      && (forall i :: |routines| <= i < |shown| ==>
            && shown[i].title !in Titles(routines)
            && !shown[i].completed
            && shown[i].title == newDrafts[i - |routines|].title)
  {
    var newDrafts := FreshDrafts(routines, drafts);
    var existing := Titles(routines);
    assert forall i :: 0 <= i < |newDrafts| ==> newDrafts[i].title !in existing;
  }

  /** A kept insert drops every row with a provisional id, the three fallback
      rows included, keeps the other rows in order and appends the stored ones. */
  lemma InitializeConfirmed(routines: seq<Routine>, drafts: seq<RoutineDraft>, now: nat, stored: seq<Routine>)
    requires FreshDrafts(routines, drafts) != []
    ensures InitializeSpec(routines, true, drafts, now, Ok(stored))
         == Filter(routines, (r: Routine) => !IsProvisional(r)) + stored
  {
    var newDrafts := FreshDrafts(routines, drafts);
    var batch := ProvisionalRows(newDrafts, now, 0);
    var p := (r: Routine) => !IsProvisional(r);
    assert InitializeSpec(routines, true, drafts, now, Ok(stored)) == Filter(routines + batch, p) + stored;
    FilterConcat(routines, batch, p);
    ProvisionalRowsAreProvisional(newDrafts, now);
    FilterDropsAll(batch, p);
  }

  /** The fallback rows all carry provisional ids. */
  lemma MockRoutinesAreProvisional()
    ensures forall i :: 0 <= i < |MockRoutines()| ==> IsProvisional(MockRoutines()[i])
  {
    var m := MockRoutines();
    assert m[0].id[..|MockPrefix|] == MockPrefix;
    assert m[1].id[..|MockPrefix|] == MockPrefix;
    assert m[2].id[..|MockPrefix|] == MockPrefix;
  }

  /** A failed insert removes exactly the batch: when no stored row shares an
      id with it, the list is back to what it was. */
  lemma InitializeFailedRestores(routines: seq<Routine>, drafts: seq<RoutineDraft>, now: nat)
    requires FreshDrafts(routines, drafts) != []
    requires Ids(routines) !! Ids(ProvisionalRows(FreshDrafts(routines, drafts), now, 0))
    ensures InitializeSpec(routines, true, drafts, now, OtherError) == routines
  {
    var newDrafts := FreshDrafts(routines, drafts);
    var batch := ProvisionalRows(newDrafts, now, 0);
    var batchIds := Ids(batch);
    var p := (r: Routine) => r.id !in batchIds;
    FilterConcat(routines, batch, p);
    assert forall i :: 0 <= i < |routines| ==> routines[i].id in Ids(routines);
    FilterKeepsAll(routines, p);
    assert forall i :: 0 <= i < |batch| ==> batch[i].id in batchIds;
    FilterDropsAll(batch, p);
  }

  /** Nothing new to add, or no user: the list stays as it was. */
  lemma InitializeNothingNew(routines: seq<Routine>, signedIn: bool, drafts: seq<RoutineDraft>, now: nat,
                             outcome: RemoteOutcome<seq<Routine>>)
    requires !signedIn || forall i :: 0 <= i < |drafts| ==> drafts[i].title in Titles(routines)
    ensures InitializeSpec(routines, signedIn, drafts, now, outcome) == routines
  {
    if signedIn && FreshDrafts(routines, drafts) != [] {
      var x := FreshDrafts(routines, drafts)[0];
      FilterMembership(drafts, (d: RoutineDraft) => d.title !in Titles(routines), x);
      assert false;
    }
  }

  /** `routines.find(r => r.id === id)`, as an index. */
  function FindIndex(routines: seq<Routine>, id: string): (k: int)
    ensures -1 <= k < |routines|
    ensures k == -1 <==> forall i :: 0 <= i < |routines| ==> routines[i].id != id
    ensures k >= 0 ==> routines[k].id == id && forall i :: 0 <= i < k ==> routines[i].id != id
    decreases |routines|
  {
    if routines == [] then -1
    else if routines[0].id == id then 0
    else
      var k := FindIndex(routines[1..], id);
      if k < 0 then -1 else k + 1
  }

  /** The list after `toggleRoutine`: the first routine with that id decides the new flag. */
  function ToggleSpec(routines: seq<Routine>, signedIn: bool, id: string, outcome: RemoteOutcome<()>): seq<Routine>
  {
    var k := FindIndex(routines, id);
    if !signedIn || k < 0 || outcome.RollsBack() then routines
    else
      var flipped := !routines[k].completed;
      MapIf(routines, (r: Routine) => r.id == id, (r: Routine) => r.(completed := flipped))
  }

  /** An unknown id changes nothing; otherwise only the routines with that id
      change, only in `completed`, and the first of them flips. */
  lemma ToggleProperties(routines: seq<Routine>, id: string, outcome: RemoteOutcome<()>)
    ensures var r := ToggleSpec(routines, true, id, outcome);
      && |r| == |routines|
      && (forall i :: 0 <= i < |r| && routines[i].id != id ==> r[i] == routines[i])
      && (forall i :: 0 <= i < |r| ==> r[i] == routines[i].(completed := r[i].completed))
      && (FindIndex(routines, id) < 0 || outcome.RollsBack() ==> r == routines)
      && (FindIndex(routines, id) >= 0 && !outcome.RollsBack() ==>
            r[FindIndex(routines, id)].completed == !routines[FindIndex(routines, id)].completed)
  {
  }

  /** `find` looks only at ids. */
  lemma {:induction false} FindIndexSameIds(a: seq<Routine>, b: seq<Routine>, id: string)
    requires |a| == |b| && forall i :: 0 <= i < |a| ==> a[i].id == b[i].id
    ensures FindIndex(a, id) == FindIndex(b, id)
    decreases |a|
  {
    if a != [] {
      FindIndexSameIds(a[1..], b[1..], id);
    }
  }

  /** With unique ids, two kept toggles of the same routine restore the list. */
  lemma ToggleTwiceRestores(routines: seq<Routine>, id: string)
    requires UniqueIds(routines)
    ensures ToggleSpec(ToggleSpec(routines, true, id, Ok(())), true, id, Ok(())) == routines
  {
    var k := FindIndex(routines, id);
    if k >= 0 {
      var once := ToggleSpec(routines, true, id, Ok(()));
      ToggleUniqueFlipsOne(routines, id);
      FindIndexSameIds(once, routines, id);
      assert UniqueIds(once);
      ToggleUniqueFlipsOne(once, id);
    }
  }

  /** With unique ids, a kept toggle of a known id flips that one routine. */
  lemma ToggleUniqueFlipsOne(routines: seq<Routine>, id: string)
    requires UniqueIds(routines) && FindIndex(routines, id) >= 0
    ensures var k := FindIndex(routines, id);
      ToggleSpec(routines, true, id, Ok(())) == routines[k := routines[k].(completed := !routines[k].completed)]
  {
    var k := FindIndex(routines, id);
    assert forall i :: 0 <= i < |routines| && i != k ==> routines[i].id != id;
  }

  class RoutineStore {
    var routines: seq<Routine>
    var isLoading: bool

    constructor ()
      ensures routines == [] && isLoading
    {
      routines := [];
      isLoading := true;
    }

    /** `reset` is the outcome of the daily-reset procedure call, which never
        affects the list. */
    method FetchRoutines(signedIn: bool, reset: RemoteOutcome<()>, outcome: RemoteOutcome<Option<seq<Routine>>>)
      modifies this
      ensures routines == FetchSpec(old(routines), signedIn, outcome)
      ensures !isLoading
    {
      if !signedIn {
        routines := [];
        isLoading := false;
        return;
      }
      isLoading := true;
      match outcome {
        case Ok(data) => routines := OrEmpty(data);
        case TableMissing => routines := MockRoutines();
        case FunctionMissing => routines := MockRoutines();
        case OtherError =>
      }
      isLoading := false;
    }

    /** Returns the drafts sent to the insert (empty when nothing is sent). */
    method InitializeRoutines(signedIn: bool, drafts: seq<RoutineDraft>, now: nat, outcome: RemoteOutcome<seq<Routine>>)
      returns (sent: seq<RoutineDraft>)
      modifies this
      ensures routines == InitializeSpec(old(routines), signedIn, drafts, now, outcome)
      ensures sent == if signedIn then FreshDrafts(old(routines), drafts) else []
      ensures isLoading == old(isLoading)
    {
      if !signedIn {
        return [];
      }
      var existing := Titles(routines);
      sent := Filter(drafts, (d: RoutineDraft) => d.title !in existing);
      if sent == [] {
        return;
      }
      var batch := ProvisionalRows(sent, now, 0);
      routines := routines + batch;
      match outcome {
        case Ok(stored) =>
          routines := Filter(routines, (r: Routine) => !IsProvisional(r)) + stored;
        case TableMissing =>
        case _ =>
          var batchIds := Ids(batch);
          routines := Filter(routines, (r: Routine) => r.id !in batchIds);
      }
    }

    method ToggleRoutine(signedIn: bool, id: string, outcome: RemoteOutcome<()>)
      modifies this
      ensures routines == ToggleSpec(old(routines), signedIn, id, outcome)
      ensures isLoading == old(isLoading)
    {
      if !signedIn {
        return;
      }
      var k := FindIndex(routines, id);
      if k < 0 {
        return;
      }
      var oldRoutines := routines;
      var flipped := !routines[k].completed;
      routines := MapIf(routines, (r: Routine) => r.id == id, (r: Routine) => r.(completed := flipped));
      if outcome.RollsBack() {
        routines := oldRoutines;
      }
    }
  }
}

=== FILE: routine_selection.dfy ===
/** The first-run routine picker (pages/RoutineSelectionScreen.tsx): routines
    are toggled in and out by title, and continuing hands the picked ones, if
    any, to the routine store before going to the home screen. */
module RoutineSelection {
  import opened SeqUtil
  import opened RoutineContext
  import opened Remote

  predicate HasTitle(selected: seq<RoutineDraft>, title: string)
  {
    exists i :: 0 <= i < |selected| && selected[i].title == title
  }

  predicate UniqueTitles(selected: seq<RoutineDraft>)
  {
    forall i, j :: 0 <= i < j < |selected| ==> selected[i].title != selected[j].title
  }

  function OtherTitle(title: string): RoutineDraft -> bool
  {
    (r: RoutineDraft) => r.title != title
  }

  /** `toggleRoutine`: drop every pick with this title, or append the pick. */
  function Toggle(selected: seq<RoutineDraft>, title: string, category: string): seq<RoutineDraft>
  {
    if HasTitle(selected, title) then Filter(selected, OtherTitle(title))
    else selected + [RoutineDraft(title, category)]
  }

  /** Toggling flips whether the title is picked, keeps every other pick as it
      was, and keeps titles unique. A new pick goes at the end; with unique
      titles, a removal takes out just that pick and keeps the others in order. */
  lemma ToggleFlips(selected: seq<RoutineDraft>, title: string, category: string, other: RoutineDraft)
    ensures HasTitle(Toggle(selected, title, category), title) <==> !HasTitle(selected, title)
    ensures other.title != title ==> (other in Toggle(selected, title, category) <==> other in selected)
    ensures !HasTitle(selected, title) ==> RoutineDraft(title, category) in Toggle(selected, title, category)
    ensures UniqueTitles(selected) ==> UniqueTitles(Toggle(selected, title, category))
    ensures !HasTitle(selected, title) ==> Toggle(selected, title, category) == selected + [RoutineDraft(title, category)]
    ensures forall k :: UniqueTitles(selected) && 0 <= k < |selected| && selected[k].title == title ==>
              Toggle(selected, title, category) == selected[..k] + selected[k + 1..]
  {
    var r := Toggle(selected, title, category);
    RemovalKeepsOrder(selected, title, category);
    ToggleKeepsUnique(selected, title, category);
    FilterMembership(selected, OtherTitle(title), other);
    if HasTitle(selected, title) {
      forall i | 0 <= i < |r|
        ensures r[i].title != title
      {
        FilterMembership(selected, OtherTitle(title), r[i]);
      }
    } else {
      assert r[|selected|].title == title;
    }
  }

  /** Toggling keeps the picked titles unique. */
  lemma ToggleKeepsUnique(selected: seq<RoutineDraft>, title: string, category: string)
    ensures UniqueTitles(selected) ==> UniqueTitles(Toggle(selected, title, category))
  {
    if UniqueTitles(selected) {
      if HasTitle(selected, title) {
        var k :| 0 <= k < |selected| && selected[k].title == title;
        RemovalKeepsOrder(selected, title, category);
        DropKeepsUnique(selected, k);
      } else {
        AppendKeepsUnique(selected, RoutineDraft(title, category));
      }
    }
  }

  lemma DropKeepsUnique(selected: seq<RoutineDraft>, k: nat)
    requires UniqueTitles(selected) && k < |selected|
    ensures UniqueTitles(selected[..k] + selected[k + 1..])
  {
    var r := selected[..k] + selected[k + 1..];
    forall i, j | 0 <= i < j < |r|
      ensures r[i].title != r[j].title
    {
      var i' := if i < k then i else i + 1;
      var j' := if j < k then j else j + 1;
      assert r[i] == selected[i'] && r[j] == selected[j'];
    }
  }

  lemma AppendKeepsUnique(selected: seq<RoutineDraft>, d: RoutineDraft)
    requires UniqueTitles(selected) && !HasTitle(selected, d.title)
    ensures UniqueTitles(selected + [d])
  {
    var r := selected + [d];
    forall i, j | 0 <= i < j < |r|
      ensures r[i].title != r[j].title
    {
      if j < |selected| {
        assert r[i] == selected[i] && r[j] == selected[j];
      } else {
        assert r[i] == selected[i];
      }
    }
  }

  /** With unique titles, untoggling a pick takes out just that pick. */
  lemma RemovalKeepsOrder(selected: seq<RoutineDraft>, title: string, category: string)
    ensures forall k :: UniqueTitles(selected) && 0 <= k < |selected| && selected[k].title == title ==>
              Toggle(selected, title, category) == selected[..k] + selected[k + 1..]
  {
    forall k | UniqueTitles(selected) && 0 <= k < |selected| && selected[k].title == title
      ensures Toggle(selected, title, category) == selected[..k] + selected[k + 1..]
    {
      assert HasTitle(selected, title);
      FilterDropsOne(selected, k, OtherTitle(title));
    }
  }

  /** Picking a routine and toggling it again gives the picks back. */
  lemma ToggleTwice(selected: seq<RoutineDraft>, title: string, category: string)
    requires !HasTitle(selected, title)
    ensures Toggle(Toggle(selected, title, category), title, category) == selected
  {
    var once := selected + [RoutineDraft(title, category)];
    assert once[|selected|].title == title;
    FilterConcat(selected, [RoutineDraft(title, category)], OtherTitle(title));
    FilterKeepsAll(selected, OtherTitle(title));
    FilterSingle(RoutineDraft(title, category), OtherTitle(title));
  }

  class RoutinePicker {
    var selected: seq<RoutineDraft>
    var isSubmitting: bool

    constructor ()
      ensures selected == [] && !isSubmitting
    {
      selected := [];
      isSubmitting := false;
    }

    method ToggleRoutine(title: string, category: string)
      modifies this
      ensures selected == Toggle(old(selected), title, category)
      ensures isSubmitting == old(isSubmitting)
    {
      if HasTitle(selected, title) {
        selected := Filter(selected, OtherTitle(title));
      } else {
        selected := selected + [RoutineDraft(title, category)];
      }
    }

    /** `handleContinue`: the store is written only when something was
        picked, and the screen always moves on to the home screen. */
    method HandleContinue(store: RoutineStore, signedIn: bool, now: nat, outcome: RemoteOutcome<seq<Routine>>)
      returns (route: string)
      modifies this, store
      ensures route == "/home"
      ensures |old(selected)| == 0 ==> store.routines == old(store.routines)
      ensures |old(selected)| > 0 ==>
        store.routines == InitializeSpec(old(store.routines), signedIn, old(selected), now, outcome)
      ensures selected == old(selected) && !isSubmitting
    {
      isSubmitting := true;
      if |selected| > 0 {
        var _ := store.InitializeRoutines(signedIn, selected, now, outcome);
      }
      isSubmitting := false;
      route := "/home";
    }
  }
}

=== FILE: seq_util.dfy ===
/** Sequence helpers shared by the stores and the screens: the two array
    transforms every optimistic update is built from (Array.prototype.filter
    and "map the matching entries, copy the rest"), and a duplicate-freedom
    predicate. */
module SeqUtil {

  /** Array.prototype.filter: the entries that satisfy `p`, in their original order. */
  function Filter<T>(s: seq<T>, p: T -> bool): (r: seq<T>)
    ensures |r| <= |s|
    ensures forall i :: 0 <= i < |r| ==> p(r[i])
    decreases |s|
  {
    if s == [] then []
    else
      assert s == [s[0]] + s[1..];
      if p(s[0]) then [s[0]] + Filter(s[1..], p) else Filter(s[1..], p)
  }

  lemma {:induction false} FilterConcat<T>(a: seq<T>, b: seq<T>, p: T -> bool)
    ensures Filter(a + b, p) == Filter(a, p) + Filter(b, p)
    decreases |a|
  {
    if a == [] {
      assert a + b == b;
    } else {
      assert (a + b)[0] == a[0];
      assert (a + b)[1..] == a[1..] + b;
      FilterConcat(a[1..], b, p);
    }
  }

  /** The first entry that survives the filter is the first entry satisfying `p`. */
  lemma {:induction false} FilterHead<T>(s: seq<T>, p: T -> bool, j: nat)
    requires j < |s| && p(s[j])
    requires forall m :: 0 <= m < j ==> !p(s[m])
    ensures |Filter(s, p)| > 0 && Filter(s, p)[0] == s[j]
    decreases j
  {
    if j > 0 {
      assert forall m :: 0 <= m < j - 1 ==> s[1..][m] == s[m + 1];
      FilterHead(s[1..], p, j - 1);
    }
  }

  /** Filtering with a predicate that every entry satisfies gives the input back. */
  lemma {:induction false} FilterKeepsAll<T>(s: seq<T>, p: T -> bool)
    requires forall i :: 0 <= i < |s| ==> p(s[i])
    ensures Filter(s, p) == s
    decreases |s|
  {
    if s != [] {
      assert forall i :: 0 <= i < |s[1..]| ==> s[1..][i] == s[i + 1];
      FilterKeepsAll(s[1..], p);
    }
  }

  /** Filtering with a predicate no entry satisfies gives the empty sequence. */
  lemma {:induction false} FilterDropsAll<T>(s: seq<T>, p: T -> bool)
    requires forall i :: 0 <= i < |s| ==> !p(s[i])
    ensures Filter(s, p) == []
    decreases |s|
  {
    if s != [] {
      assert forall i :: 0 <= i < |s[1..]| ==> s[1..][i] == s[i + 1];
      FilterDropsAll(s[1..], p);
    }
  }

  /** An entry survives the filter exactly when it was there and satisfies `p`. */
  lemma {:induction false} FilterMembership<T>(s: seq<T>, p: T -> bool, x: T)
    ensures x in Filter(s, p) <==> x in s && p(x)
    decreases |s|
  {
    if s != [] {
      assert s == [s[0]] + s[1..];
      FilterMembership(s[1..], p, x);
    }
  }

  lemma FilterSingle<T>(x: T, p: T -> bool)
    ensures Filter([x], p) == if p(x) then [x] else []
  {
    assert [x][1..] == [];
  }

  /** Filtering out the one entry at index `k` keeps every other entry, in order. */
  lemma {:induction false} FilterDropsOne<T>(s: seq<T>, k: nat, p: T -> bool)
    requires k < |s| && !p(s[k])
    requires forall i :: 0 <= i < |s| && i != k ==> p(s[i])
    ensures Filter(s, p) == s[..k] + s[k + 1..]
    decreases k
  {
    var rest := s[1..];
    assert forall i :: 0 <= i < |rest| ==> rest[i] == s[i + 1];
    if k == 0 {
      FilterKeepsAll(rest, p);
    } else {
      FilterDropsOne(rest, k - 1, p);
      assert s[..k] == [s[0]] + rest[..k - 1];
      assert s[k + 1..] == rest[k..];
    }
  }

  /** "Map the matching entries, copy the others": `xs.map(x => p(x) ? f(x) : x)`. */
  function MapIf<T>(s: seq<T>, p: T -> bool, f: T -> T): (r: seq<T>)
    ensures |r| == |s|
    ensures forall i :: 0 <= i < |s| ==> r[i] == if p(s[i]) then f(s[i]) else s[i]
    decreases |s|
  {
    if s == [] then []
    else [if p(s[0]) then f(s[0]) else s[0]] + MapIf(s[1..], p, f)
  }

  /** No value occurs twice. */
  predicate NoDup<T(==)>(s: seq<T>)
  {
    forall i, j :: 0 <= i < j < |s| ==> s[i] != s[j]
  }

  /** Filtering never creates a duplicate. */
  lemma {:induction false} NoDupFilter<T>(s: seq<T>, p: T -> bool)
    requires NoDup(s)
    ensures NoDup(Filter(s, p))
    decreases |s|
  {
    if s != [] {
      var rest := s[1..];
      assert NoDup(rest);
      NoDupFilter(rest, p);
      assert s[0] !in rest;
      FilterMembership(rest, p, s[0]);
    }
  }

  /** In a sequence without duplicates every value occurs at most once. */
  lemma {:induction false} NoDupCount<T>(s: seq<T>, x: T)
    requires NoDup(s)
    ensures multiset(s)[x] <= 1
    decreases |s|
  {
    if s != [] {
      assert s == [s[0]] + s[1..];
      assert NoDup(s[1..]);
      NoDupCount(s[1..], x);
      if s[0] == x {
        assert x !in s[1..];
      }
    }
  }

  /** A rearrangement of a sequence without duplicates has none either. */
  lemma NoDupPermutation<T>(a: seq<T>, b: seq<T>)
    requires NoDup(a) && multiset(a) == multiset(b)
    ensures NoDup(b)
  {
    forall i, j | 0 <= i < j < |b|
      ensures b[i] != b[j]
    {
      if b[i] == b[j] {
        var x := b[i];
        assert b == b[..j] + [b[j]] + b[j + 1..];
        assert x in multiset(b[..j]);
        assert multiset(b)[x] >= 2;
        NoDupCount(a, x);
        assert false;
      }
    }
  }
}

=== FILE: skill_catalog.dfy ===
/** The predefined skills, by category, that both the skill selection screen
    (pages/SkillSelectionScreen.tsx) and the skill graph
    (pages/SkillGraphScreen.tsx) declare as `SKILL_CATEGORIES`. */
module SkillCatalog {

  datatype Category = Category(name: string, skills: seq<string>)

  /** The categories in declaration order. */
  const SkillCategories: seq<Category> := [
    Category("Tech & Data", ["Coding", "Data Analysis", "UX/UI Design", "Product Mgmt", "AI/ML"]),
    Category("Communication", ["Public Speaking", "Writing", "Negotiation", "Networking", "Storytelling"]),
    Category("Creative", ["Graphic Design", "Video Editing", "Music Production", "Photography", "Creative Writing"]),
    Category("Leadership & Business", ["Leadership", "Project Mgmt", "Marketing", "Sales", "Business Strategy"]),
    Category("Personal Finance", ["Investing", "Budgeting", "Financial Literacy", "Saving Money"]),
    Category("Wellness", ["Mindfulness", "Fitness", "Nutrition", "Stress Mgmt", "Sleep Hygiene"])]

  /** `Object.keys(cats)`. */
  function Names(cats: seq<Category>): (r: seq<string>)
    ensures |r| == |cats|
    ensures forall i :: 0 <= i < |cats| ==> r[i] == cats[i].name
  {
    seq(|cats|, i requires 0 <= i < |cats| => cats[i].name)
  }

  /** `Object.values(cats).flat()`: every category's skills, in order. */
  function AllSkills(cats: seq<Category>): (r: seq<string>)
    ensures forall x :: x in r <==> exists i :: 0 <= i < |cats| && x in cats[i].skills
    decreases |cats|
  {
    if cats == [] then []
    else
      var rest := AllSkills(cats[1..]);
      assert forall i :: 1 <= i < |cats| ==> cats[i] == cats[1..][i - 1];
      cats[0].skills + rest
  }
}

=== FILE: skill_coach.dfy ===
/** The voice coach (pages/SkillCoachScreen.tsx): a four-state machine driven
    by the browser's speech-recognition callbacks, the end of the spoken
    answer and the microphone button. The browser is not modelled; each of
    its callbacks is an event. */
module SkillCoach {
  import opened Remote

  datatype Status = Idle | Listening | Processing | Speaking

  datatype Coach = Coach(status: Status, response: string, transcript: string)

  /** What the browser and the assistant do to the screen. `Reply` is the
      assistant's answer to a transcript, None when the request threw. */
  datatype Event =
    | RecognitionStart
    | RecognitionEnd
    | RecognitionError(code: string)
    | RecognitionResult(transcript: string)
    | Reply(answer: Option<string>)
    | SpeechEnd

  const NoSpeech: string := "I didn't catch that. Could you please tap the mic and speak again?"
  const NoMicrophone: string :=
    "I can't seem to access your microphone. Please check your browser permissions and try again."
  const NotAllowed: string :=
    "I don't have permission to use your microphone. Please enable it in your browser settings."
  const UnexpectedError: string := "Sorry, an unexpected error occurred. Please try again."
  const ReplyFailed: string := "Sorry, I couldn't process that. Please try again."
  const Unsupported: string := "Sorry, voice commands are not supported on this browser."

  /** The message `onerror` shows and speaks for a recognition error code. */
  function ErrorMessage(code: string): string
  {
    if code == "no-speech" then NoSpeech
    else if code == "audio-capture" then NoMicrophone
    else if code == "not-allowed" then NotAllowed
    else UnexpectedError
  }

  /** Any code other than the three known ones gets the default message, and
      every message is shown and spoken until the speech ends, which brings the
      screen back to idle with the message still shown. */
  lemma ErrorIsSpokenThenIdle(c: Coach, code: string)
    ensures code !in {"no-speech", "audio-capture", "not-allowed"} ==> ErrorMessage(code) == UnexpectedError
    ensures Step(c, RecognitionError(code)).status == Speaking
    ensures Run(c, [RecognitionError(code), SpeechEnd]) == Coach(Idle, ErrorMessage(code), c.transcript)
  {
    RunTwo(c, RecognitionError(code), SpeechEnd);
  }

  /** The screen after one event. */
  function Step(c: Coach, e: Event): Coach
  {
    match e
    case RecognitionStart => Coach(Listening, "", "")
    case RecognitionEnd => if c.status == Listening then c.(status := Idle) else c
    case RecognitionError(code) => c.(response := ErrorMessage(code), status := Speaking)
    case RecognitionResult(t) => c.(transcript := t, status := Processing)
    case Reply(answer) => c.(response := if answer.Some? then answer.value else ReplyFailed, status := Speaking)
    case SpeechEnd => c.(status := Idle)
  }

  /** The screen after a run of events. */
  function Run(c: Coach, events: seq<Event>): Coach
    decreases |events|
  {
    if events == [] then c else Run(Step(c, events[0]), events[1..])
  }

  /** Recognition ending after a result leaves the answer pending: the end of
      listening never cancels processing or speaking. */
  lemma EndKeepsPendingAnswer(c: Coach, t: string, answer: Option<string>)
    ensures Run(c, [RecognitionResult(t), RecognitionEnd]).status == Processing
    ensures Run(c, [RecognitionResult(t), RecognitionEnd, Reply(answer)]).status == Speaking
    ensures Run(c, [RecognitionResult(t), Reply(answer), RecognitionEnd]).status == Speaking
  {
    var heard := Step(c, RecognitionResult(t));
    RunTwo(c, RecognitionResult(t), RecognitionEnd);
    RunThree(c, RecognitionResult(t), RecognitionEnd, Reply(answer));
    RunThree(c, RecognitionResult(t), Reply(answer), RecognitionEnd);
  }

  lemma RunOne(c: Coach, e: Event)
    ensures Run(c, [e]) == Step(c, e)
  {
    assert [e][1..] == [];
  }

  lemma RunTwo(c: Coach, e1: Event, e2: Event)
    ensures Run(c, [e1, e2]) == Step(Step(c, e1), e2)
  {
    assert [e1, e2][1..] == [e2];
    RunOne(Step(c, e1), e2);
  }

  lemma RunThree(c: Coach, e1: Event, e2: Event, e3: Event)
    ensures Run(c, [e1, e2, e3]) == Step(Step(Step(c, e1), e2), e3)
  {
    assert [e1, e2, e3][1..] == [e2, e3];
    RunTwo(Step(c, e1), e2, e3);
  }

  /** A full question: listening, a transcript, an answer and its end bring
      the screen back to idle, showing the answer (or the apology) and the
      transcript. */
  lemma QuestionRoundTrip(c: Coach, t: string, answer: Option<string>)
    ensures Run(c, [RecognitionStart, RecognitionResult(t), RecognitionEnd, Reply(answer), SpeechEnd])
         == Coach(Idle, if answer.Some? then answer.value else ReplyFailed, t)
  {
    var es := [RecognitionStart, RecognitionResult(t), RecognitionEnd, Reply(answer), SpeechEnd];
    assert es[1..] == [RecognitionResult(t), RecognitionEnd, Reply(answer), SpeechEnd];
    assert es[1..][1..] == [RecognitionEnd, Reply(answer), SpeechEnd];
    var heard := Step(Step(c, RecognitionStart), RecognitionResult(t));
    RunThree(heard, RecognitionEnd, Reply(answer), SpeechEnd);
  }

  /** What pressing the microphone does. */
  datatype MicAction = StopListening | StartListening | Ignore

  /** `handleMicClick`; `available` says whether the browser offers speech
      recognition. */
  function MicClick(status: Status, available: bool): (action: MicAction)
    ensures !available ==> action == Ignore
    ensures available ==> (action == StopListening <==> status.Listening?)
    ensures available ==> (action == StartListening <==> status.Idle? || status.Speaking?)
    ensures action == Ignore <==> !available || status.Processing?
  {
    if !available then Ignore
    else if status.Listening? then StopListening
    else if status.Idle? || status.Speaking? then StartListening
    else Ignore
  }

  /** `getStatusText`. */
  function StatusText(status: Status): string
  {
    match status
    case Listening => "Listening... Go ahead, I'm ready."
    case Processing => "Thinking..."
    case Speaking => "Tap the mic to interrupt and ask a new question."
    case Idle => "Tap the mic and ask about your skills."
  }

  /** Each status has its own text. */
  lemma StatusTextsDiffer(a: Status, b: Status)
    ensures StatusText(a) == StatusText(b) <==> a == b
  {
    if a != b {
      assert StatusText(a)[..2] != StatusText(b)[..2] || |StatusText(a)| != |StatusText(b)|;
    }
  }

  class CoachScreen {
    var status: Status
    var response: string
    var transcript: string
    /** Whether the browser offers speech recognition. */
    const available: bool

    function State(): Coach
      reads this
    {
      Coach(status, response, transcript)
    }

    /** Mounting the screen: without speech recognition the apology is shown. */
    constructor (available: bool)
      ensures this.available == available
      ensures State() == Coach(Idle, if available then "" else Unsupported, "")
    {
      this.available := available;
      status := Idle;
      response := if available then "" else Unsupported;
      transcript := "";
    }

    /** Delivers one event to the screen. */
    method Handle(e: Event)
      modifies this
      ensures State() == Step(old(State()), e)
    {
      match e {
        case RecognitionStart =>
          status := Listening;
          response := "";
          transcript := "";
        case RecognitionEnd =>
          if status == Listening {
            status := Idle;
          }
        case RecognitionError(code) =>
          response := ErrorMessage(code);
          status := Speaking;
        case RecognitionResult(t) =>
          transcript := t;
          status := Processing;
        case Reply(answer) =>
          response := if answer.Some? then answer.value else ReplyFailed;
          status := Speaking;
        case SpeechEnd =>
          status := Idle;
      }
    }

    method HandleMicClick() returns (action: MicAction)
      ensures action == MicClick(status, available)
    {
      if !available {
        return Ignore;
      }
      if status.Listening? {
        action := StopListening;
      } else if status.Idle? || status.Speaking? {
        action := StartListening;
      } else {
        action := Ignore;
      }
    }
  }
}

=== FILE: skill_context.dfy ===
/** The skills store (context/SkillContext.tsx): the signed-in user's skill
    levels, loaded from the `skills` table, replaced wholesale when the user
    picks a first set of skills, and updated one subject at a time. Every
    write is applied to the local list first; a failure other than a missing
    table undoes it. */
module SkillContext {
  import opened SeqUtil
  import opened Remote

  datatype Skill = Skill(subject: string, level: int)

  /** `Math.min(100, Math.max(0, level))`. */
  function Clamp(level: int): (r: int)
    ensures 0 <= r <= 100
    ensures 0 <= level <= 100 ==> r == level
    ensures level < 0 ==> r == 0
    ensures level > 100 ==> r == 100
  {
    if level < 0 then 0 else if level > 100 then 100 else level
  }

  /** Clamping a clamped level changes nothing. */
  lemma ClampIdempotent(level: int)
    ensures Clamp(Clamp(level)) == Clamp(level)
  {
  }

  /** The optimistic update: every skill named `subject` gets `level`. */
  function WithLevel(skills: seq<Skill>, subject: string, level: int): (r: seq<Skill>)
  {
    MapIf(skills, (s: Skill) => s.subject == subject, (s: Skill) => s.(level := level))
  }

  /** Only the entries named `subject` change, and only in their level; length,
      order and every other entry stay as they were. */
  lemma WithLevelOnlyMatching(skills: seq<Skill>, subject: string, level: int)
    ensures var r := WithLevel(skills, subject, level);
      && |r| == |skills|
      && (forall i :: 0 <= i < |r| ==> r[i].subject == skills[i].subject)
      && (forall i :: 0 <= i < |r| && skills[i].subject != subject ==> r[i] == skills[i])
      && (forall i :: 0 <= i < |r| && skills[i].subject == subject ==> r[i].level == level)
  {
  }

  /** All levels lie in [0, 100]. */
  predicate LevelsInRange(skills: seq<Skill>)
  {
    forall i :: 0 <= i < |skills| ==> 0 <= skills[i].level <= 100
  }

  /** The list after `fetchSkills`. */
  function FetchSpec(skills: seq<Skill>, signedIn: bool, outcome: RemoteOutcome<Option<seq<Skill>>>): (r: seq<Skill>)
    ensures !signedIn ==> r == []
    ensures signedIn && outcome.Ok? ==> r == OrEmpty(outcome.rows)
    ensures signedIn && outcome.TableMissing? ==> r == []
    ensures signedIn && outcome.RollsBack() ==> r == skills
  {
    if !signedIn then []
    else match outcome
      case Ok(data) => OrEmpty(data)
      case TableMissing => []
      case _ => skills
  }

  /** The list after `initializeSkills`. */
  function InitializeSpec(skills: seq<Skill>, signedIn: bool, initial: seq<Skill>,
                          outcome: RemoteOutcome<Option<seq<Skill>>>): (r: seq<Skill>)
    ensures !signedIn ==> r == skills
    ensures signedIn && outcome.Ok? ==> r == OrEmpty(outcome.rows)
    ensures signedIn && outcome.TableMissing? ==> r == initial
    ensures signedIn && outcome.RollsBack() ==> r == []
  {
    if !signedIn then skills
    else match outcome
      case Ok(data) => OrEmpty(data)
      case TableMissing => initial
      case _ => []
  }

  /** The list after `updateSkill`. */
  function UpdateSpec(skills: seq<Skill>, signedIn: bool, subject: string, level: int,
                      outcome: RemoteOutcome<()>): (r: seq<Skill>)
  {
    if signedIn && !outcome.RollsBack() then WithLevel(skills, subject, Clamp(level)) else skills
  }

  /** A kept update sets the clamped level on the named subject and touches
      nothing else; a failed one, or one without a user, leaves exactly the
      snapshot. */
  lemma {:induction false} UpdateSpecProperties(skills: seq<Skill>, signedIn: bool, subject: string,
                                                level: int, outcome: RemoteOutcome<()>)
    ensures var r := UpdateSpec(skills, signedIn, subject, level, outcome);
      && |r| == |skills|
      && (forall i :: 0 <= i < |r| ==> r[i].subject == skills[i].subject)
      && (forall i :: 0 <= i < |r| && skills[i].subject != subject ==> r[i] == skills[i])
      && (!signedIn || outcome.RollsBack() ==> r == skills)
      && (signedIn && !outcome.RollsBack() ==>
            forall i :: 0 <= i < |r| && skills[i].subject == subject ==> r[i].level == Clamp(level))
  {
    WithLevelOnlyMatching(skills, subject, Clamp(level));
  }

  /** An update never takes a level out of [0, 100]. */
  lemma UpdateKeepsLevelsInRange(skills: seq<Skill>, signedIn: bool, subject: string,
                                 level: int, outcome: RemoteOutcome<()>)
    requires LevelsInRange(skills)
    ensures LevelsInRange(UpdateSpec(skills, signedIn, subject, level, outcome))
  {
    WithLevelOnlyMatching(skills, subject, Clamp(level));
  }

  /** Repeating a kept update changes nothing more. */
  lemma UpdateIdempotent(skills: seq<Skill>, subject: string, level: int)
    ensures var once := UpdateSpec(skills, true, subject, level, Ok(()));
      UpdateSpec(once, true, subject, level, Ok(())) == once
  {
    var once := WithLevel(skills, subject, Clamp(level));
    WithLevelOnlyMatching(skills, subject, Clamp(level));
    WithLevelOnlyMatching(once, subject, Clamp(level));
  }

  class SkillStore {
    var skills: seq<Skill>
    var isLoading: bool

    constructor ()
      ensures skills == [] && isLoading
    {
      skills := [];
      isLoading := true;
    }

    method FetchSkills(signedIn: bool, outcome: RemoteOutcome<Option<seq<Skill>>>)
      modifies this
      ensures skills == FetchSpec(old(skills), signedIn, outcome)
      ensures !isLoading
    {
      if !signedIn {
        skills := [];
        isLoading := false;
        return;
      }
      isLoading := true;
      match outcome {
        case Ok(data) => skills := OrEmpty(data);
        case TableMissing => skills := [];
        case _ =>
      }
      isLoading := false;
    }

    /** Returns the rows sent to the insert, or None when there is no user. */
    method InitializeSkills(signedIn: bool, initial: seq<Skill>, outcome: RemoteOutcome<Option<seq<Skill>>>)
      returns (sent: Option<seq<Skill>>)
      modifies this
      ensures skills == InitializeSpec(old(skills), signedIn, initial, outcome)
      ensures sent == if signedIn then Some(initial) else None
      ensures isLoading == old(isLoading)
    {
      if !signedIn {
        return None;
      }
      skills := initial;
      sent := Some(initial);
      match outcome {
        case Ok(data) => skills := OrEmpty(data);
        case TableMissing =>
        case _ => skills := [];
      }
    }

    /** Returns the level sent to the remote update, or None when there is no user. */
    method UpdateSkill(signedIn: bool, subject: string, level: int, outcome: RemoteOutcome<()>)
      returns (sent: Option<int>)
      modifies this
      ensures skills == UpdateSpec(old(skills), signedIn, subject, level, outcome)
      ensures sent == if signedIn then Some(Clamp(level)) else None
      ensures sent.Some? ==> 0 <= sent.value <= 100
      ensures isLoading == old(isLoading)
    {
      if !signedIn {
        return None;
      }
      var newLevel := Clamp(level);
      var oldSkills := skills;
      skills := WithLevel(skills, subject, newLevel);
      sent := Some(newLevel);
      if outcome.RollsBack() {
        skills := oldSkills;
      }
    }
  }
}

=== FILE: skill_graph.dfy ===
/** The skill overview (pages/SkillGraphScreen.tsx): the user's skills are
    grouped under their predefined category, or "Other", the groups are shown
    in catalogue order, the chart is a radar from three skills up, and a
    modal asks the assistant to assess a new skill and can save the answer
    as a roadmap. */
module SkillGraph {
  import opened SeqUtil
  import opened Text
  import opened Remote
  import opened SkillCatalog
  import SkillContext

  type Skill = SkillContext.Skill

  /** Records `name` as the category of every skill in `skills`, later
      entries overwriting earlier ones. */
  function AssignSkills(m: map<string, string>, name: string, skills: seq<string>): map<string, string>
    decreases |skills|
  {
    if skills == [] then m
    else AssignSkills(m, name, skills[..|skills| - 1])[skills[|skills| - 1] := name]
  }

  /** After the assignment a skill is mapped when it was mapped before or is
      listed, and a listed skill is mapped to `name`. */
  lemma {:induction false} AssignSkillsAt(m: map<string, string>, name: string, skills: seq<string>, x: string)
    ensures x in AssignSkills(m, name, skills) <==> x in m || x in skills
    ensures x in skills ==> AssignSkills(m, name, skills)[x] == name
    ensures x !in skills && x in m ==> AssignSkills(m, name, skills)[x] == m[x]
    decreases |skills|
  {
    if skills != [] {
      var init := skills[..|skills| - 1];
      assert skills == init + [skills[|skills| - 1]];
      AssignSkillsAt(m, name, init, x);
    }
  }

  /** `skillToCategory`, built category by category in declaration order. */
  function SkillToCategory(cats: seq<Category>): map<string, string>
    decreases |cats|
  {
    if cats == [] then map[]
    else
      var last := cats[|cats| - 1];
      AssignSkills(SkillToCategory(cats[..|cats| - 1]), last.name, last.skills)
  }

  /** A skill is mapped exactly when some category lists it, and it is mapped
      to the last category that lists it. */
  lemma {:induction false} SkillToCategoryLastWins(cats: seq<Category>, x: string)
    ensures x in SkillToCategory(cats) <==> exists i :: 0 <= i < |cats| && x in cats[i].skills
    ensures x in SkillToCategory(cats) ==>
      exists i :: 0 <= i < |cats| && x in cats[i].skills && SkillToCategory(cats)[x] == cats[i].name
                  && forall j :: i < j < |cats| ==> x !in cats[j].skills
    decreases |cats|
  {
    if cats != [] {
      var init := cats[..|cats| - 1];
      var n := |cats| - 1;
      SkillToCategoryLastWins(init, x);
      AssignSkillsAt(SkillToCategory(init), cats[n].name, cats[n].skills, x);
      assert forall i :: 0 <= i < n ==> init[i] == cats[i];
      if x in cats[n].skills {
        assert SkillToCategory(cats)[x] == cats[n].name;
      } else if x in SkillToCategory(init) {
        var i :| 0 <= i < n && x in init[i].skills && SkillToCategory(init)[x] == init[i].name
                 && forall j :: i < j < n ==> x !in init[j].skills;
        assert SkillToCategory(cats)[x] == cats[i].name;
      } else {
        forall i | 0 <= i < |cats|
          ensures x !in cats[i].skills
        {
          if i < n {
            assert cats[i] == init[i];
          }
        }
      }
    }
  }

  /** Every category the map assigns is one of the categories' names. */
  lemma CategoryIsAName(cats: seq<Category>, x: string)
    requires x in SkillToCategory(cats)
    ensures SkillToCategory(cats)[x] in Names(cats)
  {
    SkillToCategoryLastWins(cats, x);
    var i :| 0 <= i < |cats| && x in cats[i].skills && SkillToCategory(cats)[x] == cats[i].name
             && forall j :: i < j < |cats| ==> x !in cats[j].skills;
    assert Names(cats)[i] == cats[i].name;
  }

  /** The loop that fills `skillToCategory`. */
  method BuildSkillToCategory(cats: seq<Category>) returns (m: map<string, string>)
    ensures m == SkillToCategory(cats)
  {
    m := map[];
    var i := 0;
    while i < |cats|
      invariant 0 <= i <= |cats|
      invariant m == SkillToCategory(cats[..i])
    {
      var skills := cats[i].skills;
      var j := 0;
      while j < |skills|
        invariant 0 <= j <= |skills|
        invariant m == AssignSkills(SkillToCategory(cats[..i]), cats[i].name, skills[..j])
      {
        assert skills[..j + 1][..j] == skills[..j];
        m := m[skills[j] := cats[i].name];
        j := j + 1;
      }
      assert skills[..j] == skills;
      assert cats[..i + 1][..i] == cats[..i];
      i := i + 1;
    }
    assert cats[..i] == cats;
  }

  /** `skillToCategory[subject] || 'Other'`. */
  function CategoryFor(m: map<string, string>, subject: string): string
  {
    if subject in m && m[subject] != "" then m[subject] else "Other"
  }

  function InCategory(m: map<string, string>, c: string): Skill -> bool
  {
    (s: Skill) => CategoryFor(m, s.subject) == c
  }

  /** `groupedSkills`: the `reduce` that appends each skill to its category's group. */
  function Groups(m: map<string, string>, skills: seq<Skill>): map<string, seq<Skill>>
    decreases |skills|
  {
    if skills == [] then map[]
    else
      var g := Groups(m, skills[..|skills| - 1]);
      var last := skills[|skills| - 1];
      var c := CategoryFor(m, last.subject);
      g[c := (if c in g then g[c] else []) + [last]]
  }

  /** Each group holds exactly the skills of its category, in input order, a
      group exists only when it is non-empty, and a category with no skills
      has no group. */
  lemma {:induction false} GroupsAreFilters(m: map<string, string>, skills: seq<Skill>, c: string)
    ensures Filter(skills, InCategory(m, c)) == (if c in Groups(m, skills) then Groups(m, skills)[c] else [])
    ensures c in Groups(m, skills) ==> Groups(m, skills)[c] != []
    decreases |skills|
  {
    if skills != [] {
      var init := skills[..|skills| - 1];
      var last := skills[|skills| - 1];
      GroupsAreFilters(m, init, c);
      assert skills == init + [last];
      FilterConcat(init, [last], InCategory(m, c));
      FilterSingle(last, InCategory(m, c));
    }
  }

  /** Every skill lands in exactly one group: the group of its category. */
  lemma EverySkillInOneGroup(m: map<string, string>, skills: seq<Skill>, k: nat, c: string)
    requires k < |skills|
    ensures CategoryFor(m, skills[k].subject) in Groups(m, skills)
    ensures skills[k] in Groups(m, skills)[CategoryFor(m, skills[k].subject)]
    ensures c in Groups(m, skills) && skills[k] in Groups(m, skills)[c] ==> c == CategoryFor(m, skills[k].subject)
  {
    var own := CategoryFor(m, skills[k].subject);
    GroupsAreFilters(m, skills, own);
    FilterMembership(skills, InCategory(m, own), skills[k]);
    GroupsAreFilters(m, skills, c);
    FilterMembership(skills, InCategory(m, c), skills[k]);
  }

  /** The loop form of the `reduce`. */
  method GroupSkills(m: map<string, string>, skills: seq<Skill>) returns (groups: map<string, seq<Skill>>)
    ensures groups == Groups(m, skills)
  {
    groups := map[];
    var k := 0;
    while k < |skills|
      invariant 0 <= k <= |skills|
      invariant groups == Groups(m, skills[..k])
    {
      assert skills[..k + 1][..k] == skills[..k];
      var c := CategoryFor(m, skills[k].subject);
      if c !in groups {
        groups := groups[c := []];
      }
      groups := groups[c := groups[c] + [skills[k]]];
      k := k + 1;
    }
    assert skills[..k] == skills;
  }

  function HasGroup(groups: map<string, seq<Skill>>): string -> bool
  {
    (c: string) => c in groups
  }

  /** `categoryOrder`: the categories that have a group, in declaration
      order, then "Other" when it has a group. */
  function CategoryOrder(names: seq<string>, groups: map<string, seq<Skill>>): seq<string>
  {
    Filter(names, HasGroup(groups)) + (if "Other" in groups then ["Other"] else [])
  }

  /** The order lists exactly the groups there are, with declared categories
      before "Other" and in declaration order. */
  lemma CategoryOrderListsGroups(cats: seq<Category>, skills: seq<Skill>, c: string)
    ensures var groups := Groups(SkillToCategory(cats), skills);
      && (c in CategoryOrder(Names(cats), groups) <==> c in groups)
      && ("Other" in groups ==> Last(CategoryOrder(Names(cats), groups)) == "Other")
      && ("Other" !in groups ==> CategoryOrder(Names(cats), groups) == Filter(Names(cats), HasGroup(groups)))
      && ("Other" in groups ==> CategoryOrder(Names(cats), groups) == Filter(Names(cats), HasGroup(groups)) + ["Other"])
  {
    var m := SkillToCategory(cats);
    var groups := Groups(m, skills);
    FilterMembership(Names(cats), HasGroup(groups), c);
    if c in groups && c != "Other" {
      GroupsAreFilters(m, skills, c);
      var f := Filter(skills, InCategory(m, c));
      FilterMembership(skills, InCategory(m, c), f[0]);
      CategoryIsAName(cats, f[0].subject);
    }
  }

  function Last(s: seq<string>): string
  {
    if s == [] then "" else s[|s| - 1]
  }

  datatype Chart = NoChart | RadarChart | BarChart

  /** The chart shown for `count` skills. */
  function ChartFor(count: nat): (chart: Chart)
    ensures chart.NoChart? <==> count == 0
    ensures chart.RadarChart? <==> count >= 3
    ensures chart.BarChart? <==> 0 < count < 3
  {
    if count == 0 then NoChart else if count >= 3 then RadarChart else BarChart
  }

  const AnalyticsError: string := "Sorry, an error occurred while analyzing your skills."
  const AssessmentError: string := "Sorry, an error occurred while assessing this skill."

  /** The assessment modal's state. */
  datatype Assessment = Assessment(modalOpen: bool, query: string, result: string,
                                   isAssessing: bool, isSaving: bool, saved: bool)

  /** `!text.trim()`. */
  predicate Blank(text: string)
  {
    Trim(text) == ""
  }

  /** `handleGetAssessment`; `reply` is the assistant's text, None when it threw. */
  function AssessSpec(a: Assessment, reply: Option<string>): Assessment
  {
    if Blank(a.query) then a
    else a.(result := if reply.Some? then reply.value else AssessmentError, saved := false, isAssessing := false)
  }

  /** Whether `handleSaveRoadmap` goes ahead. */
  predicate CanSave(a: Assessment, signedIn: bool)
  {
    signedIn && !Blank(a.query) && a.result != ""
  }

  /** The row `handleSaveRoadmap` inserts: the trimmed query as the skill
      title and the shown text as the content. */
  function SavePayload(a: Assessment, signedIn: bool): Option<(string, string)>
  {
    if CanSave(a, signedIn) then Some((Trim(a.query), a.result)) else None
  }

  function SaveSpec(a: Assessment, signedIn: bool, outcome: RemoteOutcome<()>): Assessment
  {
    if !CanSave(a, signedIn) then a else a.(saved := outcome.Ok?, isSaving := false)
  }

  /** `closeAssessmentModal`. */
  function CloseSpec(a: Assessment): Assessment
  {
    a.(modalOpen := false, result := "", query := "", saved := false)
  }

  /** A blank query asks nothing; any other query replaces the shown text,
      with the fixed apology when the assistant failed, and clears the saved
      mark. */
  lemma AssessOutcomes(a: Assessment, reply: Option<string>)
    ensures Trim(a.query) == "" ==> AssessSpec(a, reply) == a
    ensures Trim(a.query) != "" ==>
      && AssessSpec(a, reply).query == a.query
      && !AssessSpec(a, reply).saved
      && (reply.None? ==> AssessSpec(a, reply).result == AssessmentError)
      && (reply.Some? ==> AssessSpec(a, reply).result == reply.value)
  {
  }

  /** After an assessment of a non-blank query that produced text, a signed-in
      save inserts the trimmed query and that text and marks the roadmap saved
      exactly when the insert succeeds. This holds for the apology too: a
      failed assessment can be saved as a roadmap. */
  lemma AssessThenSave(a: Assessment, reply: Option<string>, outcome: RemoteOutcome<()>)
    requires Trim(a.query) != ""
    requires reply.None? || reply.value != ""
    ensures var shown := AssessSpec(a, reply);
      && SavePayload(shown, true) == Some((Trim(a.query), if reply.Some? then reply.value else AssessmentError))
      && (SaveSpec(shown, true, outcome).saved <==> outcome.Ok?)
  {
    assert |AssessmentError| > 0;
  }

  /** Closing the modal empties it, so a save right after does nothing. */
  lemma CloseThenSaveDoesNothing(a: Assessment, signedIn: bool, outcome: RemoteOutcome<()>)
    ensures SavePayload(CloseSpec(a), signedIn).None?
    ensures SaveSpec(CloseSpec(a), signedIn, outcome) == CloseSpec(a)
    ensures !CloseSpec(a).modalOpen && !CloseSpec(a).saved
  {
    assert Trim("") == "";
  }

  /** The screen's analysis panel and its assessment modal. */
  class SkillGraphPanel {
    var analytics: string
    var loadingAnalytics: bool
    var modal: Assessment

    constructor ()
      ensures analytics == "" && !loadingAnalytics
      ensures modal == Assessment(false, "", "", false, false, false)
    {
      analytics := "";
      loadingAnalytics := false;
      modal := Assessment(false, "", "", false, false, false);
    }

    /** `handleGetAnalytics`; `reply` is the assistant's text, None when it threw. */
    method GetAnalytics(reply: Option<string>)
      modifies this
      ensures analytics == (if reply.Some? then reply.value else AnalyticsError)
      ensures !loadingAnalytics && modal == old(modal)
    {
      loadingAnalytics := true;
      analytics := "";
      match reply {
        case Some(text) => analytics := text;
        case None => analytics := AnalyticsError;
      }
      loadingAnalytics := false;
    }

    method OpenAssessmentModal()
      modifies this
      ensures modal == old(modal).(modalOpen := true)
      ensures analytics == old(analytics) && loadingAnalytics == old(loadingAnalytics)
    {
      modal := modal.(modalOpen := true);
    }

    method GetAssessment(reply: Option<string>)
      modifies this
      ensures modal == AssessSpec(old(modal), reply)
      ensures analytics == old(analytics) && loadingAnalytics == old(loadingAnalytics)
    {
      var m := modal;
      if Blank(m.query) {
        return;
      }
      m := m.(isAssessing := true, result := "", saved := false);
      modal := m;
      match reply {
        case Some(text) => m := m.(result := text);
        case None => m := m.(result := AssessmentError);
      }
      modal := m.(isAssessing := false);
    }

    /** Returns the inserted row and whether the closing timer was started. */
    method SaveRoadmap(signedIn: bool, outcome: RemoteOutcome<()>)
      returns (inserted: Option<(string, string)>, timerStarted: bool)
      modifies this
      ensures inserted == SavePayload(old(modal), signedIn)
      ensures timerStarted <==> inserted.Some? && outcome.Ok?
      ensures modal == SaveSpec(old(modal), signedIn, outcome)
      ensures analytics == old(analytics) && loadingAnalytics == old(loadingAnalytics)
    {
      var m := modal;
      if !signedIn || Blank(m.query) || m.result == "" {
        return None, false;
      }
      m := m.(isSaving := true, saved := false);
      modal := m;
      inserted := Some((Trim(m.query), m.result));
      timerStarted := outcome.Ok?;
      modal := m.(saved := outcome.Ok?, isSaving := false);
    }

    /** The timer started by a successful save: close the modal and go to the
        roadmaps. */
    method SaveTimerFires() returns (route: string)
      modifies this
      ensures route == "/roadmaps"
      ensures modal == CloseSpec(old(modal))
      ensures analytics == old(analytics) && loadingAnalytics == old(loadingAnalytics)
    {
      CloseAssessmentModal();
      route := "/roadmaps";
    }

    method CloseAssessmentModal()
      modifies this
      ensures modal == CloseSpec(old(modal))
      ensures analytics == old(analytics) && loadingAnalytics == old(loadingAnalytics)
    {
      modal := modal.(modalOpen := false, result := "", query := "", saved := false);
    }
  }
}

=== FILE: skill_selection.dfy ===
/** The first-run skill picker (pages/SkillSelectionScreen.tsx): predefined
    skills and the user's own can be toggled in and out of the selection; a
    typed skill that matches an existing one, ignoring case, selects that one
    instead of adding a second spelling; continuing starts every selected
    skill at level 10. */
module SkillSelection {
  import opened SeqUtil
  import opened Text
  import opened Remote
  import opened SkillCatalog
  import SkillContext

  function Without(skill: string): string -> bool
  {
    (s: string) => s != skill
  }

  /** `toggleSkill`: remove the skill when selected, append it otherwise. */
  function Toggle(selected: seq<string>, skill: string): seq<string>
  {
    if skill in selected then Filter(selected, Without(skill)) else selected + [skill]
  }

  /** Toggling flips the skill's membership, leaves every other skill's
      membership alone and never introduces a duplicate. A new pick goes at
      the end; without duplicates, a removal takes out just that entry and
      keeps the others in order. */
  lemma ToggleFlips(selected: seq<string>, skill: string, other: string)
    ensures skill in Toggle(selected, skill) <==> skill !in selected
    ensures other != skill ==> (other in Toggle(selected, skill) <==> other in selected)
    ensures NoDup(selected) ==> NoDup(Toggle(selected, skill))
    ensures skill !in selected ==> Toggle(selected, skill) == selected + [skill]
    ensures forall k :: NoDup(selected) && 0 <= k < |selected| && selected[k] == skill ==>
              Toggle(selected, skill) == selected[..k] + selected[k + 1..]
  {
    forall k | NoDup(selected) && 0 <= k < |selected| && selected[k] == skill
      ensures Toggle(selected, skill) == selected[..k] + selected[k + 1..]
    {
      FilterDropsOne(selected, k, Without(skill));
    }
    FilterMembership(selected, Without(skill), skill);
    FilterMembership(selected, Without(skill), other);
    if NoDup(selected) {
      if skill in selected {
        NoDupFilter(selected, Without(skill));
      } else {
        var r := selected + [skill];
        forall i, j | 0 <= i < j < |r|
          ensures r[i] != r[j]
        {
          if j == |selected| {
            assert r[i] in selected;
          } else {
            assert r[i] == selected[i] && r[j] == selected[j];
          }
        }
      }
    }
  }

  /** Toggling a skill twice, starting from unselected, gives the selection back. */
  lemma ToggleTwice(selected: seq<string>, skill: string)
    requires skill !in selected
    ensures Toggle(Toggle(selected, skill), skill) == selected
  {
    assert skill in selected + [skill];
    FilterConcat(selected, [skill], Without(skill));
    FilterKeepsAll(selected, Without(skill));
    FilterSingle(skill, Without(skill));
  }

  /** `list.find(s => s.toLowerCase() === x.toLowerCase())`: the first entry
      equal to `x` ignoring case. */
  function FindIgnoringCase(list: seq<string>, x: string): (r: Option<string>)
    ensures r.None? <==> forall i :: 0 <= i < |list| ==> ToLower(list[i]) != ToLower(x)
    ensures r.Some? ==> exists i :: 0 <= i < |list| && list[i] == r.value && ToLower(r.value) == ToLower(x)
                          && forall j :: 0 <= j < i ==> ToLower(list[j]) != ToLower(x)
    decreases |list|
  {
    if list == [] then None
    else if ToLower(list[0]) == ToLower(x) then Some(list[0])
    else
      var r := FindIgnoringCase(list[1..], x);
      assert forall i :: 1 <= i < |list| ==> list[i] == list[1..][i - 1];
      assert r.Some? ==> exists i :: 0 <= i < |list| && list[i] == r.value && ToLower(r.value) == ToLower(x)
                          && forall j :: 0 <= j < i ==> ToLower(list[j]) != ToLower(x) by {
        if r.Some? {
          var i :| 0 <= i < |list[1..]| && list[1..][i] == r.value && ToLower(r.value) == ToLower(x)
                   && forall j :: 0 <= j < i ==> ToLower(list[1..][j]) != ToLower(x);
          assert list[i + 1] == r.value;
          forall j | 0 <= j < i + 1
            ensures ToLower(list[j]) != ToLower(x)
          {
            if j > 0 {
              assert list[j] == list[1..][j - 1];
            }
          }
        }
      }
      r
  }

  /** The screen's state: the selection, the user's own skills and the text field. */
  datatype Picker = Picker(selected: seq<string>, userSkills: seq<string>, customSkill: string)

  /** Every predefined skill, across the categories. */
  function Predefined(): seq<string>
  {
    AllSkills(SkillCategories)
  }

  /** Every skill on offer: the predefined ones, then the user's own. */
  function Offered(predefined: seq<string>, p: Picker): seq<string>
  {
    predefined + p.userSkills
  }

  /** The state after `handleAddCustomSkill`. */
  function AddCustomSpec(predefined: seq<string>, p: Picker): Picker
  {
    var formatted := Trim(p.customSkill);
    if formatted == "" then p
    else match FindIgnoringCase(Offered(predefined, p), formatted)
      case Some(existing) =>
        p.(selected := if existing in p.selected then p.selected else Toggle(p.selected, existing), customSkill := "")
      case None =>
        p.(userSkills := p.userSkills + [formatted],
           selected := if formatted in p.selected then p.selected else p.selected + [formatted],
           customSkill := "")
  }

  /** The selection holds no duplicates and only skills on offer, and the
      user's own skills differ, ignoring case, from each other and from every
      skill offered before them. */
  ghost predicate Valid(predefined: seq<string>, p: Picker)
  {
    && NoDup(p.selected)
    && (forall x :: x in p.selected ==> x in Offered(predefined, p))
    && (forall i :: 0 <= i < |p.userSkills| ==>
          forall j :: 0 <= j < |predefined| + i ==>
            ToLower(Offered(predefined, p)[j]) != ToLower(p.userSkills[i]))
  }

  /** A blank entry changes nothing. A match, ignoring case, selects the
      existing spelling and adds no skill of the user's; otherwise the trimmed
      text joins the user's skills and the selection. Either way the field is
      cleared. */
  lemma AddCustomOutcomes(predefined: seq<string>, p: Picker)
    ensures Trim(p.customSkill) == "" ==> AddCustomSpec(predefined, p) == p
    ensures Trim(p.customSkill) != "" ==>
      var r := AddCustomSpec(predefined, p);
      var found := FindIgnoringCase(Offered(predefined, p), Trim(p.customSkill));
      && r.customSkill == ""
      && (found.Some? ==> r.userSkills == p.userSkills && found.value in r.selected
                          && ToLower(found.value) == ToLower(Trim(p.customSkill)))
      && (found.Some? ==> r.selected == (if found.value in p.selected then p.selected
                                         else p.selected + [found.value]))
      && (found.None? ==> r.userSkills == p.userSkills + [Trim(p.customSkill)] && Trim(p.customSkill) in r.selected)
      && (found.None? ==> r.selected == (if Trim(p.customSkill) in p.selected then p.selected
                                         else p.selected + [Trim(p.customSkill)]))
  {
    var formatted := Trim(p.customSkill);
    if formatted != "" {
      var found := FindIgnoringCase(Offered(predefined, p), formatted);
      if found.Some? && found.value !in p.selected {
        ToggleFlips(p.selected, found.value, found.value);
      }
    }
  }

  /** Toggling an offered skill keeps the picker valid. */
  lemma ToggleKeepsValid(predefined: seq<string>, p: Picker, skill: string)
    requires Valid(predefined, p) && skill in Offered(predefined, p)
    ensures Valid(predefined, p.(selected := Toggle(p.selected, skill)))
  {
    ToggleFlips(p.selected, skill, skill);
    forall x | x in Toggle(p.selected, skill)
      ensures x in Offered(predefined, p)
    {
      ToggleFlips(p.selected, skill, x);
    }
  }

  /** Adding a custom skill keeps the picker valid. */
  lemma AddCustomKeepsValid(predefined: seq<string>, p: Picker)
    requires Valid(predefined, p)
    ensures Valid(predefined, AddCustomSpec(predefined, p))
  {
    var formatted := Trim(p.customSkill);
    if formatted == "" {
      return;
    }
    var found := FindIgnoringCase(Offered(predefined, p), formatted);
    var r := AddCustomSpec(predefined, p);
    if found.Some? {
      var existing := found.value;
      if existing !in p.selected {
        ToggleKeepsValid(predefined, p, existing);
        assert r == p.(selected := Toggle(p.selected, existing), customSkill := "");
      } else {
        assert r == p.(customSkill := "");
      }
    } else {
      AddNewSkillKeepsValid(predefined, p, formatted);
    }
  }

  /** Adding a skill that matches nothing on offer, ignoring case, to the
      user's skills and the selection keeps the picker valid. */
  lemma AddNewSkillKeepsValid(predefined: seq<string>, p: Picker, x: string)
    requires Valid(predefined, p)
    requires FindIgnoringCase(Offered(predefined, p), x).None?
    ensures Valid(predefined, p.(userSkills := p.userSkills + [x], selected := p.selected + [x], customSkill := ""))
  {
    var r := p.(userSkills := p.userSkills + [x], selected := p.selected + [x], customSkill := "");
    assert forall k :: 0 <= k < |Offered(predefined, p)| ==> Offered(predefined, p)[k] != x;
    AppendSelectedKeepsNoDup(p.selected, x);
    AppendUserSkillKeepsDistinct(predefined, p, x);
    assert Offered(predefined, r) == Offered(predefined, p) + [x];
  }

  lemma AppendSelectedKeepsNoDup(selected: seq<string>, x: string)
    requires NoDup(selected) && x !in selected
    ensures NoDup(selected + [x])
  {
    var s := selected + [x];
    forall i, j | 0 <= i < j < |s|
      ensures s[i] != s[j]
    {
      if j == |selected| {
        assert s[i] in selected;
      } else {
        assert s[i] == selected[i] && s[j] == selected[j];
      }
    }
  }

  /** A skill that differs, ignoring case, from every skill on offer keeps
      the user's skills distinct when appended. */
  lemma AppendUserSkillKeepsDistinct(predefined: seq<string>, p: Picker, x: string)
    requires forall i :: 0 <= i < |p.userSkills| ==>
               forall j :: 0 <= j < |predefined| + i ==> ToLower(Offered(predefined, p)[j]) != ToLower(p.userSkills[i])
    requires forall k :: 0 <= k < |Offered(predefined, p)| ==> ToLower(Offered(predefined, p)[k]) != ToLower(x)
    ensures var r := p.(userSkills := p.userSkills + [x]);
      forall i :: 0 <= i < |r.userSkills| ==>
        forall j :: 0 <= j < |predefined| + i ==> ToLower(Offered(predefined, r)[j]) != ToLower(r.userSkills[i])
  {
    var r := p.(userSkills := p.userSkills + [x]);
    assert Offered(predefined, r) == Offered(predefined, p) + [x];
    forall i | 0 <= i < |r.userSkills|
      ensures forall j :: 0 <= j < |predefined| + i ==> ToLower(Offered(predefined, r)[j]) != ToLower(r.userSkills[i])
    {
      assert forall j :: 0 <= j < |predefined| + i ==> Offered(predefined, r)[j] == Offered(predefined, p)[j];
      if i < |p.userSkills| {
        assert r.userSkills[i] == p.userSkills[i];
      } else {
        assert r.userSkills[i] == x;
      }
    }
  }

  /** The skills `handleContinue` hands to `initializeSkills`: every selected
      subject, in order, at level 10. */
  function StartingSkills(selected: seq<string>): (r: seq<SkillContext.Skill>)
    ensures |r| == |selected|
    ensures forall i :: 0 <= i < |r| ==> r[i].subject == selected[i] && r[i].level == 10
  {
    seq(|selected|, i requires 0 <= i < |selected| => SkillContext.Skill(selected[i], 10))
  }

  class SkillPicker {
    var selected: seq<string>
    var userSkills: seq<string>
    var customSkill: string
    var isSubmitting: bool
    /** Every predefined skill, as `handleAddCustomSkill` flattens them. */
    const predefined: seq<string>

    function State(): Picker
      reads this
    {
      Picker(selected, userSkills, customSkill)
    }

    constructor ()
      ensures State() == Picker([], [], "") && !isSubmitting
      ensures predefined == Predefined()
    {
      predefined := Predefined();
      selected := [];
      userSkills := [];
      customSkill := "";
      isSubmitting := false;
    }

    method ToggleSkill(skill: string)
      modifies this
      ensures State() == old(State()).(selected := Toggle(old(selected), skill))
      ensures isSubmitting == old(isSubmitting)
    {
      if skill in selected {
        selected := Filter(selected, Without(skill));
      } else {
        selected := selected + [skill];
      }
    }

    method AddCustomSkill()
      modifies this
      ensures State() == AddCustomSpec(predefined, old(State()))
      ensures isSubmitting == old(isSubmitting)
    {
      var formatted := Trim(customSkill);
      if formatted == "" {
        return;
      }
      var existing := FindIgnoringCase(predefined + userSkills, formatted);
      if existing.Some? {
        if existing.value !in selected {
          ToggleSkill(existing.value);
        }
      } else {
        userSkills := userSkills + [formatted];
        if formatted !in selected {
          selected := selected + [formatted];
        }
      }
      customSkill := "";
    }

    /** Returns the route it navigates to, or None when nothing is selected. */
    method HandleContinue(store: SkillContext.SkillStore, signedIn: bool,
                          outcome: RemoteOutcome<Option<seq<SkillContext.Skill>>>)
      returns (route: Option<string>)
      modifies this, store
      ensures |old(selected)| == 0 ==> route == None && store.skills == old(store.skills)
      ensures |old(selected)| > 0 ==>
        && route == Some("/routine-selection")
        && store.skills == SkillContext.InitializeSpec(old(store.skills), signedIn, StartingSkills(old(selected)), outcome)
      ensures State() == old(State())
      ensures isSubmitting == (old(isSubmitting) && |old(selected)| == 0)
    {
      if |selected| == 0 {
        return None;
      }
      isSubmitting := true;
      var initial := StartingSkills(selected);
      var _ := store.InitializeSkills(signedIn, initial, outcome);
      isSubmitting := false;
      route := Some("/routine-selection");
    }
  }
}

=== FILE: sorting.dfy ===
/** A stable sort under a caller-supplied order, as Array.prototype.sort with a
    comparator behaves (ECMAScript requires the sort to be stable). `leq(a, b)`
    stands for "the comparator does not put `b` before `a`". The sort is
    specified by a function built from repeated insertion and implemented by an
    insertion sort over a sequence. */
module Sorting {
  import opened SeqUtil

  /** The order a comparator induces: total and transitive; ties are allowed. */
  ghost predicate TotalPreorder<T(!new)>(leq: (T, T) -> bool)
  {
    && (forall a, b :: leq(a, b) || leq(b, a))
    && (forall a, b, c :: leq(a, b) && leq(b, c) ==> leq(a, c))
  }

  predicate Sorted<T>(s: seq<T>, leq: (T, T) -> bool)
  {
    forall i, j :: 0 <= i < j < |s| ==> leq(s[i], s[j])
  }

  /** The entries the comparator puts level with `k`. */
  function TiedWith<T>(k: T, leq: (T, T) -> bool): T -> bool
  {
    y => leq(y, k) && leq(k, y)
  }

  /** Insert `x` after the last entry of `t` that the order puts at or before it. */
  function Insert<T>(t: seq<T>, x: T, leq: (T, T) -> bool): (r: seq<T>)
    ensures |r| == |t| + 1
    decreases |t|
  {
    if t == [] || leq(t[|t| - 1], x) then t + [x]
    else Insert(t[..|t| - 1], x, leq) + [t[|t| - 1]]
  }

  lemma {:induction false} InsertPermutes<T>(t: seq<T>, x: T, leq: (T, T) -> bool)
    ensures multiset(Insert(t, x, leq)) == multiset(t) + multiset{x}
    decreases |t|
  {
    if t != [] && !leq(t[|t| - 1], x) {
      InsertPermutes(t[..|t| - 1], x, leq);
      assert t == t[..|t| - 1] + [t[|t| - 1]];
    }
  }

  /** The stably sorted arrangement of `s`. */
  function SortSpec<T>(s: seq<T>, leq: (T, T) -> bool): (r: seq<T>)
    ensures |r| == |s|
    decreases |s|
  {
    if s == [] then []
    else Insert(SortSpec(s[..|s| - 1], leq), s[|s| - 1], leq)
  }

  lemma {:induction false} InsertSorted<T(!new)>(t: seq<T>, x: T, leq: (T, T) -> bool)
    requires TotalPreorder(leq) && Sorted(t, leq)
    ensures Sorted(Insert(t, x, leq), leq)
    decreases |t|
  {
    if t == [] || leq(t[|t| - 1], x) {
    } else {
      var init, last := t[..|t| - 1], t[|t| - 1];
      InsertSorted(init, x, leq);
      var u := Insert(init, x, leq);
      InsertPermutes(init, x, leq);
      assert leq(x, last);
      assert forall y :: y in multiset(u) ==> y == x || y in multiset(init);
      forall i | 0 <= i < |u|
        ensures leq(u[i], last)
      {
        assert u[i] in multiset(u);
      }
    }
  }

  /** The sorted arrangement is ordered and holds the same entries. */
  lemma {:induction false} SortSpecSorted<T(!new)>(s: seq<T>, leq: (T, T) -> bool)
    requires TotalPreorder(leq)
    ensures Sorted(SortSpec(s, leq), leq)
    ensures multiset(SortSpec(s, leq)) == multiset(s)
    decreases |s|
  {
    if s != [] {
      var init, last := s[..|s| - 1], s[|s| - 1];
      SortSpecSorted(init, leq);
      InsertSorted(SortSpec(init, leq), last, leq);
      InsertPermutes(SortSpec(init, leq), last, leq);
      assert s == init + [last];
    }
  }

  lemma {:induction false} InsertStable<T(!new)>(t: seq<T>, x: T, leq: (T, T) -> bool, k: T)
    requires TotalPreorder(leq)
    ensures Filter(Insert(t, x, leq), TiedWith(k, leq))
         == Filter(t, TiedWith(k, leq)) + Filter([x], TiedWith(k, leq))
    decreases |t|
  {
    var p := TiedWith(k, leq);
    if t == [] || leq(t[|t| - 1], x) {
      FilterConcat(t, [x], p);
    } else {
      var init, last := t[..|t| - 1], t[|t| - 1];
      InsertStable(init, x, leq, k);
      FilterConcat(Insert(init, x, leq), [last], p);
      assert t == init + [last];
      FilterConcat(init, [last], p);
      FilterSingle(x, p);
      FilterSingle(last, p);
      if p(x) && p(last) {
        assert false;
      }
    }
  }

  /** Stability: the entries that tie with any `k` keep their relative order. */
  lemma {:induction false} SortSpecStable<T(!new)>(s: seq<T>, leq: (T, T) -> bool, k: T)
    requires TotalPreorder(leq)
    ensures Filter(SortSpec(s, leq), TiedWith(k, leq)) == Filter(s, TiedWith(k, leq))
    decreases |s|
  {
    if s != [] {
      var init, last := s[..|s| - 1], s[|s| - 1];
      SortSpecStable(init, leq, k);
      InsertStable(SortSpec(init, leq), last, leq, k);
      assert s == init + [last];
      FilterConcat(init, [last], TiedWith(k, leq));
    }
  }

  lemma InsertStepLeft<T>(r: seq<T>, j: nat, x: T, leq: (T, T) -> bool)
    requires 0 < j <= |r| && !leq(r[j - 1], x)
    ensures Insert(r[..j], x, leq) + r[j..] == Insert(r[..j - 1], x, leq) + r[j - 1..]
  {
    assert r[..j][..j - 1] == r[..j - 1];
    assert r[j - 1..] == [r[j - 1]] + r[j..];
  }

  /** Insertion sort: each entry is moved left past the entries the order
      puts strictly after it. */
  method InsertionSort<T>(s: seq<T>, leq: (T, T) -> bool) returns (r: seq<T>)
    ensures r == SortSpec(s, leq)
  {
    r := [];
    var i := 0;
    while i < |s|
      invariant 0 <= i <= |s|
      invariant r == SortSpec(s[..i], leq)
    {
      var x := s[i];
      var j := |r|;
      assert r[..j] == r && r[j..] == [];
      while j > 0 && !leq(r[j - 1], x)
        invariant 0 <= j <= |r|
        invariant Insert(r, x, leq) == Insert(r[..j], x, leq) + r[j..]
      {
        InsertStepLeft(r, j, x, leq);
        j := j - 1;
      }
      assert Insert(r[..j], x, leq) == r[..j] + [x];
      r := r[..j] + [x] + r[j..];
      assert s[..i + 1][..i] == s[..i];
      i := i + 1;
    }
    assert s[..i] == s;
  }
}

=== FILE: text.dfy ===
/** The string operations the screens and stores rely on, written out over
    `seq<char>`: String.prototype.trim, toLowerCase (ASCII letters only),
    startsWith, includes, split/join on a separator, and the decimal rendering
    of a number inside a template literal. */
module Text {

  /** The characters String.prototype.trim removes: ECMAScript WhiteSpace
      (tab, vertical tab, form feed, ZWNBSP and the space separators) and
      LineTerminator (LF, CR, LS, PS). */
  predicate IsSpace(c: char)
  {
    || c == ' ' || c == '\t' || c == '\n' || c == '\r'
    || c == '\U{000B}' || c == '\U{000C}' || c == '\U{00A0}' || c == '\U{1680}'
    || ('\U{2000}' <= c <= '\U{200A}')
    || c == '\U{2028}' || c == '\U{2029}' || c == '\U{202F}' || c == '\U{205F}'
    || c == '\U{3000}' || c == '\U{FEFF}'
  }

  predicate AllSpace(s: string)
  {
    forall i :: 0 <= i < |s| ==> IsSpace(s[i])
  }

  function TrimStart(s: string): (r: string)
    ensures r == [] || !IsSpace(r[0])
    ensures |r| <= |s| && r == s[|s| - |r|..]
    decreases |s|
  {
    if s != [] && IsSpace(s[0]) then
      var r := TrimStart(s[1..]);
      assert s[1..][|s| - 1 - |r|..] == s[|s| - |r|..];
      r
    else s
  }

  /** What `TrimStart` drops is white space. */
  lemma {:induction false} TrimStartDropsSpace(s: string)
    ensures AllSpace(s[..|s| - |TrimStart(s)|])
    decreases |s|
  {
    if s != [] && IsSpace(s[0]) {
      var r := TrimStart(s[1..]);
      TrimStartDropsSpace(s[1..]);
      forall i | 0 <= i < |s| - |r|
        ensures IsSpace(s[i])
      {
        if i > 0 {
          assert s[i] == s[1..][..|s| - 1 - |r|][i - 1];
        }
      }
    }
  }

  function TrimEnd(s: string): (r: string)
    ensures r == [] || !IsSpace(r[|r| - 1])
    ensures |r| <= |s| && r == s[..|r|]
    decreases |s|
  {
    if s != [] && IsSpace(s[|s| - 1]) then
      var r := TrimEnd(s[..|s| - 1]);
      assert s[..|s| - 1][..|r|] == s[..|r|];
      r
    else s
  }

  /** What `TrimEnd` drops is white space. */
  lemma {:induction false} TrimEndDropsSpace(s: string)
    ensures AllSpace(s[|TrimEnd(s)|..])
    decreases |s|
  {
    if s != [] && IsSpace(s[|s| - 1]) {
      var r := TrimEnd(s[..|s| - 1]);
      TrimEndDropsSpace(s[..|s| - 1]);
      forall i | |r| <= i < |s|
        ensures IsSpace(s[i])
      {
        if i < |s| - 1 {
          assert s[i] == s[..|s| - 1][|r|..][i - |r|];
        }
      }
    }
  }

  /** String.prototype.trim. */
  function Trim(s: string): (r: string)
  {
    TrimEnd(TrimStart(s))
  }

  /** `r` sits at `k` in `s` with only white space before and after it. */
  predicate SpaceAround(s: string, r: string, k: int)
  {
    OccursAt(s, r, k) && AllSpace(s[..k]) && AllSpace(s[k + |r|..])
  }

  /** Trimming leaves a piece of the input with no white space at either
      end, and what it drops before and after that piece is white space. */
  lemma TrimSpec(s: string)
    ensures var r := Trim(s);
      && (r == [] || (!IsSpace(r[0]) && !IsSpace(r[|r| - 1])))
      && (exists k :: OccursAt(s, r, k))
    ensures SpaceAround(s, Trim(s), |s| - |TrimStart(s)|)
  {
    var t := TrimStart(s);
    var r := TrimEnd(t);
    TrimDropsOnlySpace(s);
    assert OccursAt(s, r, |s| - |t|);
    if r != [] {
      assert r[0] == t[0];
    }
  }

  /** What trimming drops before and after the piece it keeps is white space. */
  lemma TrimDropsOnlySpace(s: string)
    ensures SpaceAround(s, Trim(s), |s| - |TrimStart(s)|)
  {
    var t := TrimStart(s);
    TrimStartDropsSpace(s);
    TrimEndDropsSpace(t);
    Pieces(s, t, TrimEnd(t), |s| - |t|);
  }

  /** A prefix `r` of the suffix `t` of `s` that starts at `k`, followed in
      `t` by white space, sits at `k` in `s`; if white space comes before
      `t`, white space surrounds `r`. */
  lemma Pieces(s: string, t: string, r: string, k: nat)
    requires k <= |s| && t == s[k..] && AllSpace(s[..k])
    requires |r| <= |t| && r == t[..|r|] && AllSpace(t[|r|..])
    ensures SpaceAround(s, r, k)
  {
    assert s[k..k + |r|] == t[..|r|];
    TrailingSpace(s, t, k, |r|);
  }

  /** White space after position `n` of a suffix `t` of `s` that starts at `k`
      is white space after position `k + n` of `s`. */
  lemma TrailingSpace(s: string, t: string, k: nat, n: nat)
    requires k <= |s| && t == s[k..] && n <= |t|
    requires AllSpace(t[n..])
    ensures AllSpace(s[k + n..])
  {
    forall i | k + n <= i < |s|
      ensures IsSpace(s[i])
    {
      assert s[i] == t[n..][i - k - n];
    }
  }

  /** Trimming leaves nothing exactly when the input is all white space. */
  lemma TrimBlank(s: string)
    ensures Trim(s) == [] <==> AllSpace(s)
  {
    var t := TrimStart(s);
    var r := TrimEnd(t);
    var k := |s| - |t|;
    if r != [] {
      assert r[0] == t[0] == s[k];
    } else {
      TrimStartDropsSpace(s);
      TrimEndDropsSpace(t);
      assert t[|r|..] == t;
      assert t == [];
      forall i | 0 <= i < |s|
        ensures IsSpace(s[i])
      {
        assert s[i] == s[..k][i];
      }
    }
  }

  /** Trimming twice is trimming once. */
  lemma TrimIdempotent(s: string)
    ensures Trim(Trim(s)) == Trim(s)
  {
    var r := Trim(s);
    TrimSpec(s);
    assert TrimStart(r) == r;
    assert TrimEnd(r) == r;
  }

  /** String.prototype.toLowerCase, for the ASCII letters. */
  function LowerChar(c: char): (r: char)
  {
    if 'A' <= c <= 'Z' then (c as int + 32) as char else c
  }

  function ToLower(s: string): (r: string)
    ensures |r| == |s|
    ensures forall i :: 0 <= i < |s| ==> r[i] == LowerChar(s[i])
    decreases |s|
  {
    if s == [] then [] else [LowerChar(s[0])] + ToLower(s[1..])
  }

  /** Comparing two strings after lowering both: case-insensitive equality. */
  predicate SameIgnoringCase(a: string, b: string)
  {
    ToLower(a) == ToLower(b)
  }

  lemma SameIgnoringCaseIsEquivalence(a: string, b: string, c: string)
    ensures SameIgnoringCase(a, a)
    ensures SameIgnoringCase(a, b) ==> SameIgnoringCase(b, a)
    ensures SameIgnoringCase(a, b) && SameIgnoringCase(b, c) ==> SameIgnoringCase(a, c)
  {
  }

  /** String.prototype.startsWith. */
  predicate StartsWith(s: string, prefix: string)
  {
    |prefix| <= |s| && s[..|prefix|] == prefix
  }

  /** `sub` occurs in `s` starting at index `k`. */
  predicate OccursAt(s: string, sub: string, k: int)
  {
    0 <= k && k + |sub| <= |s| && s[k..k + |sub|] == sub
  }

  /** String.prototype.includes: `sub` occurs somewhere in `s`. */
  predicate Contains(s: string, sub: string)
    decreases |s|
  {
    StartsWith(s, sub) || (s != [] && Contains(s[1..], sub))
  }

  /** `includes` finds exactly the substrings of `s`. */
  lemma {:induction false} ContainsIffOccurs(s: string, sub: string)
    ensures Contains(s, sub) <==> exists k :: OccursAt(s, sub, k)
    decreases |s|
  {
    if StartsWith(s, sub) {
      assert OccursAt(s, sub, 0);
    }
    if s != [] {
      ContainsIffOccurs(s[1..], sub);
      if Contains(s[1..], sub) {
        var k :| OccursAt(s[1..], sub, k);
        assert OccursAt(s, sub, k + 1);
      }
      if k :| OccursAt(s, sub, k) {
        if k > 0 {
          assert OccursAt(s[1..], sub, k - 1);
        } else {
          assert StartsWith(s, sub);
        }
      }
    } else {
      if k :| OccursAt(s, sub, k) {
        assert StartsWith(s, sub);
      }
    }
  }

  /** Every string includes the empty string: an empty search matches everything. */
  lemma ContainsEmpty(s: string)
    ensures Contains(s, "")
  {
    assert StartsWith(s, "");
  }

  /** The index of the first occurrence of `sep` in `s`, or -1. */
  function IndexOf(s: string, sep: string): (r: int)
    requires |sep| > 0
    ensures r == -1 || OccursAt(s, sep, r)
    ensures forall k :: 0 <= k && (r == -1 || k < r) ==> !OccursAt(s, sep, k)
    decreases |s|
  {
    if |s| < |sep| then -1
    else if s[..|sep|] == sep then 0
    else
      var r := IndexOf(s[1..], sep);
      assert forall k :: 1 <= k ==> (OccursAt(s, sep, k) <==> OccursAt(s[1..], sep, k - 1));
      if r < 0 then -1 else r + 1
  }

  /** String.prototype.split with a non-empty separator. */
  function Split(s: string, sep: string): (parts: seq<string>)
    requires |sep| > 0
    ensures |parts| > 0
    decreases |s|
  {
    var i := IndexOf(s, sep);
    if i < 0 then [s] else [s[..i]] + Split(s[i + |sep|..], sep)
  }

  /** Array.prototype.join. */
  function Join(parts: seq<string>, sep: string): string
    requires |parts| > 0
  {
    if |parts| == 1 then parts[0] else parts[0] + sep + Join(parts[1..], sep)
  }

  /** Joining the pieces of a split with the same separator gives back the input. */
  lemma {:induction false} JoinSplit(s: string, sep: string)
    requires |sep| > 0
    ensures Join(Split(s, sep), sep) == s
    decreases |s|
  {
    var i := IndexOf(s, sep);
    if i >= 0 {
      var rest := s[i + |sep|..];
      var parts := Split(s, sep);
      assert parts == [s[..i]] + Split(rest, sep);
      assert parts[1..] == Split(rest, sep);
      assert Join(parts, sep) == s[..i] + sep + Join(Split(rest, sep), sep);
      JoinSplit(rest, sep);
      assert s == s[..i] + s[i..i + |sep|] + rest;
    }
  }

  /** No piece of a split contains the separator. */
  lemma {:induction false} SplitPartsFree(s: string, sep: string, j: nat)
    requires |sep| > 0
    requires j < |Split(s, sep)|
    ensures !Contains(Split(s, sep)[j], sep)
    decreases |s|
  {
    var i := IndexOf(s, sep);
    var part := Split(s, sep)[j];
    if j == 0 {
      var limit := if i < 0 then |s| else i;
      assert part == s[..limit];
      ContainsIffOccurs(part, sep);
      forall k | 0 <= k && k + |sep| <= |part|
        ensures !OccursAt(part, sep, k)
      {
        assert part[k..k + |sep|] == s[k..k + |sep|];
        assert !OccursAt(s, sep, k);
      }
    } else {
      SplitPartsFree(s[i + |sep|..], sep, j - 1);
    }
  }

  /** The part before the first occurrence of `sep`, the whole input when there is none. */
  lemma SplitFirst(s: string, sep: string)
    requires |sep| > 0
    ensures var i := IndexOf(s, sep);
      Split(s, sep)[0] == if i < 0 then s else s[..i]
  {
  }

  /** The decimal digit for `d`: '0' to '9' are consecutive code points. */
  function DigitChar(d: int): (c: char)
    requires 0 <= d < 10
  {
    ('0' as int + d) as char
  }

  /** The decimal digits of `n`, as `${n}` renders a non-negative integer. */
  function NatToString(n: nat): (r: string)
    ensures |r| > 0
    ensures forall i :: 0 <= i < |r| ==> '0' <= r[i] <= '9'
    decreases n
  {
    if n < 10 then [DigitChar(n)] else NatToString(n / 10) + [DigitChar(n % 10)]
  }

  /** Distinct numbers render as distinct strings. */
  lemma {:induction false} NatToStringInjective(m: nat, n: nat)
    requires NatToString(m) == NatToString(n)
    ensures m == n
    decreases m
  {
    if m >= 10 && n >= 10 {
      var a, b := NatToString(m), NatToString(n);
      assert NatToString(m / 10) == a[..|a| - 1];
      assert NatToString(n / 10) == b[..|b| - 1];
      NatToStringInjective(m / 10, n / 10);
      assert DigitChar(m % 10) == a[|a| - 1] == DigitChar(n % 10);
    }
  }

  /** `${n}` for an integer: a minus sign before the digits of a negative number. */
  function IntToString(n: int): (r: string)
    ensures |r| > 0
    ensures (r[0] == '-') <==> n < 0
  {
    if n < 0 then "-" + NatToString(-n) else NatToString(n)
  }

  /** The default string order of Array.prototype.sort and of `<` on strings:
      lexicographic by character. */
  predicate StrLeq(a: string, b: string)
    decreases |a|
  {
    a == [] || (b != [] && (a[0] < b[0] || (a[0] == b[0] && StrLeq(a[1..], b[1..]))))
  }

  predicate StrLt(a: string, b: string)
  {
    StrLeq(a, b) && a != b
  }

  /** The string order is total, transitive and antisymmetric. */
  lemma {:induction false} StrLeqTotal(a: string, b: string)
    ensures StrLeq(a, b) || StrLeq(b, a)
    decreases |a|
  {
    if a != [] && b != [] && a[0] == b[0] {
      StrLeqTotal(a[1..], b[1..]);
    }
  }

  lemma {:induction false} StrLeqTransitive(a: string, b: string, c: string)
    requires StrLeq(a, b) && StrLeq(b, c)
    ensures StrLeq(a, c)
    decreases |a|
  {
    if a != [] && b != [] && c != [] && a[0] == b[0] == c[0] {
      StrLeqTransitive(a[1..], b[1..], c[1..]);
    }
  }

  lemma {:induction false} StrLeqAntisymmetric(a: string, b: string)
    requires StrLeq(a, b) && StrLeq(b, a)
    ensures a == b
    decreases |a|
  {
    if a != [] {
      StrLeqAntisymmetric(a[1..], b[1..]);
      assert a == [a[0]] + a[1..] && b == [b[0]] + b[1..];
    }
  }
}

=== FILE: welcome.dfy ===
/** The greeting on the welcome screen (pages/WelcomeScreen.tsx): the part of
    the signed-in user's e-mail address before the first '@', or "there". */
module Welcome {
  import opened Remote
  import opened Text

  /** The signed-in user as far as the greeting needs it: an e-mail address
      that may be missing. */
  datatype User = User(email: Option<string>)

  /** `user?.email?.split('@')[0] || 'there'`. */
  function UserName(user: Option<User>): (name: string)
    ensures name != ""
    ensures '@' !in name
    ensures user.None? || user.value.email.None? ==> name == "there"
    ensures user.Some? && user.value.email.Some? ==>
      var email := user.value.email.value;
      var i := IndexOf(email, "@");
      var prefix := if i < 0 then email else email[..i];
      name == if prefix == "" then "there" else prefix
  {
    if user.None? || user.value.email.None? then "there"
    else
      var email := user.value.email.value;
      var prefix := Split(email, "@")[0];
      SplitFirst(email, "@");
      NoAtBeforeFirst(email);
      if prefix == "" then "there" else prefix
  }

  /** The text before the first '@' holds no '@'. */
  lemma NoAtBeforeFirst(email: string)
    ensures var i := IndexOf(email, "@");
      '@' !in (if i < 0 then email else email[..i])
  {
    var i := IndexOf(email, "@");
    var prefix := if i < 0 then email else email[..i];
    forall k | 0 <= k < |prefix|
      ensures prefix[k] != '@'
    {
      assert !OccursAt(email, "@", k);
      assert email[k..k + 1] == [email[k]];
    }
  }
}
